=== FILE: README.md ===
# Livepeer Image Helper reader viewport, in Dafny

This project models the client core of the Livepeer Image Helper front end:
the reader viewport (`ReaderViewport` in `src/app/reader/viewport.tsx`), the
message vocabulary it shares with its back-end server (`types.ts`), the
stand-alone Twitter share-URL builder (`twitter-share.ts`) and the anonymous-id
cookie helpers (`cookie-management.ts`).

The viewport is modelled as an immutable `Session` record holding every piece
of React state and ref the core reads or writes, and the module-level
variables it uses. The active image URL and its dimensions are also a field
of the record, although the component keeps them in render-local variables
(see `Viewport.DoActiveImageChange` under "## Left out"). The outbox of sent
websocket messages, the pending `setTimeout` callbacks and the tabs opened by
`window.open`-style anchors are sequences in the same record. Each handler
is a pure function from a session to a session, or to an `Outcome` that also
carries the message of a thrown `Error`.

The modules are:

- ReaderTypes: inbound envelope tags, payload records, image processing
  modes, client user messages and the genre tables.
- Correlator: the three single-slot promise resolvers (mint details, get
  profile, store profile). Promises are numbered, and a settled promise keeps
  its first value. The get and store reply branches clear the mint slot
  rather than their own, and this is reproduced as written.
- Viewport:
  - the inbound-envelope reducer;
  - the websocket callbacks and the reconnect counter;
  - every UI-driven dispatch, with its guards;
  - the correlated request senders and the timers;
  - an event-level `Dispatch` with the invariants all events keep.
- MintPipeline: `doMintTokenOnStoryProtocol` as a state machine. Each
  awaited server reply is a phase holding the promise it waits on.
  `MintAmid` interleaves the run with arbitrary viewport events.
- CardShare: the viewport's own `buildImageShareForTwitterUrl`, for
  `twitter_card_details` payloads.
- TwitterShare: the exported `buildImageShareForTwitterUrl(postText,
  imageUrl, hashtags)`.
- Cookies: `getCookie`, `setCookie` and `getOrCreateAnonymousId`, over an
  explicit cookie jar.
- Support modules:
  - `JsString` models `trim`, `split`, `join` and `replace`.
  - `UriComponent` models `encodeURIComponent` (UTF-8, upper-case `%XX`), with
    a reference `decodeURIComponent`.
  - `IntentQuery` is a reference reader of share-intent query strings. The
    share-URL builders are proved against it.
  - `Results` holds `Option` and `Result`.

## Model

| member | source | states |
|---|---|---|
| `ReaderTypes.ParseTag` | src/app/reader/types.ts:87-88 | reading a `type` literal succeeds exactly for the thirteen literals of the `ServerMessage.type` union and yields the tag whose literal it is |
| `ReaderTypes.TagNameRoundTrip` | src/app/reader/types.ts:88 | every declared tag's literal reads back to that same tag |
| `ReaderTypes.ThirteenTags` | src/app/reader/types.ts:88 | the union has thirteen members, all listed, with pairwise distinct literals |
| `ReaderTypes.ParseMode` | src/app/reader/types.ts:7-14 | only `new`, `refine` and `enhance` read back as image processing modes, each to its own mode |
| `ReaderTypes.ModeNameRoundTrip` | src/app/reader/types.ts:7-14 | every mode's wire name reads back to that mode and is one of the three literals |
| `ReaderTypes.HandledTagsAreTen` | src/app/reader/viewport.tsx:1111-1281 | the reducer has a branch for a declared tag exactly when it is not `audio`, `stringified_json_object` or `license_response` |
| `ReaderTypes.BranchlessIffUnhandled` | src/app/reader/viewport.tsx:1111-1281 | a declared tag's literal can be carried by an envelope without a branch exactly when it is `audio`, `stringified_json_object` or `license_response`, so a `text` or `error` envelope always takes its own branch |
| `ReaderTypes.GenreTablesAgree` | src/app/reader/viewport.tsx:77-86 | the default-prompt table here and the `storyGenres` table of src/app/reader/types.ts:309-318 have the same eight genre keys |
| `ReaderTypes.EightGenres` | src/app/reader/types.ts:309-318 | there are eight genres, with distinct ids, the keys of both `storyGenres` and the default-prompt table at src/app/reader/viewport.tsx:77-86 |
| `JsString.TrimIsInfix` | src/social-share/twitter-share.ts:44 | `trim()` returns the input with only whitespace and line terminators removed from its two ends |
| `JsString.TrimEnds` | src/social-share/twitter-share.ts:44 | a non-empty trimmed string starts and ends with a character `trim()` keeps |
| `JsString.TrimEmptyIffBlank` | src/social-share/twitter-share.ts:17 | `s.trim().length === 0` holds exactly for strings made only of trimmable characters |
| `JsString.TrimIdempotent` | src/social-share/twitter-share.ts:44 | trimming twice gives what trimming once gives |
| `JsString.Split` | src/app/cookies/cookie-management.ts:15 | `split(sep)` yields at least one piece; the pieces joined with `sep` give back the input, and no piece contains `sep` |
| `JsString.FirstPiece` | src/app/cookies/cookie-management.ts:16 | `split(';').shift()` is the longest prefix without `;`, ended by a `;` or by the end of the input |
| `JsString.ReplaceFirst` | src/app/reader/viewport.tsx:467 | `replace` with a string pattern replaces only the leftmost occurrence, by the replacement with its `$` patterns expanded, and changes nothing when there is none |
| `JsString.SubstitutionPatterns` | src/app/reader/viewport.tsx:467 | in the replacement, `$$` is `$`, `$&` the matched text, `` $` `` the text before the match, `$'` the text after it, and `$` before any other character stands for itself (section 22.1.3.19.1 of ECMA-262) |
| `JsString.SubstitutionLiteral` | src/app/reader/viewport.tsx:467 | a replacement without `$` is inserted as it stands |
| `JsString.ReplaceAtLiteral` | src/app/reader/viewport.tsx:467 | with no `$` in the replacement, the occurrence is replaced by exactly the replacement text |
| `UriComponent.EncodeAlphabet` | src/social-share/twitter-share.ts:37-38 | `encodeURIComponent` output uses only unreserved characters, `%` and upper-case hex digits |
| `UriComponent.EncodeHasNoDelimiters` | src/social-share/twitter-share.ts:51 | encoded text never holds `&`, `=`, `#`, `?`, `,` or a space, so it cannot split a query |
| `UriComponent.Utf8RoundTrip` | src/social-share/twitter-share.ts:37 | each character's UTF-8 bytes decode back to that character |
| `UriComponent.DecodeEncode` | src/social-share/twitter-share.ts:37-38 | `decodeURIComponent(encodeURIComponent(s)) === s` for every string |
| `UriComponent.EncodeInjective` | src/social-share/twitter-share.ts:37-38 | two strings with the same encoding are equal |
| `UriComponent.EncodeLineFeed` | src/app/reader/viewport.tsx:1027 | the `%0A` the share URL writes is the encoding of a line feed |
| `IntentQuery.QueryParamsOf` | src/social-share/twitter-share.ts:51 | a URL built as `base?p1&p2&...` reads back as exactly the parameters `p1, p2, ...` when the base has no `?` and no parameter has an `&` |
| `TwitterShare.BuildImageShareForTwitterUrl` | src/social-share/twitter-share.ts:13-52 | a blank post text, then a blank image URL, then an unparsable URL or one whose protocol does not start with `http`, each throw their own error; every other input builds a URL |
| `TwitterShare.CleanTagsKeepsAll` | src/social-share/twitter-share.ts:43-46 | tags that are not blank are all kept, in order, each trimmed |
| `TwitterShare.CleanTagsDropsBlank` | src/social-share/twitter-share.ts:45 | blank tags are all dropped |
| `TwitterShare.CleanTagsAppend` | src/social-share/twitter-share.ts:43-46 | tags are cleaned one at a time, so cleaning a concatenation concatenates the cleaned parts |
| `TwitterShare.ShareUrlParams` | src/social-share/twitter-share.ts:37-51 | the URL has the parameters `text`, `url` and, when the hashtag array is non-empty, `hashtags`, in that order |
| `TwitterShare.ReadHashtags` | src/social-share/twitter-share.ts:41-48 | a `hashtags` parameter is written whenever the array is non-empty, even when every tag is blank, and carries the cleaned tags joined by commas |
| `TwitterShare.ShareUrlCarriesInputs` | src/social-share/twitter-share.ts:13-52 | an accepted URL addresses `https://twitter.com/intent/tweet`, and a reader of it gets back the post text under `text`, the image URL under `url`, and the cleaned hashtags |
| `TwitterShare.ShareUrlAddressesIntent` | src/social-share/twitter-share.ts:14-51 | the share URL starts with the tweet-intent endpoint followed by `?` |
| `CardShare.CardShareChecks` | src/app/reader/viewport.tsx:971-993 | each of the four errors is thrown exactly when its check is the first to fail: blank tweet, blank card URL, unparsable card URL, protocol other than `https:`; every other payload builds a URL |
| `CardShare.SignatureDecodes` | src/app/reader/viewport.tsx:1027 | the text after the tweet decodes to a line feed, the credit line and a line feed, and holds no `&` |
| `CardShare.CardShareUrlParams` | src/app/reader/viewport.tsx:1015-1027 | the card share URL has exactly two parameters, `text` then `url` |
| `CardShare.ReadCardHashtags` | src/app/reader/viewport.tsx:1004-1011 | the computed hashtag parameter is never written into the URL |
| `CardShare.CardShareReadsBack` | src/app/reader/viewport.tsx:967-1032 | an accepted URL addresses `https://twitter.com/intent/tweet`, and a reader of it gets the tweet followed by the credit line, the card URL followed by a line feed, and no hashtags |
| `CardShare.CardShareUrlAddressesIntent` | src/app/reader/viewport.tsx:1022-1027 | the card share URL starts with the tweet-intent endpoint followed by `?` |
| `Cookies.GetCookie` | src/app/cookies/cookie-management.ts:13-17 | a value found never contains `;` |
| `Cookies.GetCookieIffUnique` | src/app/cookies/cookie-management.ts:14-16 | for a name without `;`, a value is returned exactly when `; name=` occurs exactly once in `"; " + document.cookie` |
| `Cookies.GetCookieAbsent` | src/app/cookies/cookie-management.ts:15-16 | with no occurrence of `; name=`, nothing is returned |
| `Cookies.GetCookieDuplicated` | src/app/cookies/cookie-management.ts:15-16 | with two occurrences (three pieces), nothing is returned |
| `Cookies.GetCookieFound` | src/app/cookies/cookie-management.ts:16 | with one occurrence, the value is what follows it up to the next `;` |
| `Cookies.NameMatchesOnlyAtBoundary` | src/app/cookies/cookie-management.ts:14-15 | the `"; "` padding keeps `id` from matching inside `uid=42` |
| `Cookies.NameFoundAtBoundary` | src/app/cookies/cookie-management.ts:14-16 | `id` is found after `uid=42; ` with its own value |
| `Cookies.GetCookieFromJar` | src/app/cookies/cookie-management.ts:13-17 | on a jar of well-formed cookies with distinct names, the lookup returns the stored value of the name, or nothing when it is not stored |
| `Cookies.ExpiryInstant` | src/app/cookies/cookie-management.ts:28-29 | the expiry lies `days` times 86,400,000 ms after now |
| `Cookies.SetCookieTextParses` | src/app/cookies/cookie-management.ts:30-31 | the written cookie text splits at `;` into the pair, the expiry and the path |
| `Cookies.Store` | src/app/cookies/cookie-management.ts:31 | assigning `document.cookie` keeps the new cookie, drops only cookies of the same name, and leaves one cookie per name |
| `Cookies.StoreKeepsWellFormed` | src/app/cookies/cookie-management.ts:31 | storing a well-formed cookie into a well-formed jar gives a well-formed jar |
| `Cookies.GetOrCreateAnonymousId` | src/app/cookies/cookie-management.ts:40-54 | a non-empty stored id is returned with nothing written; otherwise the fresh id is returned and written with a 365-day lifetime |
| `Cookies.ExistingIdKept` | src/app/cookies/cookie-management.ts:44-53 | a stored non-empty id is returned unchanged and the jar is untouched |
| `Cookies.FreshIdStored` | src/app/cookies/cookie-management.ts:47-50 | after a fresh id is written, the lookup finds it |
| `Cookies.AnonymousIdStable` | src/app/cookies/cookie-management.ts:40-54 | a second call returns the same id as the first and writes nothing, whatever fresh id it is offered |
| `Correlator.Request` | src/app/reader/viewport.tsx:554-556 | a request creates the next promise and parks it in its own kind's slot, overwriting it, with the other two slots untouched |
| `Correlator.Settle` | src/app/reader/viewport.tsx:1217 | resolving a promise records its value the first time only; every other promise's settlement is unchanged |
| `Correlator.OnMintReply` | src/app/reader/viewport.tsx:1208-1221 | a details reply settles a still-pending promise in the mint slot with the reply's `details` and clears that slot; an already settled promise keeps its value, every other settlement is unchanged, and with an empty slot the reply is dropped |
| `Correlator.OnGetReply` | src/app/reader/viewport.tsx:1223-1244 | a get reply settles a still-pending promise in the get slot with the decoded presence, null for a null payload; an already settled promise keeps its value, every other settlement is unchanged, the get slot is kept and the mint slot cleared; with an empty get slot the reply is dropped |
| `Correlator.OnStoreReply` | src/app/reader/viewport.tsx:1247-1262 | a store reply settles a still-pending promise in the store slot with the reply's `result`; an already settled promise keeps its value, every other settlement is unchanged, the store slot is kept and the mint slot cleared; with an empty store slot the reply is dropped |
| `Correlator.ApplyValid` | src/app/reader/viewport.tsx:114-125 | every request and reply keeps each slot holding a promise of its own kind and each settlement of its promise's kind |
| `Correlator.RunValid` | src/app/reader/viewport.tsx:114-125 | the same holds over any sequence of requests and replies |
| `Correlator.SettledStays` | src/app/reader/viewport.tsx:1214-1262 | a settled promise keeps its value whatever follows |
| `Correlator.RequestOrphansPrevious` | src/app/reader/viewport.tsx:676-678 | a second request of a kind leaves the first one's promise in no slot |
| `Correlator.OrphanNeverSettles` | src/app/reader/viewport.tsx:1208-1262 | a promise in no slot that has not settled never settles |
| `Correlator.MintReplyOnce` | src/app/reader/viewport.tsx:1214-1220 | a second details reply changes nothing |
| `Correlator.GetReplyRepeats` | src/app/reader/viewport.tsx:1229-1244 | the get slot is never cleared, so a repeated get reply re-invokes a settled resolver: the first value stands |
| `Correlator.StoreReplyRepeats` | src/app/reader/viewport.tsx:1253-1262 | the same for the store slot |
| `Correlator.PresenceReplyStrandsMint` | src/app/reader/viewport.tsx:1229-1261 | a get or store reply arriving while a details request is pending clears the mint slot, so that request's promise never settles |
| `Correlator.PipelineOrderSettles` | src/app/reader/viewport.tsx:742-827 | in the pipeline's order (get, mint, store), one reply per request settles each promise with its reply |
| `Viewport.Initial` | src/app/reader/viewport.tsx:129-172 | the mounted session: the signed-in name or `Anonymous`, the default prompt, story and genre, not busy, no error, zero reconnect attempts, a new license session, no active image, nothing sent or pending |
| `Viewport.Receive` | src/app/reader/viewport.tsx:1099-1110 | a binary frame changes nothing; a text frame that is not an error clears the banner; a frame throws exactly when the reducer rejects it; nothing is sent and neither the reconnect counter nor the license flag moves |
| `Viewport.Handle` | src/app/reader/viewport.tsx:1111-1281 | an envelope throws exactly for an unknown container type, an empty card URL, a rejected card payload or a tag without a branch (an `Other` envelope, whose tag is never one the reducer branches on); only an error envelope touches the banner; the slots change as the correlator says |
| `Viewport.HandleContainer` | src/app/reader/viewport.tsx:1111-1153 | a `license_response` container stores the license object, shows its next question and replaces the explainer only with a non-empty explanation; any other type throws naming it, changing nothing |
| `Viewport.HandleCardDetails` | src/app/reader/viewport.tsx:1187-1206 | a card payload throws for any client message other than `twitter_share`, or with the share-URL builder's error; otherwise it opens exactly the built URL |
| `Viewport.RejectionMessages` | src/app/reader/viewport.tsx:1148-1280 | each rejection throws its source message: unknown json type, empty card URL, unknown client message, the builder's error, invalid data type |
| `Viewport.UnhandledTagsThrow` | src/app/reader/viewport.tsx:1279-1281 | the three declared tags without a branch are carried by `Other` and throw `Invalid data type` followed by the tag |
| `Viewport.LicenseResponseSaved` | src/app/reader/viewport.tsx:1117-1134 | a license response is stored, its next question shown, its explanation shown when non-empty |
| `Viewport.StateReplacesStatus` | src/app/reader/viewport.tsx:1158-1166 | a state envelope replaces the status text and changes nothing else but the banner |
| `Viewport.ImageEnvelope` | src/app/reader/viewport.tsx:1167-1178 | a non-empty image list shows the carousel, stores the images and ends the busy state; an empty one only clears the banner |
| `Viewport.ErrorEnvelope` | src/app/reader/viewport.tsx:1265-1278 | an error envelope ends the busy state, shows the server's error or the fallback text, and schedules the banner's clearing; nothing else changes |
| `Viewport.TextDeltasAccumulate` | src/app/reader/viewport.tsx:1154-1157 | the story after any run of text frames is the old story followed by the deltas, in order |
| `Viewport.OnOpen` | src/app/reader/viewport.tsx:398-402 | opening resets the reconnect counter and marks the connection established; the banner is cleared only on a transition to connected |
| `Viewport.OnClose` | src/app/reader/viewport.tsx:403-412 | closing marks the connection lost, ends the busy state and shows `Disconnected: ` with the reason; nothing else changes |
| `Viewport.OnError` | src/app/reader/viewport.tsx:413-416 | a socket error only sets the banner |
| `Viewport.ShouldReconnect` | src/app/reader/viewport.tsx:337-344 | a reconnect is granted exactly while fewer than five attempts were counted, and a grant counts one more |
| `Viewport.ReconnectsBounded` | src/app/reader/viewport.tsx:337-344 | with no open in between, `n` closes from a count of `k` grant exactly `min(n, 5 - k)` reconnects and leave the count at `min(k + n, 5)` |
| `Viewport.OnPromptUpdate` | src/app/reader/viewport.tsx:586-589 | typing records that the user typed and stores the prompt |
| `Viewport.OnLicenseAssistantTakeAction` | src/app/reader/viewport.tsx:361-388 | while busy nothing happens; otherwise one volley carrying the current new-session flag is sent, the story cleared and the flag lowered, and nothing else changes |
| `Viewport.SendUserBlockchainPresenceMessage` | src/app/reader/viewport.tsx:427-442 | a presence without a public address throws and sends nothing; otherwise exactly one store request is sent |
| `Viewport.OnGenreChange` | src/app/reader/viewport.tsx:460-469 | the genre is always set; only if the user has not typed, the prompt becomes the genre's default passed through `replace('%user%', name)`; a genre without a default prompt throws |
| `Viewport.GenreChangeTotal` | src/app/reader/viewport.tsx:460-469 | a genre of the genre table never throws |
| `Viewport.DoTheImageRequest` | src/app/reader/viewport.tsx:475-500 | an image request hides the carousel, raises the busy flag, clears the story and sends the current prompt, mode and active image, changing nothing else |
| `Viewport.OnGenreSelect` | src/app/reader/viewport.tsx:505-511 | while busy nothing happens; otherwise a refine request is made, with the carousel hidden, the busy flag up, the story cleared and nothing else changed |
| `Viewport.DoMakeImage` | src/app/reader/viewport.tsx:519-529 | while busy nothing happens; otherwise the prompt is set to the input and an enhance request is made (carousel hidden, busy, story cleared), but the request carries the prompt as it was |
| `Viewport.DoProcessImage` | src/app/reader/viewport.tsx:632-648 | a request is made exactly for `new`, or for another mode with an active image, and it carries that mode, the prompt and the active image, hides the carousel, raises the busy flag and clears the story; otherwise nothing changes |
| `Viewport.RequestGetUserBlockchainPresence` | src/app/reader/viewport.tsx:542-557 | sends one get request for the address and parks a fresh promise in the get slot |
| `Viewport.RequestStoreUserBlockchainPresence` | src/app/reader/viewport.tsx:572-584 | a presence without address throws before any promise exists; otherwise one store request is sent and a fresh promise parked in the store slot |
| `Viewport.RequestMintNftTokenDetails` | src/app/reader/viewport.tsx:654-679 | sends one mint request with the user id, presence, image, dimensions and `(none)`, and parks a fresh promise in the mint slot |
| `Viewport.DoShareImageOnTwitter` | src/app/reader/viewport.tsx:603-621 | with an active image one share request is sent, otherwise nothing changes |
| `Viewport.DoHandleBackButtonClick` | src/app/reader/viewport.tsx:690-693 | only hides the license assistant |
| `Viewport.DoLicenseAssistantBeforeMinting` | src/app/reader/viewport.tsx:928-939 | raises the new-license-session flag and shows the license assistant, changing nothing else |
| `Viewport.DoActiveImageChange` | src/app/reader/viewport.tsx:945-958 | a non-empty URL becomes the active image with its dimensions; an empty one changes nothing |
| `Viewport.OpenExplorerPage` | src/app/reader/viewport.tsx:1073-1093 | an empty URL throws and opens nothing; otherwise exactly that URL is opened |
| `Viewport.FireTimer` | src/app/reader/viewport.tsx:896-904 | a fired timer is removed and the others stay in order; the error timer only clears the banner; the explorer timer ends the busy state and opens its URL, or throws on an empty URL |
| `Viewport.ErrorClearsAfterDelay` | src/app/reader/viewport.tsx:454-458 | after an error envelope, the timer scheduled last has a 5000 ms delay and clears the banner when it fires |
| `Viewport.DispatchSocket` | src/app/reader/viewport.tsx:395-419 | socket callbacks send nothing, keep the slots and the license flag, keep the reconnect count within five, and reset it on open |
| `Viewport.DispatchPrompt` | src/app/reader/viewport.tsx:460-529 | prompt-box events send no volley and leave the reconnect count, slots and license flag alone; only a genre change can throw |
| `Viewport.DispatchToolbar` | src/app/reader/viewport.tsx:603-648 | toolbar events send no volley and leave the reconnect count, slots and license flag alone |
| `Viewport.DispatchLicense` | src/app/reader/viewport.tsx:361-388 | license events only append, every volley carries the flag as it was, and only the before-minting event raises the flag |
| `Viewport.DispatchRequest` | src/app/reader/viewport.tsx:542-584 | a correlated request throws exactly for a store of a presence without address, changing nothing; otherwise it sends one message and moves the slots as the correlator's request does |
| `Viewport.ReceiveDrivesSlots` | src/app/reader/viewport.tsx:1208-1262 | the reducer moves the resolver slots exactly as the correlator's replies do |
| `Viewport.DispatchInbound` | src/app/reader/viewport.tsx:1099-1283 | a received frame keeps the reconnect bound and the slot invariant |
| `Viewport.DispatchTimeout` | src/app/reader/viewport.tsx:454-458 | firing a pending timer removes it, sends nothing and leaves the counter, slots and license flag alone |
| `Viewport.Dispatch` | src/app/reader/viewport.tsx:381-387 | every event keeps the invariant, only appends to the outbox, sends volleys with the flag it found, and raises the flag only when it is the before-minting event |
| `Viewport.RunEvents` | src/app/reader/viewport.tsx:381-387 | over any sequence of events the invariant holds and the outbox only grows; with the flag down and no before-minting event, the flag stays down and no new volley claims a new session |
| `Viewport.ArmedVolleyIsNew` | src/app/reader/viewport.tsx:928-939 | after arming, the next volley is sent with the new-session flag `true` and the one after it with `false` |
| `MintPipeline.Start` | src/app/reader/viewport.tsx:708-743 | without an active image nothing happens; otherwise the license assistant is hidden and the preflight runs; a failed preflight ends the run with nothing sent; a passed one requests the stored presence for the wallet's address |
| `MintPipeline.OnProfile` | src/app/reader/viewport.tsx:742-780 | a null profile reply selects the fresh local presence, otherwise the server's copy; the mint details are requested for the selected one |
| `MintPipeline.Provision` | src/app/reader/viewport.tsx:785-830 | provisioning logs the collection call after the earlier calls and reports it; a failed creation throws before anything is stored; otherwise the presence, marked as having a collection, is sent to be stored |
| `MintPipeline.AfterMint` | src/app/reader/viewport.tsx:867-877 | the presence after minting is the one the details reply carried, with the new NFT appended and nothing else changed |
| `MintPipeline.Register` | src/app/reader/viewport.tsx:846-912 | minting throws without a license object before the wallet is asked; a rejected mint throws; a successful one schedules the 3000 ms explorer timer and then sends the updated presence to be stored; the session stays busy |
| `MintPipeline.OnDetails` | src/app/reader/viewport.tsx:785-788 | handling the details changes only the run's call log and phase; which branch it takes is stated by `ProvisionIffUninitialized` |
| `MintPipeline.OnProvisionStored` | src/app/reader/viewport.tsx:825-897 | a `false` store reply throws and leaves the session untouched; a `true` one goes on to minting: the session is busy, the wallet mints exactly when a license object is present (otherwise the unassigned-license error is thrown), and a registered NFT schedules the explorer timer |
| `MintPipeline.OnFinalStored` | src/app/reader/viewport.tsx:910-915 | the final store reply ends the run, completing exactly when the store succeeded and otherwise throwing the final-store message, with the session and every other mint field untouched |
| `MintPipeline.ProfileMoves` | src/app/reader/viewport.tsx:742-780 | the profile reply takes the run strictly further, with the calls in order, the invariant kept and the outbox only grown |
| `MintPipeline.ProvisionMoves` | src/app/reader/viewport.tsx:785-830 | provisioning takes the run past the details, with the collection call logged after the preflight |
| `MintPipeline.RegisterMoves` | src/app/reader/viewport.tsx:846-912 | minting takes the run past the details or the provisioning store, with the mint call logged last |
| `MintPipeline.DetailsMove` | src/app/reader/viewport.tsx:779-844 | the details reply takes the run strictly further |
| `MintPipeline.ProvisionStoredMoves` | src/app/reader/viewport.tsx:825-846 | the provisioning store reply takes the run strictly further |
| `MintPipeline.Resume` | src/app/reader/viewport.tsx:708-921 | a run waiting on a promise that has not settled, or a finished run, is left exactly as it was; any other move takes it strictly further; the calls stay in order and the invariant holds |
| `MintPipeline.PresenceReplyStallsPipeline` | src/app/reader/viewport.tsx:1243 | a get or store reply arriving while the run waits for its details strands the run: the details promise never settles |
| `MintPipeline.StartValid` | src/app/reader/viewport.tsx:742-743 | starting a run keeps the session invariant |
| `MintPipeline.MintAmid` | src/app/reader/viewport.tsx:708-921 | however viewport events interleave with a run, the invariant holds, the outbox only grows, the wallet calls stay in order, and a run that ended at the click stays as it ended |
| `MintPipeline.InOrderNoRepeats` | src/app/reader/viewport.tsx:708-921 | no wallet call is made twice in one run |
| `MintPipeline.ProvisionIffUninitialized` | src/app/reader/viewport.tsx:785-821 | the collection is created exactly when the selected presence has none; a failed creation throws with the busy flag down, nothing sent and no mint call |
| `MintPipeline.ProvisionStoreFailureStops` | src/app/reader/viewport.tsx:825-830 | a `false` from the provisioning store throws before the mint call, leaving the session untouched |
| `MintPipeline.NoLicenseStopsBeforeMint` | src/app/reader/viewport.tsx:856-862 | without a license object the run throws before the mint call, with the session busy and nothing sent |
| `MintPipeline.ExplorerOpensDespiteFinalFailure` | src/app/reader/viewport.tsx:894-915 | the explorer timer is scheduled before the final store, so when that store answers `false` the run throws and the page still opens 3000 ms later, ending the busy state |

## Left out

- Wallet, chain and server: the `UserBlockchainPresence` class and its wallet module are not part of this model. Its answers are the `MintPipeline.Wallet` input: the preflight result, the fresh presence, collection creation, mint-and-register and the explorer page URL. The preflight's own error message and the BigInt-aware JSON (de)serialisation are left out too. Presences are decoded values, so stringifying and parsing them is the identity.
- Timing of wallet calls: each wallet call completes within the pipeline move that makes it. The busy flag raised only for the duration of the collection call, and lowered and raised again between minting and scheduling the explorer page, is one write of its final value.
- Spinner resets (`resetSpinner`), console logging and the connection-status badge are left out: they write no state the core reads. React rendering is left out too, except for the render-local active image described under `Viewport.DoActiveImageChange`.
- Viewport.DoActiveImageChange: `activeImageUrl` and `activeImageDimensions` are render-local variables, reset to `''` and `{0, 0}` on every render (viewport.tsx:285-286). They are read by the share, process and mint handlers (viewport.tsx:606, 643, 711). The model keeps them as a persistent session field instead. This relies on the carousel's effect (image-viewer.tsx:64-75), which reports the selected image again after every viewport render, because the callback it depends on is recreated each time. A handler that runs between a render and that effect would see the empty URL; the model does not represent that window.
- I/O: the websocket transport, `JSON.parse` of frames and containers, and `window.URL` are left out. Frames arrive as typed envelopes whose payload matches their tag, as the source's unchecked casts assume. URL parsing is a function parameter returning the parsed protocol, or nothing where the constructor throws. Anchor clicks append to `openedTabs`.
- The clock, `crypto.randomUUID` and `Date.toUTCString` are parameters of the cookie functions.
- The license assistant's fixed introduction is the symbol `Introduction`, not its text.
- The Twitter-button effect on `images` (viewport.tsx:311-323) is left out: it toggles a toolbar control outside the modelled state.
- Timers are pending callbacks that fire when a `Timeout` event names them. Their delays (5000 ms, 3000 ms) are recorded, not simulated.
- JavaScript numbers (dimensions, fees) are unbounded integers.
- Lone UTF-16 surrogates cannot occur in Dafny strings, so `encodeURIComponent`'s `URIError` is not modelled.
- Viewport.OnGenreChange: none of the eight default prompts (viewport.tsx:77-86) contains `%user%`, so in the program the user's name is never inserted and the prompt is the default as written. The model applies the general `replace` and does not prove this about the eight literals.
- Viewport.OnGenreChange: a genre without a default prompt throws the engine's `TypeError`. Its text is represented by one fixed message, since the wording differs between engines.
- Viewport.Receive: a throw inside the message effect goes to React's error handling, and with no error boundary in the page the viewport is torn down. The model records the thrown message and the state written before the throw, and `RunEvents` and `MintAmid` go on dispatching later events. This over-approximates: every property they state holds for all event sequences, so it also holds for the sequences that stop at such a throw. A throw from a user handler or a timer callback does not tear the page down, and the model treats it the same way.
- MintPipeline.OnDetails: its contract states only which fields change. The branch it takes is stated by `MintPipeline.ProvisionIffUninitialized`, and its effects by `MintPipeline.Provision` and `MintPipeline.Register`.
- Viewport.DispatchInbound: its contract states the invariant. The frame's effects are those of `Viewport.Receive`, whose contract and lemmas state them.
- MintPipeline.Register: the explorer page URL is taken as a wallet answer. The source reads it from the after-mint presence object, whose `getNftExplorerPageUrl` belongs to the wallet module.
- The trailing line feed in the card share URL's `url` parameter and the never-written hashtags are reproduced, not corrected.

=== FILE: card_share.dfy ===
/** `buildImageShareForTwitterUrl(twitterSharePayload)` of the reader
    viewport: validates the tweet text and the Twitter card URL of a
    `twitter_card_details` payload, then builds the share-intent URL whose
    `text` parameter carries the tweet followed by a credit line and whose
    `url` parameter carries the card URL followed by a line break. The
    hashtags the payload carries are trimmed and joined, but the result is
    never used. URL parsing (`new window.URL`) is the parameter
    `protocolOf`: the parsed `protocol`, or `None` where the constructor
    throws. */
module CardShare {
  import opened Results
  import opened JsString
  import opened UriComponent
  import opened IntentQuery
  import opened ReaderTypes

  /** The four errors the function throws, in the order it checks them. */
  datatype CardShareError =
    | TweetTextEmpty
    | CardUrlEmpty
    | CardUrlInvalid(url: string)
    | CardUrlNotHttps(url: string)

  /** The message of the thrown `Error`. */
  function Message(e: CardShareError): string {
    match e
    case TweetTextEmpty => "tweet_text cannot be an empty string."
    case CardUrlEmpty => "twitter_card_url cannot be an empty string."
    case CardUrlInvalid(url) => "url_to_twitter_card is not a valid URL: " + url
    case CardUrlNotHttps(url) => "url_to_twitter_card must use the HTTPS protocol: " + url
  }

  /** A line break, already escaped. */
  const LineBreak: string := "%0A"

  /** The credit line, written into the URL with its spaces unescaped. */
  const PoweredBy: string := "-- Powered by @SambaNovaAI and @Livepeer "

  /** What the URL appends to the encoded tweet. */
  const Signature: string := LineBreak + PoweredBy + LineBreak

  /** What a reader decodes `Signature` to. */
  const SignatureText: string := "\n" + (PoweredBy + "\n")

  /** `text=<tweet>%0A-- Powered by ... %0A`. */
  function CardTextParam(tweetText: string): string {
    Param("text", Encode(tweetText) + Signature)
  }

  /** `url=<card url>%0A`. */
  function CardUrlParam(cardUrl: string): string {
    Param("url", Encode(cardUrl) + LineBreak)
  }

  /** The template `${base}?text=${tweet}%0A-- Powered by ...%0A&url=${card}%0A`,
      grouped by parameter. */
  function CardShareUrl(tweetText: string, cardUrl: string): string {
    TweetIntent + "?" + CardTextParam(tweetText) + "&" + CardUrlParam(cardUrl)
  }

  /** The URL for a `twitter_card_details` payload, or the first check it
      fails. The checks are stated by `CardShareChecks`. */
  function BuildCardShareUrl(details: TwitterCardDetails, protocolOf: string -> Option<string>)
    : Result<string, CardShareError>
  {
    var tweet, url := details.tweetText, details.twitterCardUrl;
    if IsBlank(tweet) then Err(TweetTextEmpty)
    else if IsBlank(url) then Err(CardUrlEmpty)
    else
      match protocolOf(url)
      case None => Err(CardUrlInvalid(url))
      case Some(protocol) =>
        if protocol != "https:" then Err(CardUrlNotHttps(url))
        else Ok(CardShareUrl(tweet, url))
  }

  /** Each error is thrown exactly when its check is the first to fail: a
      blank tweet, then a blank card URL, then one that does not parse, then
      one whose protocol is not `https:`; everything else builds a URL. */
  lemma CardShareChecks(details: TwitterCardDetails, protocolOf: string -> Option<string>)
    ensures var r := BuildCardShareUrl(details, protocolOf);
            && (r == Err(TweetTextEmpty) <==> IsBlank(details.tweetText))
            && (r == Err(CardUrlEmpty) <==> !IsBlank(details.tweetText) && IsBlank(details.twitterCardUrl))
            && (r == Err(CardUrlInvalid(details.twitterCardUrl)) <==>
                  && !IsBlank(details.tweetText) && !IsBlank(details.twitterCardUrl)
                  && protocolOf(details.twitterCardUrl).None?)
            && (r == Err(CardUrlNotHttps(details.twitterCardUrl)) <==>
                  && !IsBlank(details.tweetText) && !IsBlank(details.twitterCardUrl)
                  && protocolOf(details.twitterCardUrl).Some?
                  && protocolOf(details.twitterCardUrl).value != "https:")
            && (r.Ok? <==>
                  && !IsBlank(details.tweetText) && !IsBlank(details.twitterCardUrl)
                  && protocolOf(details.twitterCardUrl) == Some("https:"))
  {
  }

  /** The credit line has no escape character, so it decodes to itself... */
  lemma PoweredByHasNoPercent()
    ensures '%' !in PoweredBy
  {
  }

  /** ... and no parameter separator. */
  lemma PoweredByHasNoAmpersand()
    ensures '&' !in PoweredBy
  {
  }

  /** The signature decodes to a line feed, the credit line and a line feed. */
  lemma SignatureDecodes()
    ensures Decode(Signature) == Some(SignatureText)
    ensures '&' !in Signature
  {
    EncodeLineFeed();
    PoweredByHasNoPercent();
    PoweredByHasNoAmpersand();
    Regroup(Encode("\n"), PoweredBy, Encode("\n"));
    DecodeEncode("\n");
    DecodePlainThen(PoweredBy, Encode("\n"));
    DecodeEncodeThen("\n", PoweredBy + Encode("\n"));
  }

  /** Neither parameter holds the `&` that separates them. */
  lemma CardParamsHaveNoAmpersand(tweetText: string, cardUrl: string)
    ensures '&' !in CardTextParam(tweetText) && '&' !in CardUrlParam(cardUrl)
  {
    EncodeHasNoDelimiters(tweetText);
    EncodeHasNoDelimiters(cardUrl);
    SignatureDecodes();
  }

  /** The share URL is made of exactly these two parameters. */
  lemma CardShareUrlParams(tweetText: string, cardUrl: string)
    ensures QueryParams(CardShareUrl(tweetText, cardUrl)) == [CardTextParam(tweetText), CardUrlParam(cardUrl)]
  {
    CardParamsHaveNoAmpersand(tweetText, cardUrl);
    assert '?' !in TweetIntent;
    QueryParamsOfTwo(TweetIntent, CardTextParam(tweetText), CardUrlParam(cardUrl));
  }

  /** The reader finds the tweet, then the credit line, under `text`. */
  lemma ReadCardText(tweetText: string, cardUrl: string)
    ensures Lookup([CardTextParam(tweetText), CardUrlParam(cardUrl)], "text") == Some(tweetText + SignatureText)
  {
    var params := [CardTextParam(tweetText), CardUrlParam(cardUrl)];
    ParamNamed("text", Encode(tweetText) + Signature, "url");
    LookupAt(params, "text", 0);
    SignatureDecodes();
    DecodeEncodeThen(tweetText, Signature);
  }

  /** The reader finds the card URL, then a line feed, under `url`. */
  lemma ReadCardUrl(tweetText: string, cardUrl: string)
    ensures Lookup([CardTextParam(tweetText), CardUrlParam(cardUrl)], "url") == Some(cardUrl + "\n")
  {
    var params := [CardTextParam(tweetText), CardUrlParam(cardUrl)];
    ParamNamed("text", Encode(tweetText) + Signature, "url");
    ParamNamed("url", Encode(cardUrl) + LineBreak, "text");
    LookupAt(params, "url", 1);
    EncodeLineFeed();
    DecodeEncode("\n");
    DecodeEncodeThen(cardUrl, LineBreak);
  }

  /** No `hashtags` parameter is ever written. */
  lemma ReadCardHashtags(tweetText: string, cardUrl: string)
    ensures Lookup([CardTextParam(tweetText), CardUrlParam(cardUrl)], "hashtags") == None
  {
    var params := [CardTextParam(tweetText), CardUrlParam(cardUrl)];
    ParamNamed("text", Encode(tweetText) + Signature, "hashtags");
    ParamNamed("url", Encode(cardUrl) + LineBreak, "hashtags");
    LookupAbsent(params, "hashtags");
  }

  /** The card share URL addresses the tweet intent. */
  lemma CardShareUrlAddressesIntent(tweetText: string, cardUrl: string)
    ensures TweetIntent + "?" <= CardShareUrl(tweetText, cardUrl)
  {
    var head, t := TweetIntent + "?", CardTextParam(tweetText);
    PrefixExtends(head, head, t);
    PrefixExtends(head, head + t, "&");
    PrefixExtends(head, head + t + "&", CardUrlParam(cardUrl));
  }

  /** What a reader of an accepted share URL finds: the tweet followed by the
      credit line, the card URL followed by a line feed, and no hashtags
      whatever the payload's hashtag array held. */
  lemma CardShareReadsBack(details: TwitterCardDetails, protocolOf: string -> Option<string>)
    requires BuildCardShareUrl(details, protocolOf).Ok?
    ensures var url := BuildCardShareUrl(details, protocolOf).value;
            && TweetIntent + "?" <= url
            && ParamValue(url, "text") == Some(details.tweetText + SignatureText)
            && ParamValue(url, "url") == Some(details.twitterCardUrl + "\n")
            && ParamValue(url, "hashtags") == None
  {
    var tweet, card := details.tweetText, details.twitterCardUrl;
    assert BuildCardShareUrl(details, protocolOf).value == CardShareUrl(tweet, card);
    CardShareUrlAddressesIntent(tweet, card);
    CardShareUrlParams(tweet, card);
    ReadCardText(tweet, card);
    ReadCardUrl(tweet, card);
    ReadCardHashtags(tweet, card);
  }
}

=== FILE: cookies.dfy ===
/** The anonymous-identity cookie helpers of the client: a lookup over the
    `document.cookie` string, the `Set-Cookie` text written back, and the
    get-or-create of the anonymous user id. The browser's cookie jar is
    modelled as a list of name/value pairs that `document.cookie` serialises
    as section 5.4 of RFC 6265 prescribes (`name=value` pairs joined by
    `"; "`). */
module Cookies {
  import opened Results
  import opened JsString

  const AnonymousIdCookie: string := "anonymousUserId"
  /** Days the anonymous id cookie lives. */
  const AnonymousIdLifetimeDays: int := 365
  /** Days a cookie lives when the caller names no lifetime. */
  const DefaultLifetimeDays: int := 3650
  const MillisecondsPerDay: int := 24 * 60 * 60 * 1000

  /** `"; " + document.cookie`, the string the lookup scans. */
  function Padded(cookieString: string): string {
    "; " + cookieString
  }

  /** The separator the lookup splits at. */
  function Marker(name: string): (r: string)
    ensures |r| == |name| + 3 && r[0] == ';'
  {
    "; " + name + "="
  }

  /** `getCookie(name)`: split the padded cookie string at `"; name="`; with
      exactly two pieces the value is the second piece up to its first `;`,
      otherwise the cookie is reported missing. */
  function GetCookie(cookieString: string, name: string): (r: Option<string>)
    ensures r.Some? ==> ';' !in r.value
  {
    var parts := Split(Padded(cookieString), Marker(name));
    if |parts| == 2 then Some(FirstPiece(parts[1], ';')) else None
  }

  /** `name=` occurs once and only once in the padded string, at `i`. */
  ghost predicate FoundAt(cookieString: string, name: string, i: int) {
    && OccursAt(Padded(cookieString), Marker(name), i)
    && forall j :: OccursAt(Padded(cookieString), Marker(name), j) ==> j == i
  }

  lemma SplitTwoWhenOccurs(s: string, sep: string, i: int)
    requires |sep| > 0 && OccursAt(s, sep, i)
    ensures |Split(s, sep)| >= 2
  {
    SplitAtFirst(s, sep, Find(s, sep).value);
  }

  lemma OccursAtSuffix(s: string, sep: string, k: nat, j: int)
    requires k <= |s|
    requires j >= k && OccursAt(s, sep, j)
    ensures OccursAt(s[k..], sep, j - k)
  {
    assert s[k..][j - k..j - k + |sep|] == s[j..j + |sep|];
  }

  lemma OccursFromSuffix(s: string, sep: string, k: nat, j: int)
    requires k <= |s|
    requires OccursAt(s[k..], sep, j)
    ensures OccursAt(s, sep, j + k)
  {
    assert s[k..][j..j + |sep|] == s[j + k..j + k + |sep|];
  }

  /** Two separate occurrences make at least three pieces. */
  lemma SplitThreeWhenTwice(s: string, sep: string, i: int, j: int)
    requires |sep| > 0
    requires OccursAt(s, sep, i) && OccursAt(s, sep, j) && i + |sep| <= j
    ensures |Split(s, sep)| >= 3
  {
    var k := Find(s, sep).value;
    assert k <= i;
    SplitAtFirst(s, sep, k);
    OccursAtSuffix(s, sep, k + |sep|, j);
    SplitTwoWhenOccurs(s[k + |sep|..], sep, j - (k + |sep|));
  }

  /** A missing name reads as undefined. */
  lemma GetCookieAbsent(cookieString: string, name: string)
    requires NoOccurrence(Padded(cookieString), Marker(name))
    ensures GetCookie(cookieString, name) == None
  {
    SplitNoOccurrence(Padded(cookieString), Marker(name));
  }

  /** A name that occurs twice reads as undefined too. */
  lemma GetCookieDuplicated(cookieString: string, name: string, i: int, j: int)
    requires OccursAt(Padded(cookieString), Marker(name), i)
    requires OccursAt(Padded(cookieString), Marker(name), j)
    requires i + |Marker(name)| <= j
    ensures GetCookie(cookieString, name) == None
  {
    SplitThreeWhenTwice(Padded(cookieString), Marker(name), i, j);
  }

  /** A name that occurs once yields the text after `name=` up to the next
      `;` (or the end of the string). */
  lemma GetCookieFound(cookieString: string, name: string, i: int)
    requires FoundAt(cookieString, name, i)
    ensures GetCookie(cookieString, name) ==
            Some(FirstPiece(Padded(cookieString)[i + |Marker(name)|..], ';'))
  {
    var p := Padded(cookieString);
    var sep := Marker(name);
    SplitAtFirst(p, sep, i);
    var rest := p[i + |sep|..];
    forall j ensures !OccursAt(rest, sep, j) {
      if OccursAt(rest, sep, j) {
        OccursFromSuffix(p, sep, i + |sep|, j);
      }
    }
    SplitNoOccurrence(rest, sep);
  }

  /** Without a `;` in the name, two occurrences of the marker never overlap,
      because the marker's only `;` is its first character. */
  lemma MarkerNoOverlap(s: string, name: string, i: int, j: int)
    requires ';' !in name
    requires OccursAt(s, Marker(name), i) && OccursAt(s, Marker(name), j) && i < j
    ensures i + |Marker(name)| <= j
  {
    var sep := Marker(name);
    if j < i + |sep| {
      MarkerTailHasNoSemicolon(name, j - i);
    }
  }

  lemma MarkerTailHasNoSemicolon(name: string, d: int)
    requires ';' !in name
    requires 0 < d < |Marker(name)|
    ensures Marker(name)[d] != ';'
  {
    var sep := Marker(name);
    assert sep == "; " + name + "=";
    if 2 <= d < |sep| - 1 {
      assert sep[d] == name[d - 2];
    }
  }

  /** For a name without `;` the lookup succeeds exactly when `name=` occurs
      once at a cookie boundary. */
  lemma GetCookieIffUnique(cookieString: string, name: string)
    requires ';' !in name
    ensures GetCookie(cookieString, name).Some? <==> exists i :: FoundAt(cookieString, name, i)
  {
    var p := Padded(cookieString);
    var sep := Marker(name);
    if i :| FoundAt(cookieString, name, i) {
      GetCookieFound(cookieString, name, i);
    } else if i :| OccursAt(p, sep, i) {
      assert !FoundAt(cookieString, name, i);
      var j :| OccursAt(p, sep, j) && j != i;
      if i < j {
        MarkerNoOverlap(p, name, i, j);
        GetCookieDuplicated(cookieString, name, i, j);
      } else {
        MarkerNoOverlap(p, name, j, i);
        GetCookieDuplicated(cookieString, name, j, i);
      }
    } else {
      GetCookieAbsent(cookieString, name);
    }
  }

  /** Names match only at a cookie boundary: `id` is not found inside `uid`. */
  lemma NameMatchesOnlyAtBoundary()
    ensures GetCookie("uid=42", "id") == None
  {
    var p := Padded("uid=42");
    var sep := Marker("id");
    assert p == "; uid=42" && sep == "; id=";
    forall j ensures !OccursAt(p, sep, j) {
      if 0 <= j && j + 5 <= |p| {
        assert p[j..j + 5][0] == p[j];
        assert p[j..j + 5][2] == p[j + 2];
      }
    }
    GetCookieAbsent("uid=42", "id");
  }

  /** The same name is found once it starts a cookie of its own. */
  lemma NameFoundAtBoundary()
    ensures GetCookie("uid=42; id=7", "id") == Some("7")
  {
    var q := Padded("uid=42; id=7");
    var sep := Marker("id");
    assert q == "; uid=42; id=7" && sep == "; id=";
    forall j | OccursAt(q, sep, j) ensures j == 8 {
      assert q[j..j + 5][0] == q[j];
      assert q[j..j + 5][2] == q[j + 2];
    }
    assert q[8..13] == sep;
    GetCookieFound("uid=42; id=7", "id", 8);
    assert q[13..] == "7";
  }

  // ---------------------------------------------------------------------
  // Writing a cookie

  /** The text `setCookie` assigns to `document.cookie`; `expiresUtc` is the
      `toUTCString()` rendering of the expiry instant. */
  function SetCookieText(name: string, value: string, expiresUtc: string): string {
    name + "=" + value + ";" + "expires=" + expiresUtc + ";" + "path=/"
  }

  /** The expiry instant `setCookie` computes, in milliseconds since the epoch. */
  function ExpiryInstant(nowMs: int, days: int): (t: int)
    ensures t - nowMs == days * MillisecondsPerDay
  {
    nowMs + days * 24 * 60 * 60 * 1000
  }

  /** `setCookie(name, value, days)` at instant `nowMs`, where `utc` renders an
      instant as `toUTCString` does. */
  function SetCookie(name: string, value: string, days: int, nowMs: int, utc: int -> string): string {
    SetCookieText(name, value, utc(ExpiryInstant(nowMs, days)))
  }

  /** The written text splits at `;` into the pair and its two attributes,
      which is how a browser reads a `Set-Cookie` string (section 5.2 of
      RFC 6265). */
  lemma SetCookieTextParses(name: string, value: string, expiresUtc: string)
    requires ';' !in name && ';' !in value && ';' !in expiresUtc
    ensures Split(SetCookieText(name, value, expiresUtc), ";")
            == [name + "=" + value, "expires=" + expiresUtc, "path=/"]
  {
    var parts := [name + "=" + value, "expires=" + expiresUtc, "path=/"];
    assert Join(parts, ";") == SetCookieText(name, value, expiresUtc) by {
      assert parts[1..][1..] == ["path=/"];
      assert Join(parts[1..], ";") == parts[1] + ";" + "path=/";
      assert Join(parts, ";") == parts[0] + ";" + (parts[1] + ";" + "path=/");
    }
    SplitJoinChar(parts, ';');
  }

  // ---------------------------------------------------------------------
  // The cookie jar

  datatype Cookie = Cookie(name: string, value: string)

  /** A name and value the jar can hold and the lookup can read back. */
  predicate WellFormedCookie(c: Cookie) {
    ';' !in c.name && '=' !in c.name && ';' !in c.value
  }

  /** Well-formed cookies under distinct names, as a browser keeps them for
      one host and path. */
  predicate WellFormedJar(jar: seq<Cookie>) {
    && (forall i :: 0 <= i < |jar| ==> WellFormedCookie(jar[i]))
    && (forall i, j :: 0 <= i < j < |jar| ==> jar[i].name != jar[j].name)
  }

  function Pair(c: Cookie): string {
    c.name + "=" + c.value
  }

  /** `document.cookie`: the pairs joined by `"; "`. */
  function Serialize(jar: seq<Cookie>): string {
    Join(seq(|jar|, i requires 0 <= i < |jar| => Pair(jar[i])), "; ")
  }

  /** One cookie as it appears in the padded string. */
  function Block(c: Cookie): string {
    "; " + Pair(c)
  }

  function Blocks(jar: seq<Cookie>): string {
    if jar == [] then "" else Block(jar[0]) + Blocks(jar[1..])
  }

  lemma {:induction false} PaddedIsBlocks(jar: seq<Cookie>)
    requires |jar| >= 1
    ensures Padded(Serialize(jar)) == Blocks(jar)
    decreases |jar|
  {
    var pairs := seq(|jar|, i requires 0 <= i < |jar| => Pair(jar[i]));
    if |jar| > 1 {
      var tail := seq(|jar| - 1, i requires 0 <= i < |jar| - 1 => Pair(jar[1..][i]));
      assert pairs[1..] == tail;
      PaddedIsBlocks(jar[1..]);
      assert Serialize(jar) == Pair(jar[0]) + "; " + Serialize(jar[1..]);
    } else {
      assert jar[1..] == [];
    }
  }

  lemma {:induction false} BlocksAppend(a: seq<Cookie>, b: seq<Cookie>)
    ensures Blocks(a + b) == Blocks(a) + Blocks(b)
    decreases |a|
  {
    if a == [] {
      assert a + b == b;
    } else {
      assert (a + b)[1..] == a[1..] + b;
      BlocksAppend(a[1..], b);
    }
  }

  /** Every `;` of the padded string opens a block. */
  lemma BlockSemicolons(c: Cookie, k: int)
    requires WellFormedCookie(c)
    requires 0 < k < |Block(c)|
    ensures Block(c)[k] != ';'
  {
    var b := Block(c);
    assert b == "; " + c.name + "=" + c.value;
    if k == 1 {
    } else if k < 2 + |c.name| {
      assert b[k] == c.name[k - 2];
    } else if k == 2 + |c.name| {
    } else {
      assert b[k] == c.value[k - 3 - |c.name|];
    }
  }

  /** A marker matching at the head of a block names that block's cookie. */
  lemma MarkerAtBlockHead(c: Cookie, rest: string, name: string)
    requires WellFormedCookie(c) && '=' !in name
    ensures OccursAt(Block(c) + rest, Marker(name), 0) <==> c.name == name
  {
    var s := Block(c) + rest;
    var sep := Marker(name);
    assert s == "; " + c.name + "=" + c.value + rest;
    if c.name == name {
      assert s[..|sep|] == sep;
    } else if |sep| <= |s| {
      var k: int;
      if |name| < |c.name| {
        k := 2 + |name|;
        assert s[k] == c.name[|name|];
      } else if |name| > |c.name| {
        k := 2 + |c.name|;
        assert sep[k] == name[|c.name|];
      } else {
        var m :| 0 <= m < |name| && name[m] != c.name[m];
        k := 2 + m;
        assert s[k] == c.name[m] && sep[k] == name[m];
      }
      assert s[k] != sep[k];
      assert s[..|sep|][k] == s[k];
    }
  }

  /** Where a marker occurs in the blocks of a jar: exactly at the blocks of
      cookies with that name. */
  lemma {:induction false} MarkerInBlocks(jar: seq<Cookie>, name: string, p: int)
    requires forall i :: 0 <= i < |jar| ==> WellFormedCookie(jar[i])
    requires '=' !in name
    requires OccursAt(Blocks(jar), Marker(name), p)
    ensures exists k :: 0 <= k < |jar| && jar[k].name == name && p == |Blocks(jar[..k])|
    decreases |jar|
  {
    var sep := Marker(name);
    var b := Block(jar[0]);
    var rest := Blocks(jar[1..]);
    assert Blocks(jar) == b + rest;
    if p == 0 {
      MarkerAtBlockHead(jar[0], rest, name);
      assert jar[..0] == [];
    } else if p < |b| {
      assert (b + rest)[p] == sep[0];
      BlockSemicolons(jar[0], p);
    } else {
      OccursAtSuffix(b + rest, sep, |b|, p);
      assert (b + rest)[|b|..] == rest;
      MarkerInBlocks(jar[1..], name, p - |b|);
      var k :| 0 <= k < |jar| - 1 && jar[1..][k].name == name && p - |b| == |Blocks(jar[1..][..k])|;
      assert jar[..k + 1] == [jar[0]] + jar[1..][..k];
      BlocksAppend([jar[0]], jar[1..][..k]);
      assert Blocks([jar[0]]) == b by { assert [jar[0]][1..] == []; }
    }
  }

  /** The cookie at position `k` sits in the padded string right after the
      blocks before it. */
  lemma BlockAt(jar: seq<Cookie>, k: int)
    requires 0 <= k < |jar|
    ensures Blocks(jar) == Blocks(jar[..k]) + Block(jar[k]) + Blocks(jar[k + 1..])
  {
    var tail := jar[k..];
    assert jar == jar[..k] + tail;
    BlocksAppend(jar[..k], tail);
    assert tail[1..] == jar[k + 1..];
  }

  /** `FirstPiece` stops at the end of a value followed by more blocks. */
  lemma FirstPieceOfValue(v: string, rest: seq<Cookie>)
    requires ';' !in v
    ensures FirstPiece(v + Blocks(rest), ';') == v
  {
    var s := v + Blocks(rest);
    var r := FirstPiece(s, ';');
    assert s[..|v|] == v;
    if rest != [] {
      assert s[|v|] == Blocks(rest)[0] == ';';
    } else {
      assert s == v;
    }
  }

  /** Reading back a jar through `document.cookie`: every stored cookie is
      found with its value, and a name the jar lacks is undefined. */
  lemma GetCookieFromJar(jar: seq<Cookie>, name: string)
    requires WellFormedJar(jar)
    requires ';' !in name && '=' !in name
    ensures forall k :: 0 <= k < |jar| && jar[k].name == name ==>
              GetCookie(Serialize(jar), name) == Some(jar[k].value)
    ensures (forall k :: 0 <= k < |jar| ==> jar[k].name != name) ==>
              GetCookie(Serialize(jar), name) == None
  {
    forall k | 0 <= k < |jar| && jar[k].name == name
      ensures GetCookie(Serialize(jar), name) == Some(jar[k].value)
    {
      StoredCookieFound(jar, name, k);
    }
    if forall k :: 0 <= k < |jar| ==> jar[k].name != name {
      MissingCookieAbsent(jar, name);
    }
  }

  /** The cookie stored under `name` is read back with its value. */
  lemma StoredCookieFound(jar: seq<Cookie>, name: string, k: int)
    requires WellFormedJar(jar)
    requires ';' !in name && '=' !in name
    requires 0 <= k < |jar| && jar[k].name == name
    ensures GetCookie(Serialize(jar), name) == Some(jar[k].value)
  {
    var at := |Blocks(jar[..k])|;
    StoredMarkerAt(jar, name, k);
    StoredMarkerOnlyAt(jar, name, k);
    GetCookieFound(Serialize(jar), name, at);
    FirstPieceOfValue(jar[k].value, jar[k + 1..]);
  }

  /** The marker of a stored cookie opens its block, and the value follows. */
  lemma StoredMarkerAt(jar: seq<Cookie>, name: string, k: int)
    requires 0 <= k < |jar| && jar[k].name == name
    ensures OccursAt(Padded(Serialize(jar)), Marker(name), |Blocks(jar[..k])|)
    ensures Padded(Serialize(jar))[|Blocks(jar[..k])| + |Marker(name)|..] == jar[k].value + Blocks(jar[k + 1..])
  {
    PaddedIsBlocks(jar);
    BlockAt(jar, k);
    BlockIsMarkerValue(jar[k]);
    MiddleOccurrence(Blocks(jar[..k]), Marker(name), jar[k].value, Blocks(jar[k + 1..]));
  }

  /** A block is its cookie's marker followed by its value. */
  lemma BlockIsMarkerValue(c: Cookie)
    ensures Block(c) == Marker(c.name) + c.value
  {
  }

  /** `s` occurs right after `a` in `a + (s + v) + r`, followed by `v + r`. */
  lemma MiddleOccurrence(a: string, s: string, v: string, r: string)
    ensures OccursAt(a + (s + v) + r, s, |a|)
    ensures (a + (s + v) + r)[|a| + |s|..] == v + r
  {
    var p := a + (s + v) + r;
    assert p[|a|..|a| + |s|] == s;
  }

  /** In a well-formed jar the marker of a stored name occurs nowhere else. */
  lemma StoredMarkerOnlyAt(jar: seq<Cookie>, name: string, k: int)
    requires WellFormedJar(jar)
    requires '=' !in name
    requires 0 <= k < |jar| && jar[k].name == name
    ensures forall j :: OccursAt(Padded(Serialize(jar)), Marker(name), j) ==> j == |Blocks(jar[..k])|
  {
    PaddedIsBlocks(jar);
    forall j | OccursAt(Padded(Serialize(jar)), Marker(name), j) ensures j == |Blocks(jar[..k])| {
      MarkerInBlocks(jar, name, j);
      var k' :| 0 <= k' < |jar| && jar[k'].name == name && j == |Blocks(jar[..k'])|;
      assert k' == k;
    }
  }

  /** A name no stored cookie has reads back as undefined. */
  lemma MissingCookieAbsent(jar: seq<Cookie>, name: string)
    requires WellFormedJar(jar)
    requires ';' !in name && '=' !in name
    requires forall k :: 0 <= k < |jar| ==> jar[k].name != name
    ensures GetCookie(Serialize(jar), name) == None
  {
    var sep := Marker(name);
    if jar == [] {
      assert Padded(Serialize(jar)) == "; ";
    } else {
      PaddedIsBlocks(jar);
      var p := Padded(Serialize(jar));
      forall j ensures !OccursAt(p, sep, j) {
        if OccursAt(p, sep, j) {
          MarkerInBlocks(jar, name, j);
        }
      }
    }
    GetCookieAbsent(Serialize(jar), name);
  }

  /** What the browser does with an assignment to `document.cookie` for an
      unexpired cookie: replace the cookie of that name, else add it (section
      5.3 of RFC 6265, step 11). */
  function Store(jar: seq<Cookie>, c: Cookie): (r: seq<Cookie>)
    ensures exists k :: 0 <= k < |r| && r[k] == c
    ensures forall i :: 0 <= i < |r| ==> r[i] == c || r[i] in jar
    ensures forall i :: 0 <= i < |jar| && jar[i].name != c.name ==> jar[i] in r
    ensures WellFormedJar(jar) ==> forall i :: 0 <= i < |r| && r[i].name == c.name ==> r[i] == c
    decreases |jar|
  {
    if jar == [] then
      assert [c][0] == c;
      [c]
    else if jar[0].name == c.name then
      assert ([c] + jar[1..])[0] == c;
      [c] + jar[1..]
    else
      var tail := Store(jar[1..], c);
      var k :| 0 <= k < |tail| && tail[k] == c;
      assert ([jar[0]] + tail)[k + 1] == c;
      [jar[0]] + tail
  }

  /** Storing a well-formed cookie keeps the jar well-formed: still one
      cookie per name. */
  lemma {:induction false} StoreKeepsWellFormed(jar: seq<Cookie>, c: Cookie)
    requires WellFormedJar(jar) && WellFormedCookie(c)
    ensures WellFormedJar(Store(jar, c))
    decreases |jar|
  {
    if jar != [] && jar[0].name != c.name {
      StoreKeepsWellFormed(jar[1..], c);
      var tail := Store(jar[1..], c);
      forall j | 0 <= j < |tail| ensures tail[j].name != jar[0].name {
        if tail[j] != c {
          var m :| 0 <= m < |jar[1..]| && jar[1..][m] == tail[j];
          assert jar[m + 1] == tail[j];
        }
      }
    }
  }

  // ---------------------------------------------------------------------
  // The anonymous id

  datatype AnonymousIdOutcome = AnonymousIdOutcome(
    id: string,               // the id returned
    written: Option<string>,  // the text assigned to document.cookie, if any
    jar: seq<Cookie>)         // the jar afterwards

  /** `getOrCreateAnonymousId()`: an existing non-empty id is returned as is;
      otherwise `freshId` (the `crypto.randomUUID()` result) is stored for 365
      days and returned. */
  function GetOrCreateAnonymousId(jar: seq<Cookie>, freshId: string, nowMs: int, utc: int -> string)
    : (r: AnonymousIdOutcome)
    ensures r.written.None? ==> r.jar == jar
    ensures r.written.None? <==> (exists v :: GetCookie(Serialize(jar), AnonymousIdCookie) == Some(v) && v != "")
    ensures r.written.None? ==> GetCookie(Serialize(jar), AnonymousIdCookie) == Some(r.id)
    ensures r.written.Some? ==>
              && r.id == freshId
              && r.written == Some(SetCookie(AnonymousIdCookie, freshId, AnonymousIdLifetimeDays, nowMs, utc))
              && r.jar == Store(jar, Cookie(AnonymousIdCookie, freshId))
  {
    var existing := GetCookie(Serialize(jar), AnonymousIdCookie);
    if existing.Some? && existing.value != "" then
      AnonymousIdOutcome(existing.value, None, jar)
    else
      AnonymousIdOutcome(freshId, Some(SetCookie(AnonymousIdCookie, freshId, 365, nowMs, utc)),
                         Store(jar, Cookie(AnonymousIdCookie, freshId)))
  }

  /** An id already in the jar is returned and nothing is written. */
  lemma ExistingIdKept(jar: seq<Cookie>, id: string, freshId: string, nowMs: int, utc: int -> string)
    requires GetCookie(Serialize(jar), AnonymousIdCookie) == Some(id) && id != ""
    ensures GetOrCreateAnonymousId(jar, freshId, nowMs, utc) == AnonymousIdOutcome(id, None, jar)
  {
  }

  /** A freshly stored id reads back from the jar. */
  lemma FreshIdStored(jar: seq<Cookie>, freshId: string)
    requires WellFormedJar(jar)
    requires ';' !in freshId
    ensures GetCookie(Serialize(Store(jar, Cookie(AnonymousIdCookie, freshId))), AnonymousIdCookie) == Some(freshId)
  {
    var c := Cookie(AnonymousIdCookie, freshId);
    StoreKeepsWellFormed(jar, c);
    var after := Store(jar, c);
    var k :| 0 <= k < |after| && after[k] == c;
    GetCookieFromJar(after, AnonymousIdCookie);
  }

  /** Once an id has been handed out, asking again returns the same id and
      writes nothing. */
  lemma AnonymousIdStable(jar: seq<Cookie>, freshId: string, freshId2: string,
                          nowMs: int, nowMs2: int, utc: int -> string)
    requires WellFormedJar(jar)
    requires freshId != "" && ';' !in freshId
    ensures var first := GetOrCreateAnonymousId(jar, freshId, nowMs, utc);
            var second := GetOrCreateAnonymousId(first.jar, freshId2, nowMs2, utc);
            second.id == first.id && second.written.None? && second.jar == first.jar
  {
    var first := GetOrCreateAnonymousId(jar, freshId, nowMs, utc);
    if first.written.Some? {
      FreshIdStored(jar, freshId);
      ExistingIdKept(first.jar, freshId, freshId2, nowMs2, utc);
    } else {
      ExistingIdKept(jar, first.id, freshId2, nowMs2, utc);
    }
  }
}

=== FILE: correlator.dfy ===
/** The viewport's three single-slot promise resolvers: one for the mint
    details, one for the get-profile reply, one for the store-profile reply.
    A request creates a promise and parks its resolver in its kind's slot,
    overwriting whatever was there; a reply invokes the resolver found in its
    slot. Promises are numbered in creation order; `issued[i]` is the kind of
    request that created promise `i`, and `settled` holds what each settled
    promise was resolved with. A JavaScript promise settles once: resolving
    it again does nothing.

    The get and store reply branches clear the MINT slot after invoking
    their own resolver and never clear their own; this is reproduced as it
    stands. */
module Correlator {
  import opened Results
  import opened ReaderTypes

  datatype Kind = MintKind | GetKind | StoreKind

  /** The value a promise was resolved with. */
  datatype Settlement =
    | MintSettled(details: MintNftImageDetails)
    | GetSettled(presence: Option<Presence>)
    | StoreSettled(result: bool)

  function KindOf(v: Settlement): Kind {
    match v
    case MintSettled(_) => MintKind
    case GetSettled(_) => GetKind
    case StoreSettled(_) => StoreKind
  }

  datatype Slots = Slots(
    mint: Option<nat>,
    get: Option<nat>,
    store: Option<nat>,
    issued: seq<Kind>,
    settled: map<nat, Settlement>)

  /** All three slots empty, no promise created yet. */
  const Empty: Slots := Slots(None, None, None, [], map[])

  /** The slot of one kind. */
  function Slot(c: Slots, k: Kind): Option<nat> {
    match k
    case MintKind => c.mint
    case GetKind => c.get
    case StoreKind => c.store
  }

  /** Some slot holds the resolver of promise `id`. */
  predicate Held(c: Slots, id: nat) {
    c.mint == Some(id) || c.get == Some(id) || c.store == Some(id)
  }

  /** A slot holds a promise of its own kind, and a settled promise was
      settled with a value of its kind. */
  ghost predicate Valid(c: Slots) {
    && (forall k: Kind :: Slot(c, k).Some? ==> Slot(c, k).value < |c.issued| && c.issued[Slot(c, k).value] == k)
    && (forall id :: id in c.settled ==> id < |c.issued| && KindOf(c.settled[id]) == c.issued[id])
  }

  lemma EmptyValid()
    ensures Valid(Empty)
  {
  }

  /** A request: a fresh promise, whose resolver replaces the one in the
      slot of its kind. */
  function Request(c: Slots, k: Kind): (r: (Slots, nat))
    ensures r.1 == |c.issued|
    ensures Slot(r.0, k) == Some(r.1)
    ensures forall other :: other != k ==> Slot(r.0, other) == Slot(c, other)
    ensures r.0.settled == c.settled && r.0.issued == c.issued + [k]
  {
    var id := |c.issued|;
    var issued := c.issued + [k];
    match k
    case MintKind => (c.(mint := Some(id), issued := issued), id)
    case GetKind => (c.(get := Some(id), issued := issued), id)
    case StoreKind => (c.(store := Some(id), issued := issued), id)
  }

  /** Resolving promise `id` with `v`: a promise already settled keeps its
      first value. */
  function Settle(c: Slots, id: nat, v: Settlement): (r: Slots)
    ensures id in r.settled
    ensures id in c.settled ==> r.settled[id] == c.settled[id]
    ensures id !in c.settled ==> r.settled[id] == v
    ensures forall other :: other != id ==> (other in r.settled <==> other in c.settled)
    ensures forall other :: other != id && other in c.settled ==> r.settled[other] == c.settled[other]
    ensures r.(settled := c.settled) == c
  {
    if id in c.settled then c else c.(settled := c.settled[id := v])
  }

  /** `mint_nft_image_details`: a set mint slot is invoked and cleared; with
      an empty slot the reply is dropped. */
  function OnMintReply(c: Slots, details: MintNftImageDetails): (r: Slots)
    ensures c.mint.None? ==> r == c
    ensures c.mint.Some? ==> r.mint.None? && c.mint.value in r.settled
    ensures c.mint.Some? && c.mint.value !in c.settled ==> r.settled == c.settled[c.mint.value := MintSettled(details)]
    ensures c.mint.Some? && c.mint.value in c.settled ==> r.settled == c.settled
    ensures r.get == c.get && r.store == c.store && r.issued == c.issued
  {
    match c.mint
    case None => c
    case Some(id) => Settle(c, id, MintSettled(details)).(mint := None)
  }

  /** `get_user_blockchain_presence_result`: a set get slot is invoked with
      the decoded presence (or null); then the MINT slot is cleared and the
      get slot keeps its resolver. */
  function OnGetReply(c: Slots, presence: Option<Presence>): (r: Slots)
    ensures c.get.None? ==> r == c
    ensures c.get.Some? ==> r.mint.None? && r.get == c.get && c.get.value in r.settled
    ensures c.get.Some? && c.get.value !in c.settled ==> r.settled == c.settled[c.get.value := GetSettled(presence)]
    ensures c.get.Some? && c.get.value in c.settled ==> r.settled == c.settled
    ensures r.store == c.store && r.issued == c.issued
  {
    match c.get
    case None => c
    case Some(id) => Settle(c, id, GetSettled(presence)).(mint := None)
  }

  /** `store_user_blockchain_presence_result`: a set store slot is invoked
      with `result`; then the MINT slot is cleared and the store slot keeps
      its resolver. */
  function OnStoreReply(c: Slots, result: bool): (r: Slots)
    ensures c.store.None? ==> r == c
    ensures c.store.Some? ==> r.mint.None? && r.store == c.store && c.store.value in r.settled
    ensures c.store.Some? && c.store.value !in c.settled ==> r.settled == c.settled[c.store.value := StoreSettled(result)]
    ensures c.store.Some? && c.store.value in c.settled ==> r.settled == c.settled
    ensures r.get == c.get && r.issued == c.issued
  {
    match c.store
    case None => c
    case Some(id) => Settle(c, id, StoreSettled(result)).(mint := None)
  }

  /** Everything that touches the slots. */
  datatype Event =
    | Req(kind: Kind)
    | MintReply(details: MintNftImageDetails)
    | GetReply(presence: Option<Presence>)
    | StoreReply(result: bool)

  function Apply(c: Slots, e: Event): Slots {
    match e
    case Req(k) => Request(c, k).0
    case MintReply(d) => OnMintReply(c, d)
    case GetReply(p) => OnGetReply(c, p)
    case StoreReply(b) => OnStoreReply(c, b)
  }

  function Run(c: Slots, events: seq<Event>): Slots
    decreases |events|
  {
    if events == [] then c else Run(Apply(c, events[0]), events[1..])
  }

  /** Every event keeps the slots and settlements consistent with the
      kinds of the requests that created them. */
  lemma ApplyValid(c: Slots, e: Event)
    requires Valid(c)
    ensures Valid(Apply(c, e))
  {
    var r := Apply(c, e);
    assert Slot(r, MintKind) == r.mint && Slot(r, GetKind) == r.get && Slot(r, StoreKind) == r.store;
    assert Slot(c, MintKind) == c.mint && Slot(c, GetKind) == c.get && Slot(c, StoreKind) == c.store;
    if e.Req? {
      assert |c.issued| !in c.settled;
      forall id | 0 <= id < |c.issued| ensures r.issued[id] == c.issued[id] { }
    }
  }

  lemma {:induction false} RunValid(c: Slots, events: seq<Event>)
    requires Valid(c)
    ensures Valid(Run(c, events))
    decreases |events|
  {
    if events != [] {
      ApplyValid(c, events[0]);
      RunValid(Apply(c, events[0]), events[1..]);
    }
  }

  /** A settled promise keeps its value whatever happens next. */
  lemma {:induction false} SettledStays(c: Slots, events: seq<Event>, id: nat)
    requires id in c.settled
    ensures id in Run(c, events).settled && Run(c, events).settled[id] == c.settled[id]
    decreases |events|
  {
    if events != [] {
      SettledStays(Apply(c, events[0]), events[1..], id);
    }
  }

  /** A request orphans the promise its slot held: no slot holds that
      promise any more. */
  lemma RequestOrphansPrevious(c: Slots, k: Kind)
    requires Valid(c) && Slot(c, k).Some?
    ensures !Held(Request(c, k).0, Slot(c, k).value)
  {
    var old_ := Slot(c, k).value;
    forall other: Kind | other != k ensures Slot(c, other) != Some(old_) {
      assert Slot(c, other).Some? ==> c.issued[Slot(c, other).value] == other;
    }
    assert Slot(c, MintKind) == c.mint && Slot(c, GetKind) == c.get && Slot(c, StoreKind) == c.store;
  }

  /** An orphaned promise that has not settled never settles: nothing can
      reach its resolver again. */
  lemma {:induction false} OrphanNeverSettles(c: Slots, events: seq<Event>, id: nat)
    requires id < |c.issued| && !Held(c, id) && id !in c.settled
    ensures id !in Run(c, events).settled
    decreases |events|
  {
    if events != [] {
      var next := Apply(c, events[0]);
      assert !Held(next, id) && id !in next.settled && id < |next.issued|;
      OrphanNeverSettles(next, events[1..], id);
    }
  }

  /** A mint-details reply fires the mint resolver at most once: after the
      first reply clears the slot, a second one changes nothing. */
  lemma MintReplyOnce(c: Slots, d1: MintNftImageDetails, d2: MintNftImageDetails)
    ensures OnMintReply(OnMintReply(c, d1), d2) == OnMintReply(c, d1)
  {
  }

  /** Because the get slot is never cleared, a repeated get reply invokes a
      resolver whose promise already settled: the first value stands, and
      the mint slot is cleared again. */
  lemma GetReplyRepeats(c: Slots, p1: Option<Presence>, p2: Option<Presence>)
    requires c.get.Some?
    ensures OnGetReply(OnGetReply(c, p1), p2) == OnGetReply(c, p1)
    ensures OnGetReply(c, p1).get == c.get
  {
  }

  /** The same for the store slot. */
  lemma StoreReplyRepeats(c: Slots, b1: bool, b2: bool)
    requires c.store.Some?
    ensures OnStoreReply(OnStoreReply(c, b1), b2) == OnStoreReply(c, b1)
    ensures OnStoreReply(c, b1).store == c.store
  {
  }

  /** A get or store reply that arrives while a mint-details request is
      outstanding clears the mint slot, so that request's promise never
      settles, whatever replies follow. */
  lemma PresenceReplyStrandsMint(c: Slots, e: Event, later: seq<Event>)
    requires Valid(c)
    requires c.mint.Some? && c.mint.value !in c.settled
    requires (e.GetReply? && c.get.Some?) || (e.StoreReply? && c.store.Some?)
    ensures c.mint.value !in Run(Apply(c, e), later).settled
  {
    var m := c.mint.value;
    var next := Apply(c, e);
    assert Slot(c, GetKind) == c.get && Slot(c, StoreKind) == c.store && Slot(c, MintKind) == c.mint;
    assert !Held(next, m) && m !in next.settled;
    OrphanNeverSettles(next, later, m);
  }

  /** In the order the mint pipeline uses them (get, then mint, then store),
      with one reply per request, every promise settles with its reply. */
  lemma PipelineOrderSettles(p: Option<Presence>, d: MintNftImageDetails, b: bool)
    ensures var c := Run(Empty, [Req(GetKind), GetReply(p), Req(MintKind), MintReply(d), Req(StoreKind), StoreReply(b)]);
            c.settled == map[0 := GetSettled(p), 1 := MintSettled(d), 2 := StoreSettled(b)]
  {
    var c1 := Apply(Empty, Req(GetKind));
    var c2 := Apply(c1, GetReply(p));
    var c3 := Apply(c2, Req(MintKind));
    var c4 := Apply(c3, MintReply(d));
    var c5 := Apply(c4, Req(StoreKind));
    var c6 := Apply(c5, StoreReply(b));
    assert c6.settled == map[0 := GetSettled(p), 1 := MintSettled(d), 2 := StoreSettled(b)];
    var evs := [Req(GetKind), GetReply(p), Req(MintKind), MintReply(d), Req(StoreKind), StoreReply(b)];
    assert Run(c6, evs[6..]) == c6;
    assert Run(c5, evs[5..]) == c6;
    assert Run(c4, evs[4..]) == c6;
    assert Run(c3, evs[3..]) == c6;
    assert Run(c2, evs[2..]) == c6;
    assert Run(c1, evs[1..]) == c6;
  }
}

=== FILE: intent_query.dfy ===
/** How the receiving end of a share-intent URL reads it back: the query is
    what follows the first `?`, its parameters are separated by `&`, and a
    parameter `key=value` carries `value` percent-decoded. This is the
    reference the URL builders are proved against. */
module IntentQuery {
  import opened Results
  import opened JsString
  import opened UriComponent

  /** The endpoint both share builders address. */
  const TweetIntent: string := "https://twitter.com/intent/tweet"

  /** The `&`-separated parameters after the first `?`; none without one. */
  function QueryParams(url: string): seq<string> {
    match Find(url, "?")
    case None => []
    case Some(k) => Split(url[k + 1..], "&")
  }

  /** `p` is the parameter `key=...`. */
  predicate Names(p: string, key: string) {
    |key| < |p| && p[..|key|] == key && p[|key|] == '='
  }

  /** `key=raw`: a parameter as written into a query, `raw` already escaped. */
  function Param(key: string, raw: string): string {
    key + "=" + raw
  }

  /** A parameter is named by its key, by no key with another first letter,
      and carries `raw` after the `=`. */
  lemma ParamNamed(key: string, raw: string, other: string)
    requires key != "" && other != "" && key[0] != other[0]
    ensures Names(Param(key, raw), key) && !Names(Param(key, raw), other)
    ensures Param(key, raw)[|key| + 1..] == raw
  {
    var p := Param(key, raw);
    assert p[..|key|] == key;
    assert p[0] == key[0];
  }

  /** The decoded value of the first parameter named `key`; `None` when there
      is no such parameter or its value does not decode. */
  function Lookup(params: seq<string>, key: string): Option<string>
    decreases |params|
  {
    if params == [] then None
    else if Names(params[0], key) then Decode(params[0][|key| + 1..])
    else Lookup(params[1..], key)
  }

  function ParamValue(url: string, key: string): Option<string> {
    Lookup(QueryParams(url), key)
  }

  /** A URL assembled as `base?p1&p2&...` has exactly the parameters
      `p1, p2, ...`, provided the base has no `?` and no piece has an `&`. */
  lemma QueryParamsOf(base: string, parts: seq<string>)
    requires '?' !in base
    requires |parts| >= 1
    requires forall i :: 0 <= i < |parts| ==> '&' !in parts[i]
    ensures QueryParams(base + "?" + Join(parts, "&")) == parts
  {
    var url := base + "?" + Join(parts, "&");
    OccursAtChar(url, '?', |base|);
    forall j | 0 <= j < |base| ensures !OccursAt(url, "?", j) {
      OccursAtChar(url, '?', j);
      assert url[j] == base[j];
    }
    FindIsLeftmost(url, "?", |base|);
    assert url[|base| + 1..] == Join(parts, "&");
    SplitJoinChar(parts, '&');
  }

  /** The two-parameter instance of `QueryParamsOf`. */
  lemma QueryParamsOfTwo(base: string, a: string, b: string)
    requires '?' !in base && '&' !in a && '&' !in b
    ensures QueryParams(base + "?" + a + "&" + b) == [a, b]
  {
    JoinTwo(a, b, "&");
    QueryParamsOf(base, [a, b]);
    RegroupThree(base + "?", a, "&", b);
  }

  /** The three-parameter instance of `QueryParamsOf`. */
  lemma QueryParamsOfThree(base: string, a: string, b: string, c: string)
    requires '?' !in base && '&' !in a && '&' !in b && '&' !in c
    ensures QueryParams(base + "?" + a + "&" + b + "&" + c) == [a, b, c]
  {
    JoinThree(a, b, c, "&");
    QueryParamsOf(base, [a, b, c]);
    RegroupFive(base + "?", a, "&", b, "&", c);
  }

  /** The value of the first parameter named `key`. */
  lemma {:induction false} LookupAt(params: seq<string>, key: string, i: nat)
    requires i < |params|
    requires Names(params[i], key)
    requires forall j :: 0 <= j < i ==> !Names(params[j], key)
    ensures Lookup(params, key) == Decode(params[i][|key| + 1..])
    decreases i
  {
    if i > 0 {
      assert !Names(params[0], key);
      LookupAt(params[1..], key, i - 1);
    }
  }

  /** No parameter named `key`: no value. */
  lemma {:induction false} LookupAbsent(params: seq<string>, key: string)
    requires forall j :: 0 <= j < |params| ==> !Names(params[j], key)
    ensures Lookup(params, key) == None
    decreases |params|
  {
    if params != [] {
      LookupAbsent(params[1..], key);
    }
  }
}

=== FILE: js_string.dfy ===
/** The handful of ECMAScript string operations the client code relies on
    (`trim`, `split` with a string separator, `Array.prototype.join`,
    `startsWith`, `replace` with a string pattern), over `seq<char>`. */
module JsString {
  import opened Results

  /** WhiteSpace and LineTerminator code points of ECMA-262 (sections 12.2 and
      12.3): exactly what `String.prototype.trim` strips from both ends. The
      space separators are those of Unicode general category Zs. */
  predicate IsTrimmable(c: char) {
    || c == '\t' || c == '\n' || c == '\U{000B}' || c == '\U{000C}' || c == '\r'
    || c == ' ' || c == '\U{00A0}' || c == '\U{1680}'
    || ('\U{2000}' <= c <= '\U{200A}')
    || c == '\U{2028}' || c == '\U{2029}' || c == '\U{202F}' || c == '\U{205F}'
    || c == '\U{3000}' || c == '\U{FEFF}'
  }

  /** A string that `trim` reduces to the empty string. */
  predicate IsBlank(s: string) {
    forall i :: 0 <= i < |s| ==> IsTrimmable(s[i])
  }

  /** Leading trimmable characters removed. */
  function TrimStart(s: string): (r: string)
    ensures |r| <= |s| && r == s[|s| - |r|..]
    ensures forall i :: 0 <= i < |s| - |r| ==> IsTrimmable(s[i])
    ensures |r| > 0 ==> !IsTrimmable(r[0])
    decreases |s|
  {
    if |s| > 0 && IsTrimmable(s[0]) then TrimStart(s[1..]) else s
  }

  /** Trailing trimmable characters removed. */
  function TrimEnd(s: string): (r: string)
    ensures |r| <= |s| && r == s[..|r|]
    ensures forall i :: |r| <= i < |s| ==> IsTrimmable(s[i])
    ensures |r| > 0 ==> !IsTrimmable(r[|r| - 1])
    decreases |s|
  {
    if |s| > 0 && IsTrimmable(s[|s| - 1]) then TrimEnd(s[..|s| - 1]) else s
  }

  /** `String.prototype.trim`: leading, then trailing trimmable characters
      removed. */
  function Trim(s: string): (r: string)
    ensures |r| <= |s|
  {
    TrimEnd(TrimStart(s))
  }

  /** Neither end of a trimmed string is trimmable. */
  lemma TrimEnds(s: string)
    ensures var r := Trim(s); |r| > 0 ==> !IsTrimmable(r[0]) && !IsTrimmable(r[|r| - 1])
  {
  }

  /** What `trim` leaves is the infix of `s` with only trimmable characters
      around it. */
  lemma TrimIsInfix(s: string)
    ensures IsTrimmedInfix(s, Trim(s), |s| - |TrimStart(s)|)
  {
    TrimStartIsSuffix(s);
    TrimEndIsPrefix(s);
    InfixCompose(s, TrimStart(s), |s| - |TrimStart(s)|, Trim(s), 0);
  }

  /** `TrimStart(s)` is a suffix of `s` after only trimmable characters. */
  lemma TrimStartIsSuffix(s: string)
    ensures IsTrimmedInfix(s, TrimStart(s), |s| - |TrimStart(s)|)
  {
  }

  /** `Trim(s)` is a prefix of `TrimStart(s)` followed only by trimmable
      characters. */
  lemma TrimEndIsPrefix(s: string)
    ensures IsTrimmedInfix(TrimStart(s), Trim(s), 0)
  {
  }

  /** An infix of an infix, both with only trimmable characters around them. */
  lemma InfixCompose(s: string, t: string, a: int, r: string, b: int)
    requires IsTrimmedInfix(s, t, a) && IsTrimmedInfix(t, r, b)
    ensures IsTrimmedInfix(s, r, a + b)
  {
    forall k | 0 <= k < |r| ensures r[k] == s[a + b + k] {
      assert r[k] == t[b + k];
      assert t[b + k] == s[a + b + k];
    }
    forall i | 0 <= i < a + b ensures IsTrimmable(s[i]) {
      if i >= a {
        assert s[i] == t[i - a];
      }
    }
    forall i | a + b + |r| <= i < |s| ensures IsTrimmable(s[i]) {
      if i < a + |t| {
        assert s[i] == t[i - a];
      }
    }
  }

  /** `r` sits at offset `a` of `s` and everything of `s` around it is
      trimmable. */
  ghost predicate IsTrimmedInfix(s: string, r: string, a: int) {
    && 0 <= a && a + |r| <= |s|
    && r == s[a..a + |r|]
    && (forall i :: 0 <= i < a ==> IsTrimmable(s[i]))
    && (forall i :: a + |r| <= i < |s| ==> IsTrimmable(s[i]))
  }

  /** `s.trim().length === 0` exactly for blank strings. */
  lemma TrimEmptyIffBlank(s: string)
    ensures |Trim(s)| == 0 <==> IsBlank(s)
  {
    var r := Trim(s);
    TrimIsInfix(s);
    var a := |s| - |TrimStart(s)|;
    if |r| > 0 {
      assert s[a] == r[0];
    } else {
      forall i | 0 <= i < |s| ensures IsTrimmable(s[i]) {
        if i >= a { }
      }
    }
  }

  /** Trimming a trimmed string changes nothing. */
  lemma TrimIdempotent(s: string)
    ensures Trim(Trim(s)) == Trim(s)
  {
    var r := Trim(s);
    TrimIsInfix(r);
  }

  /** `pat` occurs in `s` starting at index `i`. */
  predicate OccursAt(s: string, pat: string, i: int) {
    0 <= i && i + |pat| <= |s| && s[i..i + |pat|] == pat
  }

  ghost predicate NoOccurrence(s: string, pat: string) {
    forall j :: !OccursAt(s, pat, j)
  }

  lemma OccursAtShift(s: string, pat: string, j: nat)
    requires |s| > 0
    ensures OccursAt(s, pat, j + 1) <==> OccursAt(s[1..], pat, j)
  {
    if 0 <= j && j + 1 + |pat| <= |s| {
      assert s[j + 1..j + 1 + |pat|] == s[1..][j..j + |pat|];
    }
  }

  /** `indexOf`: the leftmost occurrence of `pat` in `s`, if any. */
  function Find(s: string, pat: string): (r: Option<nat>)
    ensures r.Some? ==> OccursAt(s, pat, r.value)
    ensures r.Some? ==> forall j :: 0 <= j < r.value ==> !OccursAt(s, pat, j)
    ensures r.None? ==> NoOccurrence(s, pat)
    decreases |s|
  {
    if |s| < |pat| then None
    else if s[..|pat|] == pat then Some(0)
    else
      var rest := Find(s[1..], pat);
      assert forall j: nat :: OccursAt(s, pat, j + 1) <==> OccursAt(s[1..], pat, j) by {
        forall j: nat ensures OccursAt(s, pat, j + 1) <==> OccursAt(s[1..], pat, j) {
          OccursAtShift(s, pat, j);
        }
      }
      assert !OccursAt(s, pat, 0);
      match rest
      case None =>
        assert forall j :: !OccursAt(s, pat, j) by {
          forall j ensures !OccursAt(s, pat, j) {
            if j > 0 { assert !OccursAt(s[1..], pat, j - 1); }
          }
        }
        None
      case Some(k) =>
        assert forall j :: 0 <= j < k + 1 ==> !OccursAt(s, pat, j) by {
          forall j | 0 <= j < k + 1 ensures !OccursAt(s, pat, j) {
            if j > 0 { assert !OccursAt(s[1..], pat, j - 1); }
          }
        }
        Some(k + 1)
  }

  /** The leftmost occurrence is determined by where `pat` occurs. */
  lemma FindIsLeftmost(s: string, pat: string, k: nat)
    requires OccursAt(s, pat, k)
    requires forall j :: 0 <= j < k ==> !OccursAt(s, pat, j)
    ensures Find(s, pat) == Some(k)
  {
  }

  /** `Array.prototype.join`. */
  function Join(parts: seq<string>, sep: string): string
    decreases |parts|
  {
    if |parts| == 0 then ""
    else if |parts| == 1 then parts[0]
    else parts[0] + sep + Join(parts[1..], sep)
  }

  /** Appending keeps a prefix. */
  lemma PrefixExtends<T>(p: seq<T>, x: seq<T>, y: seq<T>)
    requires p <= x
    ensures p <= x + y
  {
    assert (x + y)[..|p|] == x[..|p|];
  }

  /** Concatenation regrouped: `x + (y + z)` is `x + y + z`. */
  lemma Regroup<T>(x: seq<T>, y: seq<T>, z: seq<T>)
    ensures x + (y + z) == x + y + z
  {
  }

  /** `x + a + s + b`, regrouped after `x`. */
  lemma RegroupThree(x: string, a: string, s: string, b: string)
    ensures x + a + s + b == x + (a + s + b)
  {
  }

  /** `x + a + s + b + t + c`, regrouped after `x`. */
  lemma RegroupFive(x: string, a: string, s: string, b: string, t: string, c: string)
    ensures x + a + s + b + t + c == x + (a + s + b + t + c)
  {
  }

  /** Two pieces joined: the separator between them. */
  lemma JoinTwo(a: string, b: string, sep: string)
    ensures Join([a, b], sep) == a + sep + b
  {
    assert [a, b][1..] == [b];
  }

  /** Three pieces joined: the separator between each neighbouring pair. */
  lemma JoinThree(a: string, b: string, c: string, sep: string)
    ensures Join([a, b, c], sep) == a + sep + b + sep + c
  {
    assert [a, b, c][1..] == [b, c];
    assert [b, c][1..] == [c];
    assert Join([b, c], sep) == b + sep + c;
  }

  /** `String.prototype.split` with a non-empty string separator: the pieces
      between successive leftmost, non-overlapping occurrences. */
  function Split(s: string, sep: string): (parts: seq<string>)
    requires |sep| > 0
    ensures |parts| >= 1
    ensures Join(parts, sep) == s
    ensures forall i :: 0 <= i < |parts| ==> NoOccurrence(parts[i], sep)
    decreases |s|
  {
    match Find(s, sep)
    case None => [s]
    case Some(k) =>
      var head := s[..k];
      var tail := Split(s[k + |sep|..], sep);
      assert NoOccurrence(head, sep) by {
        forall j ensures !OccursAt(head, sep, j) {
          if OccursAt(head, sep, j) {
            assert s[j..j + |sep|] == head[j..j + |sep|];
            assert OccursAt(s, sep, j);
          }
        }
      }
      assert ([head] + tail)[1..] == tail;
      assert s == head + sep + s[k + |sep|..];
      [head] + tail
  }

  /** The pieces of `s` when it is split at `sep` and the separator does not
      occur: the whole string. */
  lemma SplitNoOccurrence(s: string, sep: string)
    requires |sep| > 0
    requires NoOccurrence(s, sep)
    ensures Split(s, sep) == [s]
  {
  }

  /** Splitting at the first occurrence `k` of `sep` yields the text before it
      followed by the pieces of the remainder. */
  lemma SplitAtFirst(s: string, sep: string, k: nat)
    requires |sep| > 0
    requires OccursAt(s, sep, k)
    requires forall j :: 0 <= j < k ==> !OccursAt(s, sep, j)
    ensures Split(s, sep) == [s[..k]] + Split(s[k + |sep|..], sep)
  {
    FindIsLeftmost(s, sep, k);
  }

  /** A one-character separator occurs exactly where that character is. */
  lemma OccursAtChar(s: string, c: char, j: int)
    ensures OccursAt(s, [c], j) <==> 0 <= j < |s| && s[j] == c
  {
    if 0 <= j < |s| {
      assert s[j..j + 1] == [s[j]];
    }
  }

  /** Splitting a join at a one-character separator that no piece contains
      gives the pieces back. */
  lemma {:induction false} SplitJoinChar(parts: seq<string>, c: char)
    requires |parts| >= 1
    requires forall i :: 0 <= i < |parts| ==> c !in parts[i]
    ensures Split(Join(parts, [c]), [c]) == parts
    decreases |parts|
  {
    var s := Join(parts, [c]);
    if |parts| == 1 {
      forall j ensures !OccursAt(s, [c], j) {
        OccursAtChar(s, c, j);
      }
    } else {
      var rest := Join(parts[1..], [c]);
      var k := |parts[0]|;
      assert s == parts[0] + [c] + rest;
      OccursAtChar(s, c, k);
      forall j | 0 <= j < k ensures !OccursAt(s, [c], j) {
        OccursAtChar(s, c, j);
        assert s[j] == parts[0][j];
      }
      SplitAtFirst(s, [c], k);
      assert s[..k] == parts[0];
      assert s[k + 1..] == rest;
      SplitJoinChar(parts[1..], c);
      assert [parts[0]] + parts[1..] == parts;
    }
  }

  /** The first piece of `s.split(c)`, i.e. `s.split(c).shift()`: the text
      before the first `c`, or all of `s`. */
  function FirstPiece(s: string, c: char): (r: string)
    ensures |r| <= |s| && r == s[..|r|]
    ensures c !in r
    ensures |r| < |s| ==> s[|r|] == c
  {
    var parts := Split(s, [c]);
    match Find(s, [c])
    case None =>
      assert parts == [s];
      forall i | 0 <= i < |s| ensures s[i] != c { OccursAtChar(s, c, i); }
      parts[0]
    case Some(k) =>
      OccursAtChar(s, c, k);
      forall i | 0 <= i < k ensures s[i] != c { OccursAtChar(s, c, i); }
      parts[0]
  }

  /** `String.prototype.startsWith`. */
  predicate StartsWith(s: string, prefix: string) {
    |prefix| <= |s| && s[..|prefix|] == prefix
  }

  /** The replacement text `replace` inserts for one match: the
      replacement string with its `$` patterns expanded, as GetSubstitution
      in section 22.1.3.19.1 of ECMA-262 does for a string pattern (so with
      no captures). `$$` is one `$`, `$&` the matched text, `` $` `` the text
      before the match and `$'` the text after it; any other `$` stands for
      itself. */
  function Substitution(replacement: string, matched: string, before: string, after: string): (r: string)
    decreases |replacement|
  {
    if |replacement| == 0 then ""
    else if replacement[0] == '$' && |replacement| >= 2 && replacement[1] in "$&`'" then
      var expanded :=
        if replacement[1] == '$' then "$"
        else if replacement[1] == '&' then matched
        else if replacement[1] == '`' then before
        else after;
      expanded + Substitution(replacement[2..], matched, before, after)
    else [replacement[0]] + Substitution(replacement[1..], matched, before, after)
  }

  /** A replacement without `$` is inserted as it stands. */
  lemma {:induction false} SubstitutionLiteral(replacement: string, matched: string, before: string, after: string)
    requires '$' !in replacement
    ensures Substitution(replacement, matched, before, after) == replacement
    decreases |replacement|
  {
    if |replacement| > 0 {
      assert '$' !in replacement[1..];
      SubstitutionLiteral(replacement[1..], matched, before, after);
      assert [replacement[0]] + replacement[1..] == replacement;
    }
  }

  /** Each of the four patterns expands to its own text, and a `$` followed
      by anything else is kept. */
  lemma SubstitutionPatterns(matched: string, before: string, after: string, c: char)
    requires c !in "$&`'"
    ensures Substitution("$$", matched, before, after) == "$"
    ensures Substitution("$&", matched, before, after) == matched
    ensures Substitution("$`", matched, before, after) == before
    ensures Substitution("$'", matched, before, after) == after
    ensures Substitution(['$', c], matched, before, after) == ['$', c]
  {
    assert "$$"[2..] == [] && "$&"[2..] == [] && "$`"[2..] == [] && "$'"[2..] == [];
    assert ['$', c][1..] == [c] && [c][1..] == [];
    assert Substitution([c], matched, before, after) == [c] + Substitution([], matched, before, after);
  }

  /** The occurrence of `pat` at `k` replaced by the expanded replacement. */
  function ReplaceAt(s: string, k: nat, pat: string, replacement: string): string
    requires k + |pat| <= |s|
  {
    s[..k] + Substitution(replacement, pat, s[..k], s[k + |pat|..]) + s[k + |pat|..]
  }

  /** With no `$` in the replacement, it is inserted as it stands. */
  lemma ReplaceAtLiteral(s: string, k: nat, pat: string, replacement: string)
    requires '$' !in replacement && k + |pat| <= |s|
    ensures ReplaceAt(s, k, pat, replacement) == s[..k] + replacement + s[k + |pat|..]
  {
    SubstitutionLiteral(replacement, pat, s[..k], s[k + |pat|..]);
  }

  /** `String.prototype.replace` with a string pattern: only the leftmost
      occurrence is replaced, by the replacement with its `$` patterns
      expanded. */
  function ReplaceFirst(s: string, pat: string, replacement: string): (r: string)
    ensures NoOccurrence(s, pat) ==> r == s
    ensures forall k :: Find(s, pat) == Some(k) ==> r == ReplaceAt(s, k, pat, replacement)
  {
    match Find(s, pat)
    case None => s
    case Some(k) => ReplaceAt(s, k, pat, replacement)
  }
}

=== FILE: mint_pipeline.dfy ===
/** `doMintTokenOnStoryProtocol`: the viewport's NFT pipeline, as a state
    machine over the session. Each `await` on a server reply is a phase that
    holds the promise it waits for; the pipeline moves on once the correlator
    has settled that promise and stays where it is until then. What the
    wallet and the chain answer (preflight, collection creation, minting and
    registering, the explorer URL) is the `Wallet` input, decided before the
    run; each of those calls is logged in the order it is made.

    The pipeline reads the active image, its dimensions and the license
    object as the click's render saw them. A wallet call completes within
    the move that makes it, so the busy flag raised around the collection
    call and lowered after it is one write of the final value, and the
    writes between minting and scheduling the explorer page collapse the
    same way. */
module MintPipeline {
  import opened Results
  import opened ReaderTypes
  import opened Correlator
  import opened Viewport

  const CreatingCollection: string := "Creating Story Protocol Gateway collection, a one-time operation."
  const CollectionFailed: string := "The attempt to create an SPG NFT collection failed."
  const ProvisionStoreFailed: string := "The back-end server reported a failure while saving the user's blockchain presence object."
  const CollectionCreated: string := "Story Protocol Gateway collection successfully created!"
  const MintingNft: string := "Minting NFT and registering it on the Story Protocol network."
  const LicenseUnassigned: string := "The licenseResponseObj variable is unassigned."
  const NftMinted: string := "NFT successfully minted!  Opening explorer page in 30 seconds."
  const FinalStoreFailed: string := "The back-end server reported a failure while saving the user's blockchain presence object after NFT minting succeeded."

  /** What the wallet and the chain answer: whether the preflight check
      passes, the fresh presence object it fills in, whether creating the
      collection succeeds, what minting and registering resolves with (or the
      message it rejects with), and the explorer page of the new NFT. */
  datatype Wallet = Wallet(
    preflightOk: bool,
    local: Presence,
    collectionCreated: bool,
    registered: Result<NftRecord, string>,
    explorerUrl: string)

  /** The wallet operations the pipeline calls. */
  datatype WalletCall = PreflightCheck | CreateCollection | MintAndRegister

  /** How a run ends: nothing to mint, `false` from a failed preflight, a
      thrown error, or normal completion. */
  datatype End = Ignored | PreflightFailed | Threw(message: string) | Completed

  datatype Phase =
    | AwaitingProfile(promise: nat)
    | AwaitingDetails(use: Presence, promise: nat)
    | AwaitingProvisionStore(details: MintNftImageDetails, promise: nat)
    | AwaitingFinalStore(promise: nat)
    | Finished(end: End)

  /** One run: what the click captured, the wallet's answers, the calls made
      so far and where the run is. */
  datatype Mint = Mint(
    imageUrl: string,
    dimensions: ImageDimensions,
    license: Option<LicenseResponse>,
    wallet: Wallet,
    calls: seq<WalletCall>,
    phase: Phase)

  datatype Progress = Progress(session: Session, mint: Mint)

  /** How far along a phase is. */
  function Rank(p: Phase): nat {
    match p
    case AwaitingProfile(_) => 1
    case AwaitingDetails(_, _) => 2
    case AwaitingProvisionStore(_, _) => 3
    case AwaitingFinalStore(_) => 4
    case Finished(_) => 5
  }

  /** The wallet calls of a run, in the only orders the pipeline makes them:
      the preflight first, the collection at most once and before the mint,
      the mint at most once. */
  predicate InOrder(calls: seq<WalletCall>) {
    || calls == []
    || calls == [PreflightCheck]
    || calls == [PreflightCheck, CreateCollection]
    || calls == [PreflightCheck, MintAndRegister]
    || calls == [PreflightCheck, CreateCollection, MintAndRegister]
  }

  /** The calls each phase has behind it. */
  predicate Consistent(m: Mint) {
    match m.phase
    case AwaitingProfile(_) => m.calls == [PreflightCheck]
    case AwaitingDetails(_, _) => m.calls == [PreflightCheck]
    case AwaitingProvisionStore(_, _) => m.calls == [PreflightCheck, CreateCollection]
    case AwaitingFinalStore(_) => InOrder(m.calls) && |m.calls| >= 2 && m.calls[|m.calls| - 1] == MintAndRegister
    case Finished(_) => InOrder(m.calls)
  }

  /** A call order the pipeline makes contains each call at most once. */
  lemma InOrderNoRepeats(calls: seq<WalletCall>)
    requires InOrder(calls)
    ensures forall i, j :: 0 <= i < j < |calls| ==> calls[i] != calls[j]
  {
  }

  /** The value promise `id` settled with, if it has. */
  function Settled(s: Session, id: nat): Option<Settlement> {
    if id in s.resolvers.settled then Some(s.resolvers.settled[id]) else None
  }

  /** The click, up to the first `await` on the server: nothing happens
      without an active image; otherwise the license assistant is hidden, the
      preflight runs, and if it passes the stored presence is requested for
      the wallet's address. */
  function Start(s: Session, w: Wallet): (r: Progress)
    ensures r.mint.imageUrl == s.activeImageUrl && r.mint.dimensions == s.activeImageDimensions
    ensures r.mint.license == s.licenseResponse && r.mint.wallet == w
    ensures s.activeImageUrl == "" ==> r.session == s && r.mint.phase == Finished(Ignored) && r.mint.calls == []
    ensures s.activeImageUrl != "" ==> r.mint.calls == [PreflightCheck] && !r.session.licenseAssistantVisible
    ensures s.activeImageUrl != "" && !w.preflightOk ==>
              && r.mint.phase == Finished(PreflightFailed)
              && r.session.outbox == s.outbox && r.session.resolvers == s.resolvers
              && r.session.isStreaming == s.isStreaming
    ensures s.activeImageUrl != "" && w.preflightOk ==>
              && r.session.outbox == s.outbox + [RequestGetPresence(w.local.publicAddress)]
              && r.mint.phase.AwaitingProfile?
              && r.session.resolvers == Correlator.Apply(s.resolvers, Req(GetKind))
              && r.session.resolvers.get == Some(r.mint.phase.promise)
    ensures Consistent(r.mint)
  {
    var captured := Mint(s.activeImageUrl, s.activeImageDimensions, s.licenseResponse, w, [], Finished(Ignored));
    if s.activeImageUrl == "" then Progress(s, captured)
    else
      var hidden := s.(licenseAssistantVisible := false);
      var checked := captured.(calls := [PreflightCheck]);
      if !w.preflightOk then Progress(hidden, checked.(phase := Finished(PreflightFailed)))
      else
        var (t, id) := RequestGetUserBlockchainPresence(hidden, w.local.publicAddress);
        Progress(t, checked.(phase := AwaitingProfile(id)))
  }

  /** The stored presence arrived: a null reply means a new user, whose fresh
      presence is used; otherwise the server's copy is. The mint details are
      requested for it. */
  function OnProfile(s: Session, m: Mint, stored: Option<Presence>): (r: Progress)
    ensures var use := if stored.None? then m.wallet.local else stored.value;
            && r.session.outbox == s.outbox + [RequestMintNft(s.userId, use, m.imageUrl, m.dimensions, NoClientUserMessage)]
            && r.mint.phase.AwaitingDetails? && r.mint.phase.use == use
            && r.session.resolvers == Correlator.Apply(s.resolvers, Req(MintKind))
            && r.session.resolvers.mint == Some(r.mint.phase.promise)
    ensures r.mint == m.(phase := r.mint.phase)
  {
    var use := if stored.None? then m.wallet.local else stored.value;
    var (t, id) := RequestMintNftTokenDetails(s, use, m.imageUrl, m.dimensions);
    Progress(t, m.(phase := AwaitingDetails(use, id)))
  }

  /** The collection step, taken only when the presence has no collection:
      the status says so, the wallet creates one (the busy flag is back down
      afterwards), a failure throws, and otherwise the presence, now with its
      collection, is sent to be stored. */
  function Provision(s: Session, m: Mint, use: Presence, details: MintNftImageDetails): (r: Progress)
    ensures r.mint.calls == m.calls + [CreateCollection]
    ensures r.session.stateText == CreatingCollection && !r.session.isStreaming
    ensures !m.wallet.collectionCreated ==>
              r.mint.phase == Finished(Threw(CollectionFailed)) && r.session.outbox == s.outbox
    ensures m.wallet.collectionCreated && use.publicAddress == "" ==>
              r.mint.phase == Finished(Threw(PublicAddressEmpty)) && r.session.outbox == s.outbox
    ensures m.wallet.collectionCreated && use.publicAddress != "" ==>
              && r.session.outbox == s.outbox + [RequestStorePresence(use.(collectionInitialized := true))]
              && r.mint.phase.AwaitingProvisionStore? && r.mint.phase.details == details
              && r.session.resolvers == Correlator.Apply(s.resolvers, Req(StoreKind))
              && r.session.resolvers.store == Some(r.mint.phase.promise)
    ensures r.session.outbox == s.outbox ==> r.session.resolvers == s.resolvers
    ensures r.mint == m.(calls := r.mint.calls, phase := r.mint.phase)
  {
    var creating := s.(stateText := CreatingCollection, isStreaming := false);
    var called := m.(calls := m.calls + [CreateCollection]);
    if !m.wallet.collectionCreated then Progress(creating, called.(phase := Finished(Threw(CollectionFailed))))
    else
      var (t, promise) := RequestStoreUserBlockchainPresence(creating, use.(collectionInitialized := true));
      match promise
      case Err(message) => Progress(t, called.(phase := Finished(Threw(message))))
      case Ok(id) => Progress(t, called.(phase := AwaitingProvisionStore(details, id)))
  }

  /** The presence after minting: the one the mint-details reply carried,
      with the new NFT appended. */
  function AfterMint(details: MintNftImageDetails, nft: NftRecord): (p: Presence)
    ensures p.nfts == details.userBlockchainPresence.nfts + [nft]
    ensures p.(nfts := details.userBlockchainPresence.nfts) == details.userBlockchainPresence
  {
    details.userBlockchainPresence.(nfts := details.userBlockchainPresence.nfts + [nft])
  }

  /** Minting: the status says so and the session is busy; without a license
      object the pipeline throws before the wallet is asked. Otherwise the
      wallet mints and registers the NFT, the explorer page is scheduled to
      open in 3000 ms, and only then is the updated presence sent to be
      stored. The busy flag stays up until the explorer timer fires. */
  function Register(s: Session, m: Mint, details: MintNftImageDetails): (r: Progress)
    ensures r.session.isStreaming
    ensures m.license.None? ==>
              && r.mint.phase == Finished(Threw(LicenseUnassigned)) && r.mint.calls == m.calls
              && r.session.outbox == s.outbox && r.session.timers == s.timers
              && r.session.stateText == MintingNft
    ensures m.license.Some? ==> r.mint.calls == m.calls + [MintAndRegister]
    ensures m.license.Some? && m.wallet.registered.Err? ==>
              && r.mint.phase == Finished(Threw(m.wallet.registered.error))
              && r.session.outbox == s.outbox && r.session.timers == s.timers
    ensures m.license.Some? && m.wallet.registered.Ok? ==>
              && r.session.timers == s.timers + [ExplorerTimer(m.wallet.explorerUrl)]
              && r.session.stateText == NftMinted
              && var after := AfterMint(details, m.wallet.registered.value);
                 if after.publicAddress == "" then
                   r.mint.phase == Finished(Threw(PublicAddressEmpty)) && r.session.outbox == s.outbox
                 else
                   && r.session.outbox == s.outbox + [RequestStorePresence(after)]
                   && r.mint.phase.AwaitingFinalStore?
                   && r.session.resolvers == Correlator.Apply(s.resolvers, Req(StoreKind))
                   && r.session.resolvers.store == Some(r.mint.phase.promise)
    ensures r.session.outbox == s.outbox ==> r.session.resolvers == s.resolvers
    ensures r.mint == m.(calls := r.mint.calls, phase := r.mint.phase)
  {
    var busy := s.(stateText := MintingNft, isStreaming := true);
    if m.license.None? then Progress(busy, m.(phase := Finished(Threw(LicenseUnassigned))))
    else
      var called := m.(calls := m.calls + [MintAndRegister]);
      match m.wallet.registered
      case Err(message) => Progress(busy, called.(phase := Finished(Threw(message))))
      case Ok(nft) =>
        var after := AfterMint(details, nft);
        var scheduled := busy.(stateText := NftMinted, timers := busy.timers + [ExplorerTimer(m.wallet.explorerUrl)]);
        var (t, promise) := RequestStoreUserBlockchainPresence(scheduled, after);
        match promise
        case Err(message) => Progress(t, called.(phase := Finished(Threw(message))))
        case Ok(id) => Progress(t, called.(phase := AwaitingFinalStore(id)))
  }

  /** The mint details arrived: provision first if the presence in use has
      no collection, otherwise go straight to minting. */
  function OnDetails(s: Session, m: Mint, use: Presence, details: MintNftImageDetails): (r: Progress)
    ensures r.mint == m.(calls := r.mint.calls, phase := r.mint.phase)
  {
    if !use.collectionInitialized then Provision(s, m, use, details) else Register(s, m, details)
  }

  /** The provisioning store replied: `false` throws, otherwise the status
      reports the new collection and minting begins. */
  function OnProvisionStored(s: Session, m: Mint, details: MintNftImageDetails, stored: bool): (r: Progress)
    ensures !stored ==> r == Progress(s, m.(phase := Finished(Threw(ProvisionStoreFailed))))
    ensures stored ==> r.session.isStreaming && (r.mint.calls == m.calls + [MintAndRegister] <==> m.license.Some?)
    ensures stored && m.license.None? ==> r.mint.phase == Finished(Threw(LicenseUnassigned))
    ensures stored && m.license.Some? && m.wallet.registered.Ok? ==>
              r.session.timers == s.timers + [ExplorerTimer(m.wallet.explorerUrl)]
    ensures r.mint == m.(calls := r.mint.calls, phase := r.mint.phase)
  {
    if !stored then Progress(s, m.(phase := Finished(Threw(ProvisionStoreFailed))))
    else Register(s.(stateText := CollectionCreated), m, details)
  }

  /** The final store replied: `false` throws, but the explorer timer
      scheduled before the request is still pending either way. */
  function OnFinalStored(s: Session, m: Mint, stored: bool): (r: Progress)
    ensures r.session == s && r.mint == m.(phase := r.mint.phase)
    ensures r.mint.phase.Finished?
    ensures r.mint.phase.end == Completed <==> stored
    ensures !stored ==> r.mint.phase.end == Threw(FinalStoreFailed)
  {
    Progress(s, m.(phase := Finished(if stored then Completed else Threw(FinalStoreFailed))))
  }

  /** The promise a phase waits on. */
  function Awaited(p: Phase): Option<nat> {
    match p
    case AwaitingProfile(id) => Some(id)
    case AwaitingDetails(_, id) => Some(id)
    case AwaitingProvisionStore(_, id) => Some(id)
    case AwaitingFinalStore(id) => Some(id)
    case Finished(_) => None
  }

  /** What the run-wide properties ask of one move: the calls stay in
      order, the run gets strictly further, the session invariant holds and
      the outbox only grows. */
  ghost predicate Moves(s: Session, m: Mint, r: Progress) {
    && Consistent(r.mint)
    && Rank(r.mint.phase) > Rank(m.phase)
    && (Viewport.Valid(s) ==> Viewport.Valid(r.session))
    && OutboxExtends(s, r.session)
  }

  lemma ProfileMoves(s: Session, m: Mint, stored: Option<Presence>)
    requires m.phase.AwaitingProfile? && Consistent(m)
    ensures Moves(s, m, OnProfile(s, m, stored))
  {
    if Viewport.Valid(s) {
      ApplyValid(s.resolvers, Req(MintKind));
    }
  }

  /** Provisioning gets the run past the details, with the collection call
      logged after the preflight. */
  lemma ProvisionMoves(s: Session, m: Mint, use: Presence, details: MintNftImageDetails)
    requires m.calls == [PreflightCheck]
    ensures var r := Provision(s, m, use, details);
            && Consistent(r.mint) && Rank(r.mint.phase) >= 3
            && (Viewport.Valid(s) ==> Viewport.Valid(r.session))
            && OutboxExtends(s, r.session)
  {
    var r := Provision(s, m, use, details);
    assert r.mint.calls == [PreflightCheck, CreateCollection];
    if m.wallet.collectionCreated && use.publicAddress != "" {
      AppendExtends(s, r.session, [RequestStorePresence(use.(collectionInitialized := true))]);
      if Viewport.Valid(s) {
        ApplyValid(s.resolvers, Req(StoreKind));
      }
    } else {
      AppendExtends(s, r.session, []);
    }
  }

  /** Minting gets the run past the details or the provisioning store, with
      the mint call logged last. */
  lemma RegisterMoves(s: Session, m: Mint, details: MintNftImageDetails)
    requires m.calls == [PreflightCheck] || m.calls == [PreflightCheck, CreateCollection]
    ensures var r := Register(s, m, details);
            && Consistent(r.mint) && Rank(r.mint.phase) >= 4
            && (Viewport.Valid(s) ==> Viewport.Valid(r.session))
            && OutboxExtends(s, r.session)
  {
    var r := Register(s, m, details);
    if m.license.Some? && m.wallet.registered.Ok? &&
       AfterMint(details, m.wallet.registered.value).publicAddress != "" {
      AppendExtends(s, r.session, [RequestStorePresence(AfterMint(details, m.wallet.registered.value))]);
      if Viewport.Valid(s) {
        ApplyValid(s.resolvers, Req(StoreKind));
      }
    } else {
      AppendExtends(s, r.session, []);
    }
  }

  lemma DetailsMove(s: Session, m: Mint, use: Presence, details: MintNftImageDetails)
    requires m.phase.AwaitingDetails? && Consistent(m)
    ensures Moves(s, m, OnDetails(s, m, use, details))
  {
    if !use.collectionInitialized {
      ProvisionMoves(s, m, use, details);
    } else {
      RegisterMoves(s, m, details);
    }
  }

  lemma ProvisionStoredMoves(s: Session, m: Mint, details: MintNftImageDetails, stored: bool)
    requires m.phase.AwaitingProvisionStore? && Consistent(m)
    ensures Moves(s, m, OnProvisionStored(s, m, details, stored))
  {
    if stored {
      RegisterMoves(s.(stateText := CollectionCreated), m, details);
    } else {
      AppendExtends(s, s, []);
    }
  }

  /** One move of the pipeline: a phase whose promise has settled (with a
      value of the kind it awaits) continues; any other phase waits,
      changing nothing. No step is retried: a move either leaves the run as
      it was or takes it strictly further, a finished run stays finished,
      the wallet calls stay in order, and the session invariant holds. */
  method Resume(s: Session, m: Mint) returns (r: Progress)
    requires Consistent(m)
    ensures r == Progress(s, m) || Moves(s, m, r)
    ensures Viewport.Valid(s) ==> Viewport.Valid(r.session)
    ensures OutboxExtends(s, r.session)
    ensures Consistent(r.mint)
    ensures Awaited(m.phase).None? || Awaited(m.phase).value !in s.resolvers.settled ==> r == Progress(s, m)
  {
    r := Progress(s, m);
    AppendExtends(s, s, []);
    match m.phase {
      case AwaitingProfile(id) =>
        if Settled(s, id).Some? && Settled(s, id).value.GetSettled? {
          r := OnProfile(s, m, Settled(s, id).value.presence);
          ProfileMoves(s, m, Settled(s, id).value.presence);
        }
      case AwaitingDetails(use, id) =>
        if Settled(s, id).Some? && Settled(s, id).value.MintSettled? {
          r := OnDetails(s, m, use, Settled(s, id).value.details);
          DetailsMove(s, m, use, Settled(s, id).value.details);
        }
      case AwaitingProvisionStore(details, id) =>
        if Settled(s, id).Some? && Settled(s, id).value.StoreSettled? {
          r := OnProvisionStored(s, m, details, Settled(s, id).value.result);
          ProvisionStoredMoves(s, m, details, Settled(s, id).value.result);
        }
      case AwaitingFinalStore(id) =>
        if Settled(s, id).Some? && Settled(s, id).value.StoreSettled? {
          r := OnFinalStored(s, m, Settled(s, id).value.result);
        }
      case Finished(_) =>
    }
  }

  /** A get or store reply that lands while the pipeline waits for its mint
      details clears the mint slot, so the details promise never settles:
      whatever the correlator sees next, the pipeline waits for good. */
  lemma PresenceReplyStallsPipeline(s: Session, m: Mint, e: Correlator.Event, later: seq<Correlator.Event>)
    requires Correlator.Valid(s.resolvers)
    requires m.phase.AwaitingDetails? && s.resolvers.mint == Some(m.phase.promise)
    requires m.phase.promise !in s.resolvers.settled
    requires (e.GetReply? && s.resolvers.get.Some?) || (e.StoreReply? && s.resolvers.store.Some?)
    ensures Awaited(m.phase).value !in Correlator.Run(Correlator.Apply(s.resolvers, e), later).settled
  {
    PresenceReplyStrandsMint(s.resolvers, e, later);
  }

  lemma StartValid(s: Session, w: Wallet)
    requires Viewport.Valid(s)
    ensures Viewport.Valid(Start(s, w).session)
  {
    ApplyValid(s.resolvers, Req(GetKind));
  }

  /** A click on the mint button followed by the viewport's own life: after
      each event the viewport handles, the pipeline resumes if its promise
      has settled. However the events interleave with the run, the session
      invariant holds, the outbox only grows, the wallet calls are made in
      order and each at most once, and a run that ended at the click stays
      as it ended. */
  method MintAmid(s: Session, w: Wallet, events: seq<Viewport.Event>, protocolOf: string -> Option<string>)
    returns (r: Progress)
    ensures Viewport.Valid(s) ==> Viewport.Valid(r.session)
    ensures OutboxExtends(s, r.session)
    ensures InOrder(r.mint.calls)
    ensures Start(s, w).mint.phase.Finished? ==> r.mint == Start(s, w).mint
  {
    r := Start(s, w);
    if Viewport.Valid(s) {
      StartValid(s, w);
    }
    if s.activeImageUrl != "" && w.preflightOk {
      AppendExtends(s, r.session, [RequestGetPresence(w.local.publicAddress)]);
    } else {
      AppendExtends(s, r.session, []);
    }
    var n := 0;
    while n < |events|
      invariant 0 <= n <= |events|
      invariant Viewport.Valid(s) ==> Viewport.Valid(r.session)
      invariant OutboxExtends(s, r.session)
      invariant Consistent(r.mint)
      invariant Start(s, w).mint.phase.Finished? ==> r.mint == Start(s, w).mint
    {
      var handled := Dispatch(r.session, events[n], protocolOf);
      ExtendsTrans(s, r.session, handled.session);
      var resumed := Resume(handled.session, r.mint);
      ExtendsTrans(s, handled.session, resumed.session);
      r := resumed;
      n := n + 1;
    }
  }

  /** The collection is created, and its presence stored, exactly when the
      presence in use has none; if creating it fails, the pipeline throws
      with the busy flag down and the wallet is never asked to mint. */
  lemma ProvisionIffUninitialized(s: Session, m: Mint, use: Presence, details: MintNftImageDetails)
    requires m.calls == [PreflightCheck]
    ensures var r := OnDetails(s, m, use, details);
            && (CreateCollection in r.mint.calls <==> !use.collectionInitialized)
            && (!use.collectionInitialized && !m.wallet.collectionCreated ==>
                  && r.mint.phase == Finished(Threw(CollectionFailed))
                  && MintAndRegister !in r.mint.calls
                  && !r.session.isStreaming && r.session.outbox == s.outbox)
  {
    if !use.collectionInitialized {
      assert Provision(s, m, use, details).mint.calls == [PreflightCheck, CreateCollection];
    } else {
      var r := Register(s, m, details);
      assert r.mint.calls == [PreflightCheck] || r.mint.calls == [PreflightCheck, MintAndRegister];
    }
  }

  /** A `false` from the provisioning store throws before minting and
      leaves the session untouched. */
  lemma ProvisionStoreFailureStops(s: Session, m: Mint, details: MintNftImageDetails)
    requires m.calls == [PreflightCheck, CreateCollection]
    ensures var r := OnProvisionStored(s, m, details, false);
            && r.session == s && r.mint.phase == Finished(Threw(ProvisionStoreFailed))
            && MintAndRegister !in r.mint.calls
  {
  }

  /** Without a license object the pipeline throws before minting, leaving
      the session busy. */
  lemma NoLicenseStopsBeforeMint(s: Session, m: Mint, details: MintNftImageDetails)
    requires InOrder(m.calls) && MintAndRegister !in m.calls
    requires m.license.None?
    ensures var r := Register(s, m, details);
            && r.mint.phase == Finished(Threw(LicenseUnassigned))
            && MintAndRegister !in r.mint.calls
            && r.session.isStreaming && r.session.outbox == s.outbox
  {
  }

  /** The explorer page is scheduled before the final store is sent, so
      when the store answers `false` the pipeline throws and the page still
      opens when the timer fires, ending the busy state. */
  lemma ExplorerOpensDespiteFinalFailure(s: Session, m: Mint, details: MintNftImageDetails)
    requires m.license.Some? && m.wallet.registered.Ok? && m.wallet.explorerUrl != ""
    requires AfterMint(details, m.wallet.registered.value).publicAddress != ""
    ensures var r := Register(s, m, details);
            var f := OnFinalStored(r.session, r.mint, false);
            var last := |f.session.timers| - 1;
            && f.mint.phase == Finished(Threw(FinalStoreFailed))
            && last >= 0 && f.session.timers[last] == ExplorerTimer(m.wallet.explorerUrl)
            && Delay(f.session.timers[last]) == 3000
            && var fired := FireTimer(f.session, last);
               && fired.thrown.None? && !fired.session.isStreaming
               && fired.session.openedTabs == s.openedTabs + [m.wallet.explorerUrl]
  {
    var r := Register(s, m, details);
    assert r.session.openedTabs == s.openedTabs;
  }
}

=== FILE: reader_types.dfy ===
/** The message vocabulary shared by the reader viewport and its back-end
    server: the inbound envelope tags, their payload records, the image
    processing modes, the client user messages and the story genres. */
module ReaderTypes {
  import opened Results
  import opened JsString

  // ---------------------------------------------------------------------
  // Inbound envelope tags

  /** The thirteen literals the `ServerMessage.type` union admits. */
  datatype ServerTag =
    | StateTag | TextTag | AudioTag | ImageTag | ShareImageOnTwitterTag
    | TwitterCardDetailsTag | MintNftImageDetailsTag
    | GetUserBlockchainPresenceResultTag | StoreUserBlockchainPresenceResultTag
    | ErrorTag | StringifiedJsonObjectTag | JsonResponseObjectStringifiedTag
    | LicenseResponseTag

  /** The literal that travels in the envelope's `type` field. */
  function TagName(t: ServerTag): string {
    match t
    case StateTag => "state"
    case TextTag => "text"
    case AudioTag => "audio"
    case ImageTag => "image"
    case ShareImageOnTwitterTag => "share_image_on_twitter"
    case TwitterCardDetailsTag => "twitter_card_details"
    case MintNftImageDetailsTag => "mint_nft_image_details"
    case GetUserBlockchainPresenceResultTag => "get_user_blockchain_presence_result"
    case StoreUserBlockchainPresenceResultTag => "store_user_blockchain_presence_result"
    case ErrorTag => "error"
    case StringifiedJsonObjectTag => "stringified_json_object"
    case JsonResponseObjectStringifiedTag => "json_response_object_stringified"
    case LicenseResponseTag => "license_response"
  }

  /** Every tag, once each, in declaration order. */
  const AllTags: seq<ServerTag> := [
    StateTag, TextTag, AudioTag, ImageTag, ShareImageOnTwitterTag,
    TwitterCardDetailsTag, MintNftImageDetailsTag,
    GetUserBlockchainPresenceResultTag, StoreUserBlockchainPresenceResultTag,
    ErrorTag, StringifiedJsonObjectTag, JsonResponseObjectStringifiedTag,
    LicenseResponseTag]

  /** Reads a `type` literal back; anything outside the union is `None`. */
  function ParseTag(s: string): (r: Option<ServerTag>)
    ensures r.Some? ==> TagName(r.value) == s
    ensures r.None? ==> forall t: ServerTag :: TagName(t) != s
  {
    if s == "state" then Some(StateTag)
    else if s == "text" then Some(TextTag)
    else if s == "audio" then Some(AudioTag)
    else if s == "image" then Some(ImageTag)
    else if s == "share_image_on_twitter" then Some(ShareImageOnTwitterTag)
    else if s == "twitter_card_details" then Some(TwitterCardDetailsTag)
    else if s == "mint_nft_image_details" then Some(MintNftImageDetailsTag)
    else if s == "get_user_blockchain_presence_result" then Some(GetUserBlockchainPresenceResultTag)
    else if s == "store_user_blockchain_presence_result" then Some(StoreUserBlockchainPresenceResultTag)
    else if s == "error" then Some(ErrorTag)
    else if s == "stringified_json_object" then Some(StringifiedJsonObjectTag)
    else if s == "json_response_object_stringified" then Some(JsonResponseObjectStringifiedTag)
    else if s == "license_response" then Some(LicenseResponseTag)
    else None
  }

  /** Tag names are a faithful encoding: parsing a name gives its tag back,
      so distinct tags have distinct names. */
  lemma TagNameRoundTrip(t: ServerTag)
    ensures ParseTag(TagName(t)) == Some(t)
  {
    if t.StateTag? || t.TextTag? || t.AudioTag? || t.ImageTag? || t.ShareImageOnTwitterTag?
       || t.TwitterCardDetailsTag? || t.MintNftImageDetailsTag? {
      EarlyTagRoundTrip(t);
    } else if t.GetUserBlockchainPresenceResultTag? || t.StoreUserBlockchainPresenceResultTag? || t.ErrorTag? {
      PresenceTagRoundTrip(t);
    } else {
      LateTagRoundTrip(t);
    }
  }

  /** The round trip for the tags `ParseTag` tests first. */
  lemma EarlyTagRoundTrip(t: ServerTag)
    requires t.StateTag? || t.TextTag? || t.AudioTag? || t.ImageTag? || t.ShareImageOnTwitterTag?
             || t.TwitterCardDetailsTag? || t.MintNftImageDetailsTag?
    ensures ParseTag(TagName(t)) == Some(t)
  {
  }

  /** The round trip for the presence replies and `error`. */
  lemma PresenceTagRoundTrip(t: ServerTag)
    requires t.GetUserBlockchainPresenceResultTag? || t.StoreUserBlockchainPresenceResultTag? || t.ErrorTag?
    ensures ParseTag(TagName(t)) == Some(t)
  {
  }

  /** The round trip for the tags `ParseTag` tests last. */
  lemma LateTagRoundTrip(t: ServerTag)
    requires t.StringifiedJsonObjectTag? || t.JsonResponseObjectStringifiedTag? || t.LicenseResponseTag?
    ensures ParseTag(TagName(t)) == Some(t)
  {
  }

  /** Every tag is listed. */
  lemma EveryTagListed()
    ensures forall t: ServerTag :: t in AllTags
  {
    forall t: ServerTag ensures t in AllTags {
      match t
      case StateTag => assert AllTags[0] == t;
      case TextTag => assert AllTags[1] == t;
      case AudioTag => assert AllTags[2] == t;
      case ImageTag => assert AllTags[3] == t;
      case ShareImageOnTwitterTag => assert AllTags[4] == t;
      case TwitterCardDetailsTag => assert AllTags[5] == t;
      case MintNftImageDetailsTag => assert AllTags[6] == t;
      case GetUserBlockchainPresenceResultTag => assert AllTags[7] == t;
      case StoreUserBlockchainPresenceResultTag => assert AllTags[8] == t;
      case ErrorTag => assert AllTags[9] == t;
      case StringifiedJsonObjectTag => assert AllTags[10] == t;
      case JsonResponseObjectStringifiedTag => assert AllTags[11] == t;
      case LicenseResponseTag => assert AllTags[12] == t;
    }
  }

  /** No tag is listed twice. */
  lemma AllTagsDistinct()
    ensures forall i, j :: 0 <= i < j < |AllTags| ==> AllTags[i] != AllTags[j]
  {
  }

  /** The union has exactly thirteen members, with thirteen distinct names. */
  lemma ThirteenTags()
    ensures |AllTags| == 13
    ensures forall t: ServerTag :: t in AllTags
    ensures forall i, j :: 0 <= i < j < |AllTags| ==> TagName(AllTags[i]) != TagName(AllTags[j])
  {
    EveryTagListed();
    AllTagsDistinct();
    forall i, j | 0 <= i < j < |AllTags| ensures TagName(AllTags[i]) != TagName(AllTags[j]) {
      TagNameRoundTrip(AllTags[i]);
      TagNameRoundTrip(AllTags[j]);
    }
  }

  // ---------------------------------------------------------------------
  // Image processing modes and client user messages

  datatype ImageProcessingMode = New | Refine | Enhance

  function ModeName(m: ImageProcessingMode): string {
    match m
    case New => "new"
    case Refine => "refine"
    case Enhance => "enhance"
  }

  function ParseMode(s: string): (r: Option<ImageProcessingMode>)
    ensures r.Some? ==> ModeName(r.value) == s
    ensures r.None? ==> forall m: ImageProcessingMode :: ModeName(m) != s
  {
    if s == "new" then Some(New)
    else if s == "refine" then Some(Refine)
    else if s == "enhance" then Some(Enhance)
    else None
  }

  /** A mode is exactly one of "new", "refine", "enhance", and its name
      identifies it. */
  lemma ModeNameRoundTrip(m: ImageProcessingMode)
    ensures ParseMode(ModeName(m)) == Some(m)
    ensures ModeName(m) in {"new", "refine", "enhance"}
  {
  }

  /** The values the client echoes through `client_user_message`. */
  const TwitterShareMessage: string := "twitter_share"
  const MintNftMessage: string := "mint_nft"

  // ---------------------------------------------------------------------
  // Payload records

  datatype StatePayload = StatePayload(
    streamingAudio: bool,
    streamingText: bool,
    waitingForImages: bool,
    stateChangeMessage: string)

  datatype TextPayload = TextPayload(delta: string)

  datatype ImagePayload = ImagePayload(urls: seq<string>)

  /** `error` may be missing from the payload, hence the option. */
  datatype ErrorPayload = ErrorPayload(error: Option<string>)

  /** The generic true/false result of a requested operation. */
  datatype OperationResultPayload = OperationResultPayload(result: bool)

  datatype ShareImageOnTwitterPayload = ShareImageOnTwitterPayload(
    urlToTwitterCard: string,
    clientUserMessage: string)

  /** Pixel dimensions; JavaScript numbers are modelled as integers. */
  datatype ImageDimensions = ImageDimensions(width: int, height: int)

  datatype TwitterCardDetails = TwitterCardDetails(
    card: string,
    tweetText: string,
    hashTags: seq<string>,
    twitterCardTitle: string,
    twitterCardDescription: string,
    urlToImage: string,
    dimensions: ImageDimensions,
    twitterCardUrl: string,
    clientUserMessage: string)

  datatype IpMetadataUrisAndHashes = IpMetadataUrisAndHashes(
    ipMetadataUri: string,
    ipMetadataHash: string,
    nftMetadataUri: string,
    nftMetadataHash: string)

  /** One NFT the user owns, as the presence object records it. */
  datatype NftRecord = NftRecord(ipId: string, tokenId: string)

  /** A decoded `UserBlockchainPresence` object: its wallet address, whether
      its SPG NFT collection exists, and the NFTs minted into it. */
  datatype Presence = Presence(
    publicAddress: string,
    collectionInitialized: bool,
    nfts: seq<NftRecord>)

  /** `MintNftImageDetails extends TwitterCardDetails`: the card part, plus the
      (decoded) presence object and the IP metadata. */
  datatype MintNftImageDetails = MintNftImageDetails(
    cardDetails: TwitterCardDetails,
    userBlockchainPresence: Presence,
    ipMetadata: IpMetadataUrisAndHashes)

  /** The license object the license assistant LLM produces. */
  datatype LicenseResponse = LicenseResponse(
    bestLicenseGuess: string,
    confidence: string,
    nextQuestion: string,
    licenseTermsExplained: string,
    isLicenseChoiceConfirmed: bool,
    defaultMintingFee: int,
    commercialUse: bool,
    derivativesAllowed: bool,
    commercialRevShare: int)

  /** The decoded container of a `json_response_object_stringified` frame. */
  datatype JsonObjectAndType = JsonObjectAndType(jsonType: string, jsonObject: LicenseResponse)

  // ---------------------------------------------------------------------
  // Envelopes

  /** A `type` literal the reducer has no branch for: one outside the union,
      or one of the three declared tags without a branch. */
  predicate Branchless(tag: string) {
    match ParseTag(tag)
    case None => true
    case Some(t) => Unhandled(t)
  }

  type BranchlessTag = tag: string | Branchless(tag) witness "audio"

  /** An already-parsed `{type, payload}` envelope. The payload is the one
      its tag announces; `Other` keeps any tag the viewport has no branch for
      (declared or not), so an envelope tagged `text` is always `Text`. */
  datatype Envelope =
    | JsonResponseStringified(container: JsonObjectAndType)
    | Text(text: TextPayload)
    | State(state: StatePayload)
    | Image(image: ImagePayload)
    | ShareImageOnTwitter(share: ShareImageOnTwitterPayload)
    | CardDetails(details: TwitterCardDetails)
    | MintDetails(mint: MintNftImageDetails)
    | GetPresenceResult(presence: Option<Presence>)
    | StorePresenceResult(stored: OperationResultPayload)
    | Error(err: ErrorPayload)
    | Other(tag: BranchlessTag)

  /** The tag a handled envelope carries. */
  function HandledTag(e: Envelope): (t: Option<ServerTag>)
    ensures t.None? <==> e.Other?
  {
    match e
    case JsonResponseStringified(_) => Some(JsonResponseObjectStringifiedTag)
    case Text(_) => Some(TextTag)
    case State(_) => Some(StateTag)
    case Image(_) => Some(ImageTag)
    case ShareImageOnTwitter(_) => Some(ShareImageOnTwitterTag)
    case CardDetails(_) => Some(TwitterCardDetailsTag)
    case MintDetails(_) => Some(MintNftImageDetailsTag)
    case GetPresenceResult(_) => Some(GetUserBlockchainPresenceResultTag)
    case StorePresenceResult(_) => Some(StoreUserBlockchainPresenceResultTag)
    case Error(_) => Some(ErrorTag)
    case Other(_) => None
  }

  /** The declared tags the viewport has no branch for. */
  predicate Unhandled(t: ServerTag) {
    t == AudioTag || t == StringifiedJsonObjectTag || t == LicenseResponseTag
  }

  /** Ten of the thirteen declared tags have a branch; each of them is the tag
      of some envelope, and no envelope carries one of the other three. */
  lemma HandledTagsAreTen(t: ServerTag)
    ensures !Unhandled(t) <==> exists e :: HandledTag(e) == Some(t)
  {
    if !Unhandled(t) {
      var e :=
        match t
        case StateTag => State(StatePayload(false, false, false, ""))
        case TextTag => Text(TextPayload(""))
        case ImageTag => Image(ImagePayload([]))
        case ShareImageOnTwitterTag => ShareImageOnTwitter(ShareImageOnTwitterPayload("", ""))
        case TwitterCardDetailsTag => CardDetails(TwitterCardDetails("", "", [], "", "", "", ImageDimensions(0, 0), "", ""))
        case MintNftImageDetailsTag =>
          MintDetails(MintNftImageDetails(TwitterCardDetails("", "", [], "", "", "", ImageDimensions(0, 0), "", ""),
                                          Presence("", false, []), IpMetadataUrisAndHashes("", "", "", "")))
        case GetUserBlockchainPresenceResultTag => GetPresenceResult(None)
        case StoreUserBlockchainPresenceResultTag => StorePresenceResult(OperationResultPayload(false))
        case ErrorTag => Error(ErrorPayload(None))
        case JsonResponseObjectStringifiedTag =>
          JsonResponseStringified(JsonObjectAndType("", LicenseResponse("", "", "", "", false, 0, false, false, 0)))
        case _ => Text(TextPayload(""));
      assert HandledTag(e) == Some(t);
    }
  }

  /** A declared tag's literal is left to `Other` exactly when the reducer
      has no branch for that tag. */
  lemma BranchlessIffUnhandled(t: ServerTag)
    ensures Branchless(TagName(t)) <==> Unhandled(t)
  {
    TagNameRoundTrip(t);
  }

  /** A frame as the socket delivers it: text to be parsed, or binary data. */
  datatype Frame = TextFrame(envelope: Envelope) | BinaryFrame

  // ---------------------------------------------------------------------
  // Story genres

  const StoryGenres: map<string, string> := map[
    "magic" := "Magical Wizardry",
    "scifi" := "Science Fiction",
    "swords" := "Sword & Sorcery",
    "romance" := "Romance Novel",
    "drama" := "Classic Drama",
    "apocalypse" := "Apocalypse Now",
    "hollywood" := "Hollywood Action",
    "singularity" := "The Singularity"]

  /** The prompt offered for each genre until the user types their own. */
  const DefaultPrompts: map<string, string> := map[
    "magic" := "A photorealistic wizard who lives in a magical forest.",
    "scifi" := "In a galaxy far, far away, Luke swings a light saber.",
    "swords" := "A regal knight on a quest to save the kingdom.",
    "romance" := "A sly fox falls in love with a mysterious feline.",
    "drama" := "In a small town, a detective uncovers a dark secret.",
    "apocalypse" := "The world has ended, smoke spews from volcanoes everywhere.",
    "hollywood" := "A dazzling showgirl dances in a chorus line.",
    "singularity" := "The Borg has risen and stand ready to take over the world"]

  /** The placeholder `onGenreChange` substitutes with the user's name. */
  const UserPlaceholder: string := "%user%"

  /** The eight genre ids, in toolbar order. */
  const GenreIds: seq<string> :=
    ["magic", "scifi", "swords", "romance", "drama", "apocalypse", "hollywood", "singularity"]

  /** Both tables are keyed by the same eight genres, so a genre button
      (whose id is a `StoryGenres` key) always finds a default prompt. */
  lemma GenreTablesAgree()
    ensures StoryGenres.Keys == DefaultPrompts.Keys
    ensures forall g :: g in StoryGenres <==> g in GenreIds
  {
  }

  /** There are exactly eight genres. */
  lemma EightGenres()
    ensures |GenreIds| == 8
    ensures forall i, j :: 0 <= i < j < |GenreIds| ==> GenreIds[i] != GenreIds[j]
  {
    forall i, j | 0 <= i < j < |GenreIds| ensures GenreIds[i] != GenreIds[j] {
      assert GenreIds[i][0] != GenreIds[j][0] || GenreIds[i][1] != GenreIds[j][1];
    }
  }
}

=== FILE: results.dfy ===
/** Failure-carrying wrappers shared by every module of the model: `Option`
    stands for a JavaScript value that may be `null`/`undefined`, `Result` for a
    call that may `throw`. */
module Results {

  datatype Option<+T> = None | Some(value: T) {

    /** The value, or `fallback` when absent (the `??` operator). */
    function GetOr(fallback: T): T {
      match this
      case Some(v) => v
      case None => fallback
    }
  }

  /** `Ok` is a normal return, `Err` a thrown error. */
  datatype Result<+T, +E> = Ok(value: T) | Err(error: E)
}

=== FILE: twitter_share.dfy ===
/** `buildImageShareForTwitterUrl(postText, imageUrl, aryHashTags)`: validates
    its inputs and assembles a Twitter share-intent URL whose `text`, `url`
    and optional `hashtags` parameters carry them. URL parsing (`new URL`)
    is the parameter `protocolOf`: the parsed `protocol`, or `None` where the
    constructor throws. */
module TwitterShare {
  import opened Results
  import opened JsString
  import opened UriComponent
  import opened IntentQuery

  const PostTextEmpty: string := "Post text cannot be empty."
  const ImageUrlEmpty: string := "Image URL cannot be empty."
  const InvalidImageUrl: string := "Invalid image URL."

  /** What one tag contributes: itself trimmed, or nothing if blank. */
  function CleanTag(tag: string): (r: seq<string>)
    ensures |r| <= 1
    ensures |r| == 1 ==> r[0] == Trim(tag) && r[0] != ""
  {
    var t := Trim(tag);
    if t == "" then [] else [t]
  }

  /** `tags.map(tag => tag.trim()).filter(tag => tag.length > 0)`: each tag
      trimmed, blank ones dropped, the rest in their original order. */
  function CleanTags(tags: seq<string>): (r: seq<string>)
    ensures |r| <= |tags|
    decreases |tags|
  {
    if tags == [] then [] else CleanTag(tags[0]) + CleanTags(tags[1..])
  }

  /** Cleaning distributes over concatenation: tags are handled one by one. */
  lemma {:induction false} CleanTagsAppend(a: seq<string>, b: seq<string>)
    ensures CleanTags(a + b) == CleanTags(a) + CleanTags(b)
    decreases |a|
  {
    if a != [] {
      assert (a + b)[0] == a[0];
      assert (a + b)[1..] == a[1..] + b;
      CleanTagsAppend(a[1..], b);
      Regroup(CleanTag(a[0]), CleanTags(a[1..]), CleanTags(b));
    } else {
      assert a + b == b;
    }
  }

  /** With no blank tag, every tag survives, trimmed, in place. */
  lemma {:induction false} CleanTagsKeepsAll(tags: seq<string>)
    requires forall i :: 0 <= i < |tags| ==> Trim(tags[i]) != ""
    ensures |CleanTags(tags)| == |tags|
    ensures forall i :: 0 <= i < |tags| ==> CleanTags(tags)[i] == Trim(tags[i])
    decreases |tags|
  {
    if tags != [] {
      assert CleanTag(tags[0]) == [Trim(tags[0])];
      CleanTagsKeepsAll(tags[1..]);
      var rest := CleanTags(tags[1..]);
      assert CleanTags(tags) == [Trim(tags[0])] + rest;
      forall i | 0 < i < |tags| ensures CleanTags(tags)[i] == Trim(tags[i]) {
        assert CleanTags(tags)[i] == rest[i - 1];
        assert tags[1..][i - 1] == tags[i];
      }
    }
  }

  /** Blank tags vanish without trace. */
  lemma {:induction false} CleanTagsDropsBlank(tags: seq<string>)
    requires forall i :: 0 <= i < |tags| ==> Trim(tags[i]) == ""
    ensures CleanTags(tags) == []
    decreases |tags|
  {
    if tags != [] {
      CleanTagsDropsBlank(tags[1..]);
    }
  }

  /** `key=` followed by the encoded value. */
  function EncodedParam(key: string, value: string): string {
    Param(key, Encode(value))
  }

  function TextParam(postText: string): string {
    EncodedParam("text", postText)
  }

  function UrlParam(imageUrl: string): string {
    EncodedParam("url", imageUrl)
  }

  function HashtagsValue(tags: seq<string>): string {
    EncodedParam("hashtags", Join(CleanTags(tags), ","))
  }

  /** The `&hashtags=...` segment: present whenever the array is non-empty,
      even if every tag is blank. */
  function HashtagsParam(tags: seq<string>): string {
    if |tags| > 0 then "&" + HashtagsValue(tags) else ""
  }

  /** The URL the function returns once its inputs pass validation. */
  function ShareUrl(postText: string, imageUrl: string, tags: seq<string>): string {
    TweetIntent + "?" + TextParam(postText) + "&" + UrlParam(imageUrl) + HashtagsParam(tags)
  }

  /** The URL checks: a parse failure and a protocol that does not start
      with "http" both end in the same error, the inner one being caught. */
  predicate AcceptedImageUrl(imageUrl: string, protocolOf: string -> Option<string>) {
    protocolOf(imageUrl).Some? && StartsWith(protocolOf(imageUrl).value, "http")
  }

  function BuildImageShareForTwitterUrl(postText: string, imageUrl: string, tags: seq<string>,
                                        protocolOf: string -> Option<string>): (r: Result<string, string>)
    ensures r == Err(PostTextEmpty) <==> IsBlank(postText)
    ensures r == Err(ImageUrlEmpty) <==> !IsBlank(postText) && IsBlank(imageUrl)
    ensures r == Err(InvalidImageUrl) <==>
              !IsBlank(postText) && !IsBlank(imageUrl) && !AcceptedImageUrl(imageUrl, protocolOf)
    ensures r.Ok? <==> !IsBlank(postText) && !IsBlank(imageUrl) && AcceptedImageUrl(imageUrl, protocolOf)
  {
    if IsBlank(postText) then Err(PostTextEmpty)
    else if IsBlank(imageUrl) then Err(ImageUrlEmpty)
    else if !AcceptedImageUrl(imageUrl, protocolOf) then Err(InvalidImageUrl)
    else Ok(ShareUrl(postText, imageUrl, tags))
  }

  /** No parameter contains the `&` that separates them. */
  lemma ParamsHaveNoAmpersand(postText: string, imageUrl: string, tags: seq<string>)
    ensures '&' !in TextParam(postText) && '&' !in UrlParam(imageUrl) && '&' !in HashtagsValue(tags)
  {
    EncodeHasNoDelimiters(postText);
    EncodeHasNoDelimiters(imageUrl);
    EncodeHasNoDelimiters(Join(CleanTags(tags), ","));
  }

  /** The share URL is made of exactly these parameters. */
  lemma ShareUrlParams(postText: string, imageUrl: string, tags: seq<string>)
    ensures QueryParams(ShareUrl(postText, imageUrl, tags)) == ShareParams(postText, imageUrl, tags)
  {
    var a, b, c := TextParam(postText), UrlParam(imageUrl), HashtagsValue(tags);
    ParamsHaveNoAmpersand(postText, imageUrl, tags);
    assert '?' !in TweetIntent;
    var x := TweetIntent + "?" + a + "&" + b;
    if |tags| > 0 {
      Regroup(x, "&", c);
      QueryParamsOfThree(TweetIntent, a, b, c);
    } else {
      assert x + "" == x;
      QueryParamsOfTwo(TweetIntent, a, b);
    }
  }

  /** A parameter is named by its key, is named by no key with another first
      letter, and its value decodes back to what was encoded. */
  lemma ParamReads(key: string, value: string, other: string)
    requires key != "" && other != "" && key[0] != other[0]
    ensures Names(EncodedParam(key, value), key) && !Names(EncodedParam(key, value), other)
    ensures Decode(EncodedParam(key, value)[|key| + 1..]) == Some(value)
  {
    ParamNamed(key, Encode(value), other);
    DecodeEncode(value);
  }

  /** The parameters of the share URL, in order. */
  function ShareParams(postText: string, imageUrl: string, tags: seq<string>): seq<string> {
    [TextParam(postText), UrlParam(imageUrl)] + (if |tags| > 0 then [HashtagsValue(tags)] else [])
  }

  /** The reader finds the post text under `text`. */
  lemma ReadText(postText: string, imageUrl: string, tags: seq<string>)
    ensures Lookup(ShareParams(postText, imageUrl, tags), "text") == Some(postText)
  {
    var params := ShareParams(postText, imageUrl, tags);
    ParamReads("text", postText, "url");
    assert params[0] == TextParam(postText);
    LookupAt(params, "text", 0);
  }

  /** The reader finds the image URL under `url`, past the `text` parameter. */
  lemma ReadUrl(postText: string, imageUrl: string, tags: seq<string>)
    ensures Lookup(ShareParams(postText, imageUrl, tags), "url") == Some(imageUrl)
  {
    var params := ShareParams(postText, imageUrl, tags);
    ParamReads("text", postText, "url");
    ParamReads("url", imageUrl, "text");
    assert params[0] == TextParam(postText) && params[1] == UrlParam(imageUrl);
    LookupAt(params, "url", 1);
  }

  /** `hashtags` is found exactly when its parameter was appended. */
  lemma ReadHashtagsOf(postText: string, imageUrl: string, present: bool, h: string)
    ensures Lookup([TextParam(postText), UrlParam(imageUrl)] + (if present then [EncodedParam("hashtags", h)] else []), "hashtags") ==
            (if present then Some(h) else None)
  {
    var params := [TextParam(postText), UrlParam(imageUrl)] + (if present then [EncodedParam("hashtags", h)] else []);
    ParamReads("text", postText, "hashtags");
    ParamReads("url", imageUrl, "hashtags");
    ParamReads("hashtags", h, "text");
    assert params[0] == TextParam(postText) && params[1] == UrlParam(imageUrl);
    if present {
      assert params[2] == EncodedParam("hashtags", h);
      LookupAt(params, "hashtags", 2);
    } else {
      assert |params| == 2;
      LookupAbsent(params, "hashtags");
    }
  }

  /** The reader finds the comma-joined cleaned tags under `hashtags` exactly
      when the tag array was non-empty. */
  lemma ReadHashtags(postText: string, imageUrl: string, tags: seq<string>)
    ensures Lookup(ShareParams(postText, imageUrl, tags), "hashtags") ==
            (if |tags| > 0 then Some(Join(CleanTags(tags), ",")) else None)
  {
    ReadHashtagsOf(postText, imageUrl, |tags| > 0, Join(CleanTags(tags), ","));
  }

  /** The share URL addresses the tweet intent. */
  lemma ShareUrlAddressesIntent(postText: string, imageUrl: string, tags: seq<string>)
    ensures TweetIntent + "?" <= ShareUrl(postText, imageUrl, tags)
  {
    var head, t, u := TweetIntent + "?", TextParam(postText), UrlParam(imageUrl);
    PrefixExtends(head, head, t);
    PrefixExtends(head, head + t, "&");
    PrefixExtends(head, head + t + "&", u);
    PrefixExtends(head, head + t + "&" + u, HashtagsParam(tags));
  }

  /** What a reader of the share URL finds in each parameter. */
  lemma ShareUrlReadsBack(postText: string, imageUrl: string, tags: seq<string>)
    ensures var url := ShareUrl(postText, imageUrl, tags);
            && TweetIntent + "?" <= url
            && ParamValue(url, "text") == Some(postText)
            && ParamValue(url, "url") == Some(imageUrl)
            && ParamValue(url, "hashtags") ==
               (if |tags| > 0 then Some(Join(CleanTags(tags), ",")) else None)
  {
    ShareUrlAddressesIntent(postText, imageUrl, tags);
    ShareUrlParams(postText, imageUrl, tags);
    ReadText(postText, imageUrl, tags);
    ReadUrl(postText, imageUrl, tags);
    ReadHashtags(postText, imageUrl, tags);
  }

  /** The round trip a reader of the URL sees: `text` and `url` decode to the
      post text and the image URL, and `hashtags` is present exactly when the
      array was non-empty, carrying the comma-joined cleaned tags. */
  lemma ShareUrlCarriesInputs(postText: string, imageUrl: string, tags: seq<string>,
                              protocolOf: string -> Option<string>)
    requires !IsBlank(postText) && !IsBlank(imageUrl) && AcceptedImageUrl(imageUrl, protocolOf)
    ensures var url := BuildImageShareForTwitterUrl(postText, imageUrl, tags, protocolOf).value;
            && TweetIntent + "?" <= url
            && ParamValue(url, "text") == Some(postText)
            && ParamValue(url, "url") == Some(imageUrl)
            && ParamValue(url, "hashtags") ==
               (if |tags| > 0 then Some(Join(CleanTags(tags), ",")) else None)
  {
    ShareUrlReadsBack(postText, imageUrl, tags);
  }
}

=== FILE: uri_component.dfy ===
/** `encodeURIComponent` (section 19.2.6.5 of ECMA-262, 2022 edition) and, as
    its partner, the decoding that `decodeURIComponent` performs (section
    19.2.6.3 with an empty reserved set). Dafny characters are Unicode scalar
    values, so the URIError that a lone surrogate would raise cannot arise. */
module UriComponent {
  import opened Results

  /** uriAlpha, DecimalDigit and uriMark: the characters left unescaped. */
  predicate IsUnreserved(c: char) {
    || ('A' <= c <= 'Z') || ('a' <= c <= 'z') || ('0' <= c <= '9')
    || c == '-' || c == '_' || c == '.' || c == '!' || c == '~'
    || c == '*' || c == '\'' || c == '(' || c == ')'
  }

  /** What an encoded string is made of. */
  predicate IsEncodedChar(c: char) {
    IsUnreserved(c) || c == '%'
  }

  type Byte = b: int | 0 <= b < 256

  predicate IsContinuation(b: Byte) {
    0x80 <= b < 0xC0
  }

  /** The UTF-8 encoding of one scalar value. */
  function Utf8(c: char): (bytes: seq<Byte>)
    ensures 1 <= |bytes| <= 4
  {
    var cp := c as int;
    if cp < 0x80 then [cp]
    else if cp < 0x800 then [0xC0 + cp / 64, 0x80 + cp % 64]
    else if cp < 0x1_0000 then [0xE0 + cp / 4096, 0x80 + (cp / 64) % 64, 0x80 + cp % 64]
    else [0xF0 + cp / 262144, 0x80 + (cp / 4096) % 64, 0x80 + (cp / 64) % 64, 0x80 + cp % 64]
  }

  /** Upper-case hexadecimal digit, as the escaping step writes it. */
  function HexDigit(n: int): (c: char)
    requires 0 <= n < 16
    ensures IsUnreserved(c)
  {
    if n < 10 then ('0' as int + n) as char else ('A' as int + n - 10) as char
  }

  function PercentByte(b: Byte): string {
    ['%', HexDigit(b / 16), HexDigit(b % 16)]
  }

  function PercentBytes(bs: seq<Byte>): (r: string)
    ensures |r| == 3 * |bs|
    ensures forall i :: 0 <= i < |r| ==> IsEncodedChar(r[i])
  {
    if bs == [] then "" else PercentByte(bs[0]) + PercentBytes(bs[1..])
  }

  function EncodeChar(c: char): (r: string)
    ensures |r| > 0
    ensures forall i :: 0 <= i < |r| ==> IsEncodedChar(r[i])
  {
    if IsUnreserved(c) then [c] else PercentBytes(Utf8(c))
  }

  /** `encodeURIComponent(s)`. */
  function Encode(s: string): (r: string)
    ensures |r| >= |s|
  {
    if s == [] then "" else EncodeChar(s[0]) + Encode(s[1..])
  }

  /** Encoded text is made of unreserved characters and `%` only. */
  lemma {:induction false} EncodeAlphabet(s: string)
    ensures forall i :: 0 <= i < |Encode(s)| ==> IsEncodedChar(Encode(s)[i])
    decreases |s|
  {
    if s != [] {
      EncodeAlphabet(s[1..]);
      var h, t := EncodeChar(s[0]), Encode(s[1..]);
      forall i | 0 <= i < |h + t| ensures IsEncodedChar((h + t)[i]) {
        if i >= |h| {
          assert (h + t)[i] == t[i - |h|];
        }
      }
    }
  }

  lemma {:induction false} EncodeAppend(a: string, b: string)
    ensures Encode(a + b) == Encode(a) + Encode(b)
    decreases |a|
  {
    if a != [] {
      assert (a + b)[1..] == a[1..] + b;
      EncodeAppend(a[1..], b);
    } else {
      assert a + b == b;
    }
  }

  /** Encoded text contains none of the characters that delimit a URL query. */
  lemma EncodeHasNoDelimiters(s: string)
    ensures '&' !in Encode(s) && '=' !in Encode(s) && '#' !in Encode(s)
    ensures '?' !in Encode(s) && ',' !in Encode(s) && ' ' !in Encode(s)
  {
    NotEncodedChar(s, '&');
    NotEncodedChar(s, '=');
    NotEncodedChar(s, '#');
    NotEncodedChar(s, '?');
    NotEncodedChar(s, ',');
    NotEncodedChar(s, ' ');
  }

  /** A character outside the output alphabet never appears in encoded text. */
  lemma NotEncodedChar(s: string, c: char)
    requires !IsEncodedChar(c)
    ensures c !in Encode(s)
  {
    EncodeAlphabet(s);
  }

  // ---------------------------------------------------------------------
  // Decoding

  function HexValue(c: char): Option<int> {
    if '0' <= c <= '9' then Some(c as int - '0' as int)
    else if 'A' <= c <= 'F' then Some(c as int - 'A' as int + 10)
    else if 'a' <= c <= 'f' then Some(c as int - 'a' as int + 10)
    else None
  }

  /** The byte escaped by a leading `%XX`, if `s` starts with one. */
  function ReadByte(s: string): (r: Option<Byte>)
    ensures r.Some? ==> |s| >= 3
  {
    if |s| >= 3 && s[0] == '%' && HexValue(s[1]).Some? && HexValue(s[2]).Some?
       && 0 <= HexValue(s[1]).value < 16 && 0 <= HexValue(s[2]).value < 16
    then Some(16 * HexValue(s[1]).value + HexValue(s[2]).value)
    else None
  }

  /** The bytes escaped by the first `n` `%XX` triples of `s`. */
  function ReadBytes(s: string, n: nat): (r: Option<seq<Byte>>)
    ensures r.Some? ==> |r.value| == n && |s| >= 3 * n
  {
    if n == 0 then Some([])
    else match ReadByte(s)
      case None => None
      case Some(b) =>
        match ReadBytes(s[3..], n - 1)
        case None => None
        case Some(bs) => Some([b] + bs)
  }

  /** How many bytes a UTF-8 sequence with this first byte has (the count of
      leading one bits), 0 when no sequence can start with it. */
  function LeadLength(b: Byte): nat {
    if b < 0x80 then 1
    else if 0xC0 <= b < 0xE0 then 2
    else if 0xE0 <= b < 0xF0 then 3
    else if 0xF0 <= b < 0xF8 then 4
    else 0
  }

  /** The scalar value `bs` encodes, if it is a well-formed UTF-8 sequence
      (no overlong form, no surrogate, nothing beyond U+10FFFF). */
  function Utf8Decode(bs: seq<Byte>): Option<char> {
    if |bs| == 1 && bs[0] < 0x80 then Some(bs[0] as char)
    else if |bs| == 2 && 0xC0 <= bs[0] < 0xE0 && IsContinuation(bs[1]) then
      var cp := (bs[0] as int - 0xC0) * 64 + Low6(bs[1]);
      if cp < 0x80 then None else Some(cp as char)
    else if |bs| == 3 && 0xE0 <= bs[0] < 0xF0 && IsContinuation(bs[1]) && IsContinuation(bs[2]) then
      var cp := (bs[0] as int - 0xE0) * 4096 + Low6(bs[1]) * 64 + Low6(bs[2]);
      if cp < 0x800 || 0xD800 <= cp < 0xE000 then None else Some(cp as char)
    else if |bs| == 4 && 0xF0 <= bs[0] < 0xF8 && IsContinuation(bs[1])
            && IsContinuation(bs[2]) && IsContinuation(bs[3]) then
      var cp := (bs[0] as int - 0xF0) * 262144 + Low6(bs[1]) * 4096 + Low6(bs[2]) * 64 + Low6(bs[3]);
      if cp < 0x1_0000 || cp >= 0x11_0000 then None else Some(cp as char)
    else None
  }

  /** The six payload bits of a continuation byte. */
  function Low6(b: Byte): int
    requires IsContinuation(b)
  {
    b as int - 0x80
  }

  /** `decodeURIComponent(s)`; `None` stands for the URIError it throws. */
  function Decode(s: string): Option<string>
    decreases |s|
  {
    if |s| == 0 then Some("")
    else if s[0] != '%' then
      (match Decode(s[1..])
       case None => None
       case Some(t) => Some([s[0]] + t))
    else
      (match ReadByte(s)
       case None => None
       case Some(b0) =>
         var n := LeadLength(b0);
         if n == 0 then None
         else
           (match ReadBytes(s, n)
            case None => None
            case Some(bs) =>
              (match Utf8Decode(bs)
               case None => None
               case Some(c) =>
                 (match Decode(s[3 * n..])
                  case None => None
                  case Some(t) => Some([c] + t)))))
  }

  // ---------------------------------------------------------------------
  // Round trip

  lemma HexRoundTrip(n: int)
    requires 0 <= n < 16
    ensures HexValue(HexDigit(n)) == Some(n)
  {
  }

  lemma ReadPercentByte(b: Byte, t: string)
    ensures ReadByte(PercentByte(b) + t) == Some(b)
  {
    HexRoundTrip(b / 16);
    HexRoundTrip(b % 16);
  }

  lemma {:induction false} ReadPercentBytes(bs: seq<Byte>, t: string)
    ensures ReadBytes(PercentBytes(bs) + t, |bs|) == Some(bs)
    decreases |bs|
  {
    if bs != [] {
      var s := PercentBytes(bs) + t;
      assert s == PercentByte(bs[0]) + (PercentBytes(bs[1..]) + t);
      ReadPercentByte(bs[0], PercentBytes(bs[1..]) + t);
      assert s[3..] == PercentBytes(bs[1..]) + t;
      ReadPercentBytes(bs[1..], t);
      assert [bs[0]] + bs[1..] == bs;
    }
  }

  lemma DivMod64(x: int)
    requires x >= 0
    ensures x == (x / 64) * 64 + x % 64 && 0 <= x % 64 < 64
    ensures x / 4096 == (x / 64) / 64
    ensures x / 262144 == (x / 4096) / 64
  {
  }

  /** The first byte of an encoding announces its length, and decoding an
      encoding gives the character back. */
  lemma Utf8RoundTrip(c: char)
    ensures LeadLength(Utf8(c)[0]) == |Utf8(c)|
    ensures Utf8Decode(Utf8(c)) == Some(c)
  {
    var cp := c as int;
    var bs := Utf8(c);
    if cp < 0x80 {
    } else if cp < 0x800 {
      DivMod64(cp);
      assert (bs[0] as int - 0xC0) * 64 + Low6(bs[1]) == cp;
    } else if cp < 0x1_0000 {
      DivMod64(cp);
      DivMod64(cp / 64);
      assert (bs[0] as int - 0xE0) * 4096 + Low6(bs[1]) * 64 + Low6(bs[2]) == cp;
    } else {
      DivMod64(cp);
      DivMod64(cp / 64);
      DivMod64(cp / 4096);
      assert (bs[0] as int - 0xF0) * 262144 + Low6(bs[1]) * 4096 + Low6(bs[2]) * 64 + Low6(bs[3]) == cp;
    }
  }

  /** Decoding the encoding of one character followed by `t`. */
  lemma DecodeEncodeChar(c: char, t: string)
    ensures Decode(EncodeChar(c) + t) ==
            (match Decode(t) case None => None case Some(u) => Some([c] + u))
  {
    var s := EncodeChar(c) + t;
    if IsUnreserved(c) {
      assert s[1..] == t;
    } else {
      DecodeEscapedChar(c, t);
    }
  }

  lemma DecodeEscapedChar(c: char, t: string)
    requires !IsUnreserved(c)
    ensures Decode(PercentBytes(Utf8(c)) + t) ==
            (match Decode(t) case None => None case Some(u) => Some([c] + u))
  {
    var bs := Utf8(c);
    var s := PercentBytes(bs) + t;
    Utf8RoundTrip(c);
    assert s == PercentByte(bs[0]) + (PercentBytes(bs[1..]) + t);
    ReadPercentByte(bs[0], PercentBytes(bs[1..]) + t);
    ReadPercentBytes(bs, t);
    assert s[0] == '%';
    assert ReadByte(s) == Some(bs[0]);
    assert ReadBytes(s, LeadLength(bs[0])) == Some(bs);
    assert s[3 * |bs|..] == t;
  }

  /** `decodeURIComponent(encodeURIComponent(s)) === s`. */
  lemma {:induction false} DecodeEncode(s: string)
    ensures Decode(Encode(s)) == Some(s)
    decreases |s|
  {
    if s != [] {
      DecodeEncodeChar(s[0], Encode(s[1..]));
      DecodeEncode(s[1..]);
      assert [s[0]] + s[1..] == s;
    }
  }

  /** Decoding an encoding followed by more text decodes the two in turn. */
  lemma {:induction false} DecodeEncodeThen(s: string, t: string)
    ensures Decode(Encode(s) + t) ==
            (match Decode(t) case None => None case Some(u) => Some(s + u))
    decreases |s|
  {
    if s == [] {
      assert Encode(s) + t == t;
      if Decode(t).Some? { assert s + Decode(t).value == Decode(t).value; }
    } else {
      var e := Encode(s[1..]) + t;
      assert Encode(s) == EncodeChar(s[0]) + Encode(s[1..]);
      assert Encode(s) + t == EncodeChar(s[0]) + e;
      DecodeEncodeChar(s[0], e);
      DecodeEncodeThen(s[1..], t);
      match Decode(t)
      case None =>
      case Some(u) => assert [s[0]] + (s[1..] + u) == s + u;
    }
  }

  /** Text without a `%` decodes to itself, whatever follows it. */
  lemma {:induction false} DecodePlainThen(p: string, t: string)
    requires '%' !in p
    ensures Decode(p + t) ==
            (match Decode(t) case None => None case Some(u) => Some(p + u))
    decreases |p|
  {
    if p == [] {
      assert p + t == t;
      if Decode(t).Some? { assert p + Decode(t).value == Decode(t).value; }
    } else {
      assert (p + t)[0] == p[0] && (p + t)[1..] == p[1..] + t;
      DecodePlainThen(p[1..], t);
      if Decode(t).Some? {
        assert [p[0]] + (p[1..] + Decode(t).value) == p + Decode(t).value;
      }
    }
  }

  /** A line feed is escaped as `%0A`. */
  lemma EncodeLineFeed()
    ensures Encode("\n") == "%0A"
  {
    assert !IsUnreserved('\n');
    assert Utf8('\n') == [10];
    assert EncodeChar('\n') == PercentByte(10);
  }

  /** Distinct strings have distinct encodings. */
  lemma EncodeInjective(s: string, t: string)
    requires Encode(s) == Encode(t)
    ensures s == t
  {
    DecodeEncode(s);
    DecodeEncode(t);
  }
}

=== FILE: viewport.dfy ===
/** The reader viewport's state and every transition that does not belong
    to the mint pipeline: the inbound-envelope reducer, the socket's
    open/close/error handlers and reconnect policy, the outbound dispatch
    functions and their guards, and the timers they schedule.

    React state, refs and the render-local active image are all fields of
    one immutable `Session`; `sendJsonMessage` appends to `outbox`, opening a
    browser tab appends to `openedTabs`, and `setTimeout` appends to `timers`.
    A thrown `Error` is an `Outcome` whose `thrown` holds the message; the
    session it carries holds the writes made before the throw. */
module Viewport {
  import opened Results
  import opened JsString
  import opened ReaderTypes
  import opened Correlator
  import opened CardShare

  // ---------------------------------------------------------------------
  // Constants

  const Anonymous: string := "Anonymous"
  const DefaultPrompt: string := "New image.  A strange looking tree, craggy, with scary branches, and eerie shadowy mist swirling around it, in the moonlit sky."
  const InitialStory: string := "What kind of image would you like to create?"
  const InitialGenre: string := "magic"
  const LicenseExplainerPlaceholder: string := "Your license terms will appear here..."

  /** The container type the reducer accepts. */
  const LicenseResponseType: string := "license_response"

  const UnknownJsonType: string := "Unknown stringified json object type received from the back-end server: "
  const TwitterCardUrlEmpty: string := "The Twitter card URL is empty."
  const UnknownClientUserMessage: string := "Unknown client user message: "
  const UnknownError: string := "An unknown error occurred."
  const InvalidDataType: string := "Invalid data type: "
  const Disconnected: string := "Disconnected: "
  const WebSocketError: string := "WebSocket error occurred"
  const PublicAddressEmpty: string := "The public address field is empty"
  const ExplorerUrlEmpty: string := "The explorerPageUrl parameter is empty."
  /** What the engine throws for `undefined.replace(...)` when a genre has
      no default prompt. */
  const NoDefaultPrompt: string := "Cannot read properties of undefined (reading 'replace')"

  /** `shouldReconnect` allows this many attempts in a row. */
  const MaxReconnectAttempts: nat := 5

  /** The mint request's `client_user_message`. */
  const NoClientUserMessage: string := "(none)"

  // ---------------------------------------------------------------------
  // State

  datatype ChatbotName = ImageAssistant | LicenseAssistant

  /** The license assistant's chat text: the fixed introduction shown on
      mount, or the last question the assistant asked. */
  datatype AssistantText = Introduction | Said(text: string)

  /** A pending `setTimeout` callback. */
  datatype Timer = ClearErrorTimer | ExplorerTimer(url: string)

  /** The delay, in milliseconds, each timer is scheduled with. */
  function Delay(t: Timer): nat {
    match t
    case ClearErrorTimer => 5000
    case ExplorerTimer(_) => 3000
  }

  /** An outbound `{type, payload}` message. */
  datatype Outbound =
    | RequestLicenseAssistant(userId: string, prompt: string, isNewLicenseSession: bool)
    | RequestStorePresence(presence: Presence)
    | RequestImageAssistant(userId: string, prompt: string, mode: ImageProcessingMode, urlToActiveImage: string)
    | RequestGetPresence(userPublicAddress: string)
    | RequestMintNft(userId: string, presence: Presence, imageUrl: string, dimensions: ImageDimensions,
                     clientUserMessage: string)
    | RequestShareImageOnTwitter(userId: string, imageUrl: string, dimensions: ImageDimensions,
                                 clientUserMessage: string)

  /** The `type` literal each outbound message travels with. */
  function OutboundType(o: Outbound): string {
    match o
    case RequestLicenseAssistant(_, _, _) => "request_license_assistant"
    case RequestStorePresence(_) => "request_store_user_blockchain_presence"
    case RequestImageAssistant(_, _, _, _) => "request_image_assistant"
    case RequestGetPresence(_) => "request_get_user_blockchain_presence"
    case RequestMintNft(_, _, _, _, _) => MintNftMessage
    case RequestShareImageOnTwitter(_, _, _, _) => "share_image_on_twitter"
  }

  datatype Session = Session(
    userName: string,
    userId: string,
    story: string,
    genre: string,
    images: ImagePayload,
    prompt: string,
    isStreaming: bool,
    userHasTyped: bool,
    errorMessage: string,
    showCarousel: bool,
    connectionEstablished: bool,
    stateText: string,
    connectionAttempt: nat,
    licenseResponse: Option<LicenseResponse>,
    licenseAssistantText: AssistantText,
    licenseAssistantExplainerText: string,
    chatbotName: ChatbotName,
    licenseAssistantVisible: bool,
    isNewLicenseSession: bool,
    activeImageUrl: string,
    activeImageDimensions: ImageDimensions,
    resolvers: Slots,
    outbox: seq<Outbound>,
    timers: seq<Timer>,
    openedTabs: seq<string>)

  /** What the session looks like once mounted. `name` is the signed-in
      user's name, if any; `userId` is the anonymous id from the cookie jar,
      which `getOrCreateAnonymousId` returns unchanged on every later call. */
  function Initial(name: Option<string>, userId: string): (s: Session)
    ensures s.userName == (if name.Some? then name.value else Anonymous)
    ensures s.prompt == DefaultPrompt && s.story == InitialStory && s.genre == InitialGenre
    ensures !s.isStreaming && s.errorMessage == "" && s.connectionAttempt == 0
    ensures s.isNewLicenseSession && s.licenseResponse.None? && s.activeImageUrl == ""
    ensures s.outbox == [] && s.timers == [] && s.openedTabs == [] && s.resolvers == Empty
  {
    Session(
      userName := name.GetOr(Anonymous),
      userId := userId,
      story := InitialStory,
      genre := InitialGenre,
      images := ImagePayload([]),
      prompt := DefaultPrompt,
      isStreaming := false,
      userHasTyped := false,
      errorMessage := "",
      showCarousel := false,
      connectionEstablished := false,
      stateText := "",
      connectionAttempt := 0,
      licenseResponse := None,
      licenseAssistantText := Introduction,
      licenseAssistantExplainerText := LicenseExplainerPlaceholder,
      chatbotName := ImageAssistant,
      licenseAssistantVisible := false,
      isNewLicenseSession := true,
      activeImageUrl := "",
      activeImageDimensions := ImageDimensions(0, 0),
      resolvers := Empty,
      outbox := [],
      timers := [],
      openedTabs := [])
  }

  /** The session after a handler, and the message it threw, if any. */
  datatype Outcome = Outcome(session: Session, thrown: Option<string>)

  function Done(s: Session): Outcome {
    Outcome(s, None)
  }

  function Throw(s: Session, message: string): Outcome {
    Outcome(s, Some(message))
  }

  /** Bounded reconnect counter and consistent resolver slots. */
  ghost predicate Valid(s: Session) {
    s.connectionAttempt <= MaxReconnectAttempts && Correlator.Valid(s.resolvers)
  }

  lemma InitialValid(name: Option<string>, userId: string)
    ensures Valid(Initial(name, userId))
  {
    EmptyValid();
  }

  // ---------------------------------------------------------------------
  // The inbound-envelope reducer

  /** The card details the reducer throws on: a message other than a share
      request, or details the share-URL builder refuses. */
  predicate CardRejected(details: TwitterCardDetails, protocolOf: string -> Option<string>) {
    details.clientUserMessage != TwitterShareMessage || BuildCardShareUrl(details, protocolOf).Err?
  }

  /** The envelopes the reducer throws on. */
  predicate Rejects(e: Envelope, protocolOf: string -> Option<string>) {
    || (e.JsonResponseStringified? && e.container.jsonType != LicenseResponseType)
    || (e.ShareImageOnTwitter? && e.share.urlToTwitterCard == "")
    || (e.CardDetails? && CardRejected(e.details, protocolOf))
    || e.Other?
  }

  /** The reducer sends nothing and leaves the reconnect counter and the
      new-license-session flag alone. */
  predicate ReducerFrame(s: Session, t: Session) {
    t.outbox == s.outbox && t.connectionAttempt == s.connectionAttempt && t.isNewLicenseSession == s.isNewLicenseSession
  }

  /** The message-handler effect, run once per received frame. A binary
      frame is ignored; a text frame clears the error banner and is then
      dispatched on its tag. */
  function Receive(s: Session, frame: Frame, protocolOf: string -> Option<string>): (r: Outcome)
    ensures frame.BinaryFrame? ==> r == Done(s)
    ensures frame.TextFrame? && !frame.envelope.Error? ==> r.session.errorMessage == ""
    ensures r.thrown.Some? <==> frame.TextFrame? && Rejects(frame.envelope, protocolOf)
    ensures ReducerFrame(s, r.session)
  {
    match frame
    case BinaryFrame => Done(s)
    case TextFrame(e) => Handle(s.(errorMessage := ""), e, protocolOf)
  }

  /** The tag dispatch that follows the banner clear. */
  function Handle(s: Session, e: Envelope, protocolOf: string -> Option<string>): (r: Outcome)
    ensures r.thrown.Some? <==> Rejects(e, protocolOf)
    ensures !e.Error? ==> r.session.errorMessage == s.errorMessage
    ensures ReducerFrame(s, r.session)
    ensures r.session.resolvers == SlotsAfter(s.resolvers, TextFrame(e))
  {
    match e
    case JsonResponseStringified(container) => HandleContainer(s, container)
    case Text(payload) => Done(s.(story := s.story + payload.delta))
    case State(payload) => Done(s.(stateText := payload.stateChangeMessage))
    case Image(payload) =>
      if |payload.urls| > 0 then Done(s.(showCarousel := true, images := payload, isStreaming := false))
      else Done(s)
    case ShareImageOnTwitter(payload) =>
      if payload.urlToTwitterCard == "" then Throw(s, TwitterCardUrlEmpty) else Done(s)
    case CardDetails(details) => HandleCardDetails(s, details, protocolOf)
    case MintDetails(details) => Done(s.(resolvers := OnMintReply(s.resolvers, details)))
    case GetPresenceResult(presence) => Done(s.(resolvers := OnGetReply(s.resolvers, presence)))
    case StorePresenceResult(payload) => Done(s.(resolvers := OnStoreReply(s.resolvers, payload.result)))
    case Error(payload) =>
      Done(s.(isStreaming := false, errorMessage := payload.error.GetOr(UnknownError),
              timers := s.timers + [ClearErrorTimer]))
    case Other(tag) => Throw(s, InvalidDataType + tag)
  }

  /** A `stringified_json_object` envelope: only a license response is
      understood. It is saved, its next question becomes the assistant's
      text, and a non-empty explanation replaces the explainer text. */
  function HandleContainer(s: Session, container: JsonObjectAndType): (r: Outcome)
    ensures r.thrown.Some? <==> container.jsonType != LicenseResponseType
    ensures r.thrown.Some? ==> r == Throw(s, UnknownJsonType + container.jsonType)
    ensures r.thrown.None? ==>
              && r.session.licenseResponse == Some(container.jsonObject)
              && r.session.licenseAssistantText == Said(container.jsonObject.nextQuestion)
              && r.session.licenseAssistantExplainerText ==
                 (if container.jsonObject.licenseTermsExplained != "" then container.jsonObject.licenseTermsExplained
                  else s.licenseAssistantExplainerText)
    ensures r.session.(licenseResponse := s.licenseResponse, licenseAssistantText := s.licenseAssistantText,
                       licenseAssistantExplainerText := s.licenseAssistantExplainerText) == s
  {
    if container.jsonType == LicenseResponseType then
      var license := container.jsonObject;
      var saved := s.(licenseResponse := Some(license), licenseAssistantText := Said(license.nextQuestion));
      if license.licenseTermsExplained != "" then
        Done(saved.(licenseAssistantExplainerText := license.licenseTermsExplained))
      else Done(saved)
    else Throw(s, UnknownJsonType + container.jsonType)
  }

  /** A `twitter_card_details` envelope: a share request opens the share URL
      in a new tab; any other message, or details the builder refuses, throw. */
  function HandleCardDetails(s: Session, details: TwitterCardDetails, protocolOf: string -> Option<string>)
    : (r: Outcome)
    ensures r.thrown.Some? <==> CardRejected(details, protocolOf)
    ensures details.clientUserMessage != TwitterShareMessage ==>
              r == Throw(s, UnknownClientUserMessage + details.clientUserMessage)
    ensures details.clientUserMessage == TwitterShareMessage && BuildCardShareUrl(details, protocolOf).Err? ==>
              r == Throw(s, Message(BuildCardShareUrl(details, protocolOf).error))
    ensures r.thrown.None? ==> r.session == s.(openedTabs := s.openedTabs + [BuildCardShareUrl(details, protocolOf).value])
    ensures r.session.(openedTabs := s.openedTabs) == s
  {
    if details.clientUserMessage == TwitterShareMessage then
      match BuildCardShareUrl(details, protocolOf)
      case Err(err) => Throw(s, Message(err))
      case Ok(url) => Done(s.(openedTabs := s.openedTabs + [url]))
    else Throw(s, UnknownClientUserMessage + details.clientUserMessage)
  }

  /** The message each rejected envelope throws. */
  lemma RejectionMessages(s: Session, e: Envelope, protocolOf: string -> Option<string>)
    ensures var r := Handle(s, e, protocolOf);
            && (e.JsonResponseStringified? && e.container.jsonType != LicenseResponseType ==>
                  r.thrown == Some(UnknownJsonType + e.container.jsonType))
            && (e.ShareImageOnTwitter? && e.share.urlToTwitterCard == "" ==> r.thrown == Some(TwitterCardUrlEmpty))
            && (e.CardDetails? && e.details.clientUserMessage != TwitterShareMessage ==>
                  r.thrown == Some(UnknownClientUserMessage + e.details.clientUserMessage))
            && (e.CardDetails? && e.details.clientUserMessage == TwitterShareMessage
                && BuildCardShareUrl(e.details, protocolOf).Err? ==>
                  r.thrown == Some(Message(BuildCardShareUrl(e.details, protocolOf).error)))
            && (e.Other? ==> r.thrown == Some(InvalidDataType + e.tag))
  {
  }

  /** The declared tags `audio`, `stringified_json_object` and
      `license_response` reach the final `else` and throw. */
  lemma UnhandledTagsThrow(s: Session, t: ServerTag, protocolOf: string -> Option<string>)
    requires Unhandled(t)
    ensures Branchless(TagName(t))
    ensures Receive(s, TextFrame(Other(TagName(t))), protocolOf).thrown == Some(InvalidDataType + TagName(t))
  {
    BranchlessIffUnhandled(t);
  }

  /** A license response is saved, its next question becomes the assistant
      text, and a non-empty explanation replaces the explainer text. */
  lemma LicenseResponseSaved(s: Session, license: LicenseResponse, protocolOf: string -> Option<string>)
    ensures var r := Receive(s, TextFrame(JsonResponseStringified(JsonObjectAndType(LicenseResponseType, license))), protocolOf);
            && r.thrown.None?
            && r.session.licenseResponse == Some(license)
            && r.session.licenseAssistantText == Said(license.nextQuestion)
            && r.session.licenseAssistantExplainerText ==
               (if license.licenseTermsExplained != "" then license.licenseTermsExplained else s.licenseAssistantExplainerText)
  {
  }

  /** `state` replaces the status text verbatim. */
  lemma StateReplacesStatus(s: Session, payload: StatePayload, protocolOf: string -> Option<string>)
    ensures Receive(s, TextFrame(State(payload)), protocolOf) ==
            Done(s.(errorMessage := "", stateText := payload.stateChangeMessage))
  {
  }

  /** An `image` envelope with URLs shows them and ends the busy state; an
      empty URL list changes nothing but the banner clear. */
  lemma ImageEnvelope(s: Session, payload: ImagePayload, protocolOf: string -> Option<string>)
    ensures var r := Receive(s, TextFrame(Image(payload)), protocolOf);
            && r.thrown.None?
            && (|payload.urls| > 0 ==> r.session == s.(errorMessage := "", showCarousel := true, images := payload, isStreaming := false))
            && (|payload.urls| == 0 ==> r.session == s.(errorMessage := ""))
  {
  }

  /** An `error` envelope ends the busy state, shows the payload's error
      (or the stock text when it has none) and schedules its clearing. */
  lemma ErrorEnvelope(s: Session, payload: ErrorPayload, protocolOf: string -> Option<string>)
    ensures var r := Receive(s, TextFrame(Error(payload)), protocolOf);
            && r.thrown.None?
            && r.session == s.(isStreaming := false,
                               errorMessage := if payload.error.Some? then payload.error.value else UnknownError,
                               timers := s.timers + [ClearErrorTimer])
  {
  }

  /** The text envelopes carrying `deltas`, in order. */
  function TextFrames(deltas: seq<string>): (r: seq<Frame>)
    ensures |r| == |deltas|
    ensures forall i :: 0 <= i < |deltas| ==> r[i] == TextFrame(Text(TextPayload(deltas[i])))
  {
    seq(|deltas|, i requires 0 <= i < |deltas| => TextFrame(Text(TextPayload(deltas[i]))))
  }

  /** The pieces of `deltas` end to end. */
  function Concat(deltas: seq<string>): string
    decreases |deltas|
  {
    if deltas == [] then "" else deltas[0] + Concat(deltas[1..])
  }

  /** Frames handled one after another, each from the state the previous one
      left, whether or not it threw. */
  function ReceiveAll(s: Session, frames: seq<Frame>, protocolOf: string -> Option<string>): Session
    decreases |frames|
  {
    if frames == [] then s else ReceiveAll(Receive(s, frames[0], protocolOf).session, frames[1..], protocolOf)
  }

  /** Text deltas accumulate in arrival order: after n of them the story is
      the old story followed by the n deltas. */
  lemma {:induction false} TextDeltasAccumulate(s: Session, deltas: seq<string>, protocolOf: string -> Option<string>)
    ensures ReceiveAll(s, TextFrames(deltas), protocolOf).story == s.story + Concat(deltas)
    decreases |deltas|
  {
    if deltas == [] {
      assert s.story + "" == s.story;
    } else {
      var frames := TextFrames(deltas);
      var next := Receive(s, frames[0], protocolOf).session;
      assert next.story == s.story + deltas[0];
      assert frames[1..] == TextFrames(deltas[1..]);
      TextDeltasAccumulate(next, deltas[1..], protocolOf);
      Regroup(s.story, deltas[0], Concat(deltas[1..]));
    }
  }

  // ---------------------------------------------------------------------
  // Socket handlers and reconnect policy

  /** `onOpen`: the counter restarts and the connection is marked up; the
      effect watching that flag clears the banner when it turns true. */
  function OnOpen(s: Session): (r: Session)
    ensures r.connectionAttempt == 0 && r.connectionEstablished
    ensures !s.connectionEstablished ==> r.errorMessage == ""
    ensures s.connectionEstablished ==> r.errorMessage == s.errorMessage
    ensures r.(connectionAttempt := s.connectionAttempt, connectionEstablished := s.connectionEstablished,
               errorMessage := s.errorMessage) == s
  {
    var up := s.(connectionAttempt := 0, connectionEstablished := true);
    if s.connectionEstablished then up else up.(errorMessage := "")
  }

  /** `onClose`: the connection is down, the busy state ends and the banner
      shows the close reason. */
  function OnClose(s: Session, reason: string): (r: Session)
    ensures !r.connectionEstablished && !r.isStreaming
    ensures r.errorMessage == Disconnected + reason
    ensures r.(connectionEstablished := s.connectionEstablished, isStreaming := s.isStreaming,
               errorMessage := s.errorMessage) == s
  {
    s.(connectionEstablished := false, isStreaming := false, errorMessage := Disconnected + reason)
  }

  /** `onError`: only the banner changes. */
  function OnError(s: Session): (r: Session)
    ensures r.errorMessage == WebSocketError
    ensures r.(errorMessage := s.errorMessage) == s
  {
    s.(errorMessage := WebSocketError)
  }

  /** `shouldReconnect`: another attempt, counted, while fewer than five have
      been made since the last open; otherwise none. */
  function ShouldReconnect(s: Session): (r: (Session, bool))
    ensures r.1 <==> s.connectionAttempt < MaxReconnectAttempts
    ensures r.1 ==> r.0.connectionAttempt == s.connectionAttempt + 1
    ensures !r.1 ==> r.0 == s
    ensures r.0.(connectionAttempt := s.connectionAttempt) == s
  {
    if s.connectionAttempt < MaxReconnectAttempts then (s.(connectionAttempt := s.connectionAttempt + 1), true)
    else (s, false)
  }

  /** `n` closes in a row, each asking `shouldReconnect`: the session after
      them and how many were answered with a reconnect. */
  function CloseRepeatedly(s: Session, n: nat): (Session, nat)
    decreases n
  {
    if n == 0 then (s, 0)
    else
      var (next, again) := ShouldReconnect(s);
      var (last, count) := CloseRepeatedly(next, n - 1);
      (last, if again then count + 1 else count)
  }

  function Min(a: int, b: int): int {
    if a <= b then a else b
  }

  /** Without an open in between, at most five reconnects are granted in
      all: from a counter of `k`, exactly `min(n, 5 - k)` of `n` requests are,
      and the counter stops at five. */
  lemma {:induction false} ReconnectsBounded(s: Session, n: nat)
    requires s.connectionAttempt <= MaxReconnectAttempts
    ensures CloseRepeatedly(s, n).1 == Min(n, MaxReconnectAttempts - s.connectionAttempt)
    ensures CloseRepeatedly(s, n).0.connectionAttempt == Min(s.connectionAttempt + n, MaxReconnectAttempts)
    decreases n
  {
    if n > 0 {
      ReconnectsBounded(ShouldReconnect(s).0, n - 1);
    }
  }

  // ---------------------------------------------------------------------
  // Outbound dispatch

  /** `onPromptUpdate` and `onLicenseAssistantPromptChanged`: the user's own
      text replaces the prompt and stops genre changes overwriting it. */
  function OnPromptUpdate(s: Session, value: string): (r: Session)
    ensures r.userHasTyped && r.prompt == value
    ensures r.(userHasTyped := s.userHasTyped, prompt := s.prompt) == s
  {
    s.(userHasTyped := true, prompt := value)
  }

  /** `onLicenseAssistantTakeAction`: one chat volley with the license
      assistant, ignored while busy. The volley carries the new-session
      flag, which it then clears. */
  function OnLicenseAssistantTakeAction(s: Session, userInput: string): (r: Session)
    ensures s.isStreaming ==> r == s
    ensures !s.isStreaming ==>
              && r.outbox == s.outbox + [RequestLicenseAssistant(s.userId, userInput, s.isNewLicenseSession)]
              && r.story == "" && !r.isNewLicenseSession
    ensures r.(story := s.story, outbox := s.outbox, isNewLicenseSession := s.isNewLicenseSession) == s
  {
    if s.isStreaming then s
    else
      s.(story := "",
         outbox := s.outbox + [RequestLicenseAssistant(s.userId, userInput, s.isNewLicenseSession)],
         isNewLicenseSession := false)
  }

  /** `sendUserBlockchainPresenceMessage`: a presence without a public
      address throws before anything is sent. */
  function SendUserBlockchainPresenceMessage(s: Session, presence: Presence): (r: Outcome)
    ensures r.thrown.Some? <==> presence.publicAddress == ""
    ensures r.thrown.Some? ==> r == Throw(s, PublicAddressEmpty)
    ensures r.thrown.None? ==> r.session == s.(outbox := s.outbox + [RequestStorePresence(presence)])
  {
    if presence.publicAddress == "" then Throw(s, PublicAddressEmpty)
    else Done(s.(outbox := s.outbox + [RequestStorePresence(presence)]))
  }

  /** `onGenreChange`: the genre is recorded; until the user has typed, the
      genre's default prompt (with `%user%` replaced by the user's name)
      becomes the prompt. A genre without a default prompt throws after the
      genre is recorded. */
  function OnGenreChange(s: Session, genre: string): (r: Outcome)
    ensures r.session.genre == genre
    ensures s.userHasTyped ==> r == Done(s.(genre := genre))
    ensures !s.userHasTyped && genre in DefaultPrompts ==>
              r == Done(s.(genre := genre, prompt := ReplaceFirst(DefaultPrompts[genre], UserPlaceholder, s.userName)))
    ensures r.thrown.Some? <==> !s.userHasTyped && genre !in DefaultPrompts
  {
    var chosen := s.(genre := genre);
    if s.userHasTyped then Done(chosen)
    else if genre in DefaultPrompts then
      Done(chosen.(prompt := ReplaceFirst(DefaultPrompts[genre], UserPlaceholder, s.userName)))
    else Throw(chosen, NoDefaultPrompt)
  }

  /** Every genre a toolbar button offers has a default prompt, so
      `onGenreChange` never throws for one. */
  lemma GenreChangeTotal(s: Session, genre: string)
    requires genre in StoryGenres
    ensures OnGenreChange(s, genre).thrown.None?
  {
    GenreTablesAgree();
  }

  /** `t` is `s` after one image request in `mode`: the carousel is hidden,
      the session is busy, the story restarts, the current prompt goes out
      with the mode and the active image, and nothing else changes. */
  predicate ImageRequested(s: Session, t: Session, mode: ImageProcessingMode) {
    && !t.showCarousel && t.isStreaming && t.story == ""
    && t.outbox == s.outbox + [RequestImageAssistant(s.userId, s.prompt, mode, s.activeImageUrl)]
    && t.(showCarousel := s.showCarousel, isStreaming := s.isStreaming, story := s.story, outbox := s.outbox) == s
  }

  /** `doTheImageRequest`: one image request. */
  function DoTheImageRequest(s: Session, mode: ImageProcessingMode): (r: Session)
    ensures ImageRequested(s, r, mode)
  {
    s.(showCarousel := false, isStreaming := true, story := "",
       outbox := s.outbox + [RequestImageAssistant(s.userId, s.prompt, mode, s.activeImageUrl)])
  }

  /** `onGenreSelect`: a refine request unless busy. */
  function OnGenreSelect(s: Session, genre: string): (r: Session)
    ensures s.isStreaming ==> r == s
    ensures !s.isStreaming ==> ImageRequested(s, r, Refine)
  {
    if s.isStreaming then s else DoTheImageRequest(s, Refine)
  }

  /** `doMakeImage`: unless busy, the input becomes the prompt and an enhance
      request goes out. The request carries the prompt the handler's render
      saw, not the input: the state update has not landed yet. */
  function DoMakeImage(s: Session, userInput: string): (r: Session)
    ensures s.isStreaming ==> r == s
    ensures !s.isStreaming ==> r.prompt == userInput && ImageRequested(s, r.(prompt := s.prompt), Enhance)
  {
    if s.isStreaming then s else DoTheImageRequest(s, Enhance).(prompt := userInput)
  }

  /** `doProcessImage`: a NEW request always goes out, busy or not; the other
      modes need an active image. */
  function DoProcessImage(s: Session, mode: ImageProcessingMode): (r: Session)
    ensures |r.outbox| == |s.outbox| + 1 <==> mode == New || s.activeImageUrl != ""
    ensures mode == New || s.activeImageUrl != "" ==> ImageRequested(s, r, mode)
    ensures r.outbox == s.outbox ==> r == s
  {
    if mode == New || s.activeImageUrl != "" then DoTheImageRequest(s, mode) else s
  }

  /** `requestGetUserBlockchainPresenceObject`: the request goes out and the
      promise's resolver takes the get slot. */
  function RequestGetUserBlockchainPresence(s: Session, userPublicAddress: string): (r: (Session, nat))
    ensures r.0.outbox == s.outbox + [RequestGetPresence(userPublicAddress)]
    ensures r.0.resolvers.get == Some(r.1) && r.1 == |s.resolvers.issued|
    ensures r.0.resolvers.mint == s.resolvers.mint && r.0.resolvers.store == s.resolvers.store
    ensures r.0.(outbox := s.outbox, resolvers := s.resolvers) == s
  {
    var (c, id) := Request(s.resolvers, GetKind);
    (s.(outbox := s.outbox + [RequestGetPresence(userPublicAddress)], resolvers := c), id)
  }

  /** `requestStoreUserBlockchainPresenceObject`: the send may throw, in
      which case the promise is rejected and no slot changes; otherwise the
      resolver takes the store slot. */
  function RequestStoreUserBlockchainPresence(s: Session, presence: Presence): (r: (Session, Result<nat, string>))
    ensures r.1.Err? <==> presence.publicAddress == ""
    ensures r.1.Err? ==> r.0 == s && r.1.error == PublicAddressEmpty
    ensures r.1.Ok? ==> && r.0.outbox == s.outbox + [RequestStorePresence(presence)]
                        && r.0.resolvers.store == Some(r.1.value) && r.1.value == |s.resolvers.issued|
                        && r.0.resolvers.mint == s.resolvers.mint && r.0.resolvers.get == s.resolvers.get
    ensures r.0.(outbox := s.outbox, resolvers := s.resolvers) == s
  {
    var sent := SendUserBlockchainPresenceMessage(s, presence);
    match sent.thrown
    case Some(message) => (s, Err(message))
    case None =>
      var (c, id) := Request(sent.session.resolvers, StoreKind);
      (sent.session.(resolvers := c), Ok(id))
  }

  /** `requestMintNftTokenDetailsFromServer`: the request names the image
      the handler saw; the resolver takes the mint slot. */
  function RequestMintNftTokenDetails(s: Session, presence: Presence, imageUrl: string, dimensions: ImageDimensions)
    : (r: (Session, nat))
    ensures r.0.outbox == s.outbox + [RequestMintNft(s.userId, presence, imageUrl, dimensions, NoClientUserMessage)]
    ensures r.0.resolvers.mint == Some(r.1) && r.1 == |s.resolvers.issued|
    ensures r.0.resolvers.get == s.resolvers.get && r.0.resolvers.store == s.resolvers.store
    ensures r.0.(outbox := s.outbox, resolvers := s.resolvers) == s
  {
    var (c, id) := Request(s.resolvers, MintKind);
    (s.(outbox := s.outbox + [RequestMintNft(s.userId, presence, imageUrl, dimensions, NoClientUserMessage)],
        resolvers := c), id)
  }

  /** `doShareImageOnTwitter`: a share request for the active image, if any. */
  function DoShareImageOnTwitter(s: Session): (r: Session)
    ensures s.activeImageUrl == "" ==> r == s
    ensures s.activeImageUrl != "" ==>
              r == s.(outbox := s.outbox + [RequestShareImageOnTwitter(s.userId, s.activeImageUrl,
                                                                        s.activeImageDimensions, TwitterShareMessage)])
  {
    if s.activeImageUrl == "" then s
    else s.(outbox := s.outbox + [RequestShareImageOnTwitter(s.userId, s.activeImageUrl, s.activeImageDimensions,
                                                               TwitterShareMessage)])
  }

  /** `doHandleBackButtonClick`: the license assistant is hidden. */
  function DoHandleBackButtonClick(s: Session): (r: Session)
    ensures !r.licenseAssistantVisible && r.(licenseAssistantVisible := s.licenseAssistantVisible) == s
  {
    s.(licenseAssistantVisible := false)
  }

  /** `doLicenseAssistantBeforeMinting`: a new license chat is armed and the
      license assistant shown. */
  function DoLicenseAssistantBeforeMinting(s: Session): (r: Session)
    ensures r.isNewLicenseSession && r.chatbotName == LicenseAssistant && r.licenseAssistantVisible
    ensures r.(isNewLicenseSession := s.isNewLicenseSession, chatbotName := s.chatbotName,
               licenseAssistantVisible := s.licenseAssistantVisible) == s
  {
    s.(isNewLicenseSession := true, chatbotName := LicenseAssistant, licenseAssistantVisible := true)
  }

  /** `doActiveImageChange`: an empty URL leaves the active image as it was. */
  function DoActiveImageChange(s: Session, url: string, dimensions: ImageDimensions): (r: Session)
    ensures url == "" ==> r == s
    ensures url != "" ==> r.activeImageUrl == url && r.activeImageDimensions == dimensions
    ensures r.(activeImageUrl := s.activeImageUrl, activeImageDimensions := s.activeImageDimensions) == s
  {
    if url == "" then s else s.(activeImageUrl := url, activeImageDimensions := dimensions)
  }

  /** `openExplorerPage`: an empty URL throws; otherwise a tab opens on it. */
  function OpenExplorerPage(s: Session, url: string): (r: Outcome)
    ensures r.thrown == (if url == "" then Some(ExplorerUrlEmpty) else None)
    ensures r.session.openedTabs == (if url == "" then s.openedTabs else s.openedTabs + [url])
    ensures r.session.(openedTabs := s.openedTabs) == s
  {
    if url == "" then Throw(s, ExplorerUrlEmpty) else Done(s.(openedTabs := s.openedTabs + [url]))
  }

  // ---------------------------------------------------------------------
  // Timers

  /** The pending timers with the `i`-th removed. */
  function Without(timers: seq<Timer>, i: nat): (r: seq<Timer>)
    requires i < |timers|
    ensures |r| == |timers| - 1
  {
    timers[..i] + timers[i + 1..]
  }

  /** Removing one timer keeps the others pending, in order. */
  lemma WithoutKeepsOthers(timers: seq<Timer>, i: nat)
    requires i < |timers|
    ensures forall j :: 0 <= j < i ==> Without(timers, i)[j] == timers[j]
    ensures forall j :: i <= j < |timers| - 1 ==> Without(timers, i)[j] == timers[j + 1]
    ensures multiset(Without(timers, i)) + multiset{timers[i]} == multiset(timers)
  {
    assert timers == timers[..i] + [timers[i]] + timers[i + 1..];
  }

  /** The `i`-th pending timer fires: `clearError`'s callback blanks the
      banner; the explorer callback ends the busy state and opens the
      explorer page, which throws on an empty URL. */
  function FireTimer(s: Session, i: nat): (r: Outcome)
    requires i < |s.timers|
    ensures s.timers[i].ClearErrorTimer? ==> r == Done(s.(timers := Without(s.timers, i), errorMessage := ""))
    ensures s.timers[i].ExplorerTimer? ==>
              var url := s.timers[i].url;
              && r.session == s.(timers := Without(s.timers, i), isStreaming := false,
                                 openedTabs := s.openedTabs + (if url == "" then [] else [url]))
              && r.thrown == (if url == "" then Some(ExplorerUrlEmpty) else None)
  {
    var rest := s.(timers := Without(s.timers, i));
    match s.timers[i]
    case ClearErrorTimer => Done(rest.(errorMessage := ""))
    case ExplorerTimer(url) => OpenExplorerPage(rest.(isStreaming := false), url)
  }

  /** The clear scheduled by an `error` envelope blanks the banner when it
      fires, whatever was shown meanwhile. */
  lemma ErrorClearsAfterDelay(s: Session, payload: ErrorPayload, protocolOf: string -> Option<string>)
    ensures var after := Receive(s, TextFrame(Error(payload)), protocolOf).session;
            && after.timers[|after.timers| - 1] == ClearErrorTimer
            && Delay(ClearErrorTimer) == 5000
            && FireTimer(after, |after.timers| - 1).session.errorMessage == ""
  {
  }

  // ---------------------------------------------------------------------
  // Everything the socket, the user, the pipeline's requests or a timer
  // can do, and what all of it preserves

  datatype SocketEvent = Open | Close(reason: string) | SocketError | Reconnect

  /** The image assistant's prompt box and genre buttons. */
  datatype PromptEvent =
    | PromptUpdate(value: string)
    | GenreChange(genre: string)
    | GenreSelect(genre: string)
    | MakeImage(userInput: string)

  /** The image toolbar and the carousel. */
  datatype ToolbarEvent =
    | ProcessImage(mode: ImageProcessingMode)
    | ShareOnTwitter
    | ActiveImageChange(url: string, dimensions: ImageDimensions)

  /** The license assistant. */
  datatype LicenseEvent = LicenseVolley(userInput: string) | BackButton | BeforeMinting

  /** The three correlated requests, each with what its caller passes. */
  datatype RequestEvent =
    | GetPresence(userPublicAddress: string)
    | StorePresence(presence: Presence)
    | MintDetailsRequest(presence: Presence, imageUrl: string, dimensions: ImageDimensions)

  datatype Event =
    | Inbound(frame: Frame)
    | Socket(socket: SocketEvent)
    | PromptAction(prompt: PromptEvent)
    | ToolbarAction(toolbar: ToolbarEvent)
    | LicenseAction(license: LicenseEvent)
    | Requesting(request: RequestEvent)
    | Timeout(index: nat)

  /** The only event that raises the new-license-session flag. */
  predicate Arms(e: Event) {
    e.LicenseAction? && e.license.BeforeMinting?
  }

  /** `r`'s outbox is `s`'s with messages appended. */
  predicate OutboxExtends(s: Session, r: Session) {
    |s.outbox| <= |r.outbox| && r.outbox[..|s.outbox|] == s.outbox
  }

  /** Every license volley appended after `s` carries `s`'s flag. */
  predicate VolleysCarryFlag(s: Session, r: Session) {
    forall i :: |s.outbox| <= i < |r.outbox| && r.outbox[i].RequestLicenseAssistant? ==>
      r.outbox[i].isNewLicenseSession == s.isNewLicenseSession
  }

  /** The flag was not raised. */
  predicate FlagNotRaised(s: Session, r: Session) {
    s.isNewLicenseSession || !r.isNewLicenseSession
  }

  /** Appending messages extends the outbox, and extensions compose. */
  lemma ExtendsTrans(s: Session, m: Session, r: Session)
    requires OutboxExtends(s, m) && OutboxExtends(m, r)
    ensures OutboxExtends(s, r)
    ensures forall i :: |s.outbox| <= i < |m.outbox| ==> r.outbox[i] == m.outbox[i]
  {
    forall i | |s.outbox| <= i < |m.outbox| ensures r.outbox[i] == m.outbox[i] {
      assert r.outbox[..|m.outbox|][i] == r.outbox[i];
    }
    assert r.outbox[..|s.outbox|] == r.outbox[..|m.outbox|][..|s.outbox|];
  }

  lemma AppendExtends(s: Session, r: Session, sent: seq<Outbound>)
    requires r.outbox == s.outbox + sent
    ensures OutboxExtends(s, r)
  {
    assert r.outbox[..|s.outbox|] == s.outbox;
  }

  method DispatchSocket(s: Session, e: SocketEvent) returns (r: Session)
    ensures Valid(s) ==> Valid(r)
    ensures r.outbox == s.outbox && r.isNewLicenseSession == s.isNewLicenseSession && r.resolvers == s.resolvers
    ensures e.Reconnect? ==> r.connectionAttempt == (if s.connectionAttempt < MaxReconnectAttempts then s.connectionAttempt + 1 else s.connectionAttempt)
    ensures e.Open? ==> r.connectionAttempt == 0 && r.connectionEstablished
  {
    match e
    case Open => r := OnOpen(s);
    case Close(reason) => r := OnClose(s, reason);
    case SocketError => r := OnError(s);
    case Reconnect => r := ShouldReconnect(s).0;
  }

  /** A step that appends no license volley and leaves the reconnect
      counter, the resolver slots and the new-license-session flag alone. */
  ghost predicate QuietStep(s: Session, r: Session) {
    && OutboxExtends(s, r)
    && (forall i :: |s.outbox| <= i < |r.outbox| ==> !r.outbox[i].RequestLicenseAssistant?)
    && r.connectionAttempt == s.connectionAttempt && r.resolvers == s.resolvers
    && r.isNewLicenseSession == s.isNewLicenseSession
  }

  /** Appending requests other than volleys, with those three fields kept, is
      a quiet step. */
  lemma AppendQuiet(s: Session, r: Session, sent: seq<Outbound>)
    requires r.outbox == s.outbox + sent
    requires forall i :: 0 <= i < |sent| ==> !sent[i].RequestLicenseAssistant?
    requires r.connectionAttempt == s.connectionAttempt && r.resolvers == s.resolvers
    requires r.isNewLicenseSession == s.isNewLicenseSession
    ensures QuietStep(s, r)
  {
    AppendExtends(s, r, sent);
    forall i | |s.outbox| <= i < |r.outbox| ensures !r.outbox[i].RequestLicenseAssistant? {
      assert r.outbox[i] == sent[i - |s.outbox|];
    }
  }

  /** A quiet step keeps the invariant and all the flag bookkeeping. */
  lemma QuietStepKeeps(s: Session, r: Session)
    requires QuietStep(s, r)
    ensures Valid(s) ==> Valid(r)
    ensures OutboxExtends(s, r) && VolleysCarryFlag(s, r) && FlagNotRaised(s, r)
  {
  }

  /** The prompt controls: each sends at most one image request and nothing
      else; only a genre without a default prompt throws. */
  method DispatchPrompt(s: Session, e: PromptEvent) returns (r: Outcome)
    ensures QuietStep(s, r.session)
    ensures r.thrown.Some? ==> e.GenreChange?
  {
    match e
    case PromptUpdate(v) =>
      r := Done(OnPromptUpdate(s, v));
      AppendQuiet(s, r.session, []);
    case GenreChange(g) =>
      r := OnGenreChange(s, g);
      AppendQuiet(s, r.session, []);
    case GenreSelect(g) =>
      r := Done(OnGenreSelect(s, g));
      AppendQuiet(s, r.session, if s.isStreaming then [] else [RequestImageAssistant(s.userId, s.prompt, Refine, s.activeImageUrl)]);
    case MakeImage(input) =>
      r := Done(DoMakeImage(s, input));
      AppendQuiet(s, r.session, if s.isStreaming then [] else [RequestImageAssistant(s.userId, s.prompt, Enhance, s.activeImageUrl)]);
  }

  /** The toolbar: each control sends at most one image or share request and
      nothing else, and none throws. */
  method DispatchToolbar(s: Session, e: ToolbarEvent) returns (r: Session)
    ensures QuietStep(s, r)
  {
    match e
    case ProcessImage(mode) =>
      r := DoProcessImage(s, mode);
      AppendQuiet(s, r, if mode == New || s.activeImageUrl != "" then [RequestImageAssistant(s.userId, s.prompt, mode, s.activeImageUrl)] else []);
    case ShareOnTwitter =>
      r := DoShareImageOnTwitter(s);
      AppendQuiet(s, r, if s.activeImageUrl == "" then [] else [RequestShareImageOnTwitter(s.userId, s.activeImageUrl, s.activeImageDimensions, TwitterShareMessage)]);
    case ActiveImageChange(url, dims) =>
      r := DoActiveImageChange(s, url, dims);
      AppendQuiet(s, r, []);
  }

  method DispatchLicense(s: Session, e: LicenseEvent) returns (r: Session)
    ensures Valid(s) ==> Valid(r)
    ensures OutboxExtends(s, r) && VolleysCarryFlag(s, r)
    ensures !e.BeforeMinting? ==> FlagNotRaised(s, r)
    ensures r.resolvers == s.resolvers
  {
    match e
    case LicenseVolley(input) =>
      r := OnLicenseAssistantTakeAction(s, input);
      if !s.isStreaming {
        AppendExtends(s, r, [RequestLicenseAssistant(s.userId, input, s.isNewLicenseSession)]);
      } else {
        AppendExtends(s, r, []);
      }
    case BackButton =>
      r := DoHandleBackButtonClick(s);
      AppendExtends(s, r, []);
    case BeforeMinting =>
      r := DoLicenseAssistantBeforeMinting(s);
      AppendExtends(s, r, []);
  }

  /** The correlator event a request is, once it gets as far as its slot. */
  function RequestKind(e: RequestEvent): Kind {
    match e
    case GetPresence(_) => GetKind
    case StorePresence(_) => StoreKind
    case MintDetailsRequest(_, _, _) => MintKind
  }

  /** A request sends one message and parks its resolver, as the correlator's
      request does; only a store request for a presence without a public
      address throws, touching nothing. */
  method DispatchRequest(s: Session, e: RequestEvent) returns (r: Outcome)
    ensures Valid(s) ==> Valid(r.session)
    ensures OutboxExtends(s, r.session) && VolleysCarryFlag(s, r.session)
    ensures r.session.isNewLicenseSession == s.isNewLicenseSession
    ensures r.thrown.Some? <==> e.StorePresence? && e.presence.publicAddress == ""
    ensures r.thrown.Some? ==> r.session == s
    ensures r.thrown.None? ==> && |r.session.outbox| == |s.outbox| + 1
                               && r.session.resolvers == Correlator.Apply(s.resolvers, Req(RequestKind(e)))
  {
    match e {
      case GetPresence(address) =>
        r := Done(RequestGetUserBlockchainPresence(s, address).0);
        AppendExtends(s, r.session, [RequestGetPresence(address)]);
      case StorePresence(p) =>
        var (next, promise) := RequestStoreUserBlockchainPresence(s, p);
        if promise.Err? {
          r := Throw(next, promise.error);
          AppendExtends(s, r.session, []);
        } else {
          r := Done(next);
          AppendExtends(s, r.session, [RequestStorePresence(p)]);
        }
      case MintDetailsRequest(p, url, dims) =>
        r := Done(RequestMintNftTokenDetails(s, p, url, dims).0);
        AppendExtends(s, r.session, [RequestMintNft(s.userId, p, url, dims, NoClientUserMessage)]);
    }
    if r.thrown.None? && Valid(s) {
      ApplyValid(s.resolvers, Req(RequestKind(e)));
    }
  }

  /** The resolver slots after the reducer: the reply envelopes act on them
      as the correlator's reply events do, every other frame leaves them. */
  function SlotsAfter(c: Slots, f: Frame): Slots {
    if f.BinaryFrame? then c
    else match f.envelope
      case MintDetails(d) => Correlator.Apply(c, MintReply(d))
      case GetPresenceResult(p) => Correlator.Apply(c, GetReply(p))
      case StorePresenceResult(payload) => Correlator.Apply(c, StoreReply(payload.result))
      case _ => c
  }

  /** The reducer drives the resolver slots exactly as the correlator model
      says. */
  lemma ReceiveDrivesSlots(s: Session, f: Frame, protocolOf: string -> Option<string>)
    ensures Receive(s, f, protocolOf).session.resolvers == SlotsAfter(s.resolvers, f)
  {
    if f.TextFrame? {
      var t := s.(errorMessage := "");
      assert t.resolvers == s.resolvers;
      assert Handle(t, f.envelope, protocolOf).session.resolvers == SlotsAfter(t.resolvers, f);
    }
  }

  /** A frame keeps the invariant: the reducer only touches the resolvers
      through correlator events, which keep theirs. */
  method DispatchInbound(s: Session, f: Frame, protocolOf: string -> Option<string>) returns (r: Outcome)
    ensures r == Receive(s, f, protocolOf)
    ensures Valid(s) ==> Valid(r.session)
  {
    r := Receive(s, f, protocolOf);
    ReceiveDrivesSlots(s, f, protocolOf);
    if Valid(s) && f.TextFrame? {
      match f.envelope {
        case MintDetails(d) => ApplyValid(s.resolvers, MintReply(d));
        case GetPresenceResult(p) => ApplyValid(s.resolvers, GetReply(p));
        case StorePresenceResult(payload) => ApplyValid(s.resolvers, StoreReply(payload.result));
        case _ =>
      }
    }
  }

  /** A timer fires; an index with no timer behind it does nothing. */
  method DispatchTimeout(s: Session, i: nat) returns (r: Outcome)
    ensures QuietStep(s, r.session)
    ensures i < |s.timers| ==> |r.session.timers| == |s.timers| - 1
  {
    if i < |s.timers| {
      r := FireTimer(s, i);
    } else {
      r := Done(s);
    }
    AppendQuiet(s, r.session, []);
  }

  /** One event of any kind. */
  method Dispatch(s: Session, e: Event, protocolOf: string -> Option<string>) returns (r: Outcome)
    ensures Valid(s) ==> Valid(r.session)
    ensures OutboxExtends(s, r.session) && VolleysCarryFlag(s, r.session)
    ensures !Arms(e) ==> FlagNotRaised(s, r.session)
  {
    match e
    case Inbound(f) =>
      r := DispatchInbound(s, f, protocolOf);
      AppendExtends(s, r.session, []);
    case Socket(se) =>
      var next := DispatchSocket(s, se);
      r := Done(next);
      AppendExtends(s, r.session, []);
    case PromptAction(pe) =>
      r := DispatchPrompt(s, pe);
      QuietStepKeeps(s, r.session);
    case ToolbarAction(te) =>
      var next := DispatchToolbar(s, te);
      r := Done(next);
      QuietStepKeeps(s, r.session);
    case LicenseAction(le) =>
      var next := DispatchLicense(s, le);
      r := Done(next);
    case Requesting(re) => r := DispatchRequest(s, re);
    case Timeout(i) =>
      r := DispatchTimeout(s, i);
      QuietStepKeeps(s, r.session);
  }

  /** Events one after another, each from the state the previous one left
      (a handler that threw leaves the writes it made). A throw from the
      message effect would tear the page down; carrying on past it covers
      that run as a prefix of this one. The invariant holds
      throughout, messages are only ever appended, and once the
      new-license-session flag is down, no volley carries it until
      `doLicenseAssistantBeforeMinting` raises it again: the flag is true on
      the first volley after that call and false on every later one. */
  method RunEvents(s: Session, events: seq<Event>, protocolOf: string -> Option<string>) returns (r: Session)
    ensures Valid(s) ==> Valid(r)
    ensures OutboxExtends(s, r)
    ensures !s.isNewLicenseSession && (forall k :: 0 <= k < |events| ==> !Arms(events[k])) ==>
              && !r.isNewLicenseSession
              && forall i :: |s.outbox| <= i < |r.outbox| && r.outbox[i].RequestLicenseAssistant? ==>
                   !r.outbox[i].isNewLicenseSession
  {
    var quiet := !s.isNewLicenseSession && (forall k :: 0 <= k < |events| ==> !Arms(events[k]));
    r := s;
    AppendExtends(s, r, []);
    var n := 0;
    while n < |events|
      invariant 0 <= n <= |events|
      invariant Valid(s) ==> Valid(r)
      invariant OutboxExtends(s, r)
      invariant quiet ==> !r.isNewLicenseSession
      invariant quiet ==> forall i :: |s.outbox| <= i < |r.outbox| && r.outbox[i].RequestLicenseAssistant? ==>
                            !r.outbox[i].isNewLicenseSession
    {
      var next := Dispatch(r, events[n], protocolOf);
      ExtendsTrans(s, r, next.session);
      r := next.session;
      n := n + 1;
    }
  }

  /** The other half of the flag's life: once `doLicenseAssistantBeforeMinting`
      has armed it, the next volley carries `true` and the one after it
      `false`. */
  lemma ArmedVolleyIsNew(s: Session, first: string, second: string)
    requires !s.isStreaming
    ensures var armed := DoLicenseAssistantBeforeMinting(s);
            var once := OnLicenseAssistantTakeAction(armed, first);
            var twice := OnLicenseAssistantTakeAction(once, second);
            && |twice.outbox| == |s.outbox| + 2
            && twice.outbox[|s.outbox|] == RequestLicenseAssistant(s.userId, first, true)
            && twice.outbox[|s.outbox| + 1] == RequestLicenseAssistant(s.userId, second, false)
  {
    var armed := DoLicenseAssistantBeforeMinting(s);
    var once := OnLicenseAssistantTakeAction(armed, first);
    assert armed.outbox == s.outbox && armed.userId == s.userId;
    assert once.outbox == s.outbox + [RequestLicenseAssistant(s.userId, first, true)];
  }
}
